=== FILE: README.md ===
# Feudal: a Dafny model of the family, tax, NPC and merchant rules

This project models the core of a Minecraft server plugin in which players form
families with a ladder of seven ranks from PEASANT to KING, hold jobs, may be serfs, and own a
circular land that is protected from other families. The families pay into a
bank through a per-serf tax. Citizens NPCs with the plugin's trait work as
farmers, guards, tax collectors and merchants. The model is written in
immutable datatypes and pure functions; the few loops are methods.

The modules follow the plugin's classes:

- `Ranks`, `Jobs`: the rank ladder and the job names.
- `Store`: the family, member, land, NPC and serf tables of `FeudalService`.
- `Tax`: the bank, the due table and the serf tax rules of `TaxService`.
- `NpcTrait`: the settings an NPC carries.
- `Inventory`: stack slots, counting and removal.
- `Farmer`, `Guard`, `TaxCollector`: the three NPC loops.
- `Territory`: the land protection listener.
- `Command`: the `/f` command.
- `MerchantKeys`, `MerchantBuy`, `ShopStorage`, `PriceInput`, `MerchantEdit`:
  price tags, buying, the shop file, and the two ways of pricing a stack in the editor.
- `Text`, `JavaInt`: the Java string and `int` behaviour the rules depend on.

Two behaviours of the code are worth noting:

- Turning serf status on keeps the job and then sets it to FARMER; it is not reset to NONE.
- The serf job restriction lives only in the command, and it rejects NONE for a serf.

The host's answers are parameters of the model functions: the online player a
name resolves to, a player's location, the admin permission, the clock, the
random drops, and whether a database call fails.

## Model

| member | source | states |
|---|---|---|
| Ranks.Promote | src/main/java/com/example/feudal/model/Rank.java:12-23 | a null rank becomes PEASANT, KING stays KING, and every other rank moves exactly one place toward KING |
| Ranks.Demote | src/main/java/com/example/feudal/model/Rank.java:25-36 | a null rank becomes PEASANT, PEASANT stays PEASANT, and every other rank moves exactly one place toward PEASANT |
| Ranks.PromoteDemoteMonotone | src/main/java/com/example/feudal/model/Rank.java:12-36 | promote never lowers a rank and demote never raises one; each leaves a rank unchanged exactly at its own bound |
| Ranks.PromoteDemoteInverse | src/main/java/com/example/feudal/model/Rank.java:12-36 | away from the bounds, demoting after promoting (and promoting after demoting) gives back the rank |
| Ranks.OrdinalInjective | src/main/java/com/example/feudal/model/Rank.java:3-10 | the seven ranks sit at seven distinct places of the declaration order |
| Ranks.DisplayNameKo | src/main/java/com/example/feudal/model/Rank.java:38-48 | every rank has a non-empty Korean display name |
| Ranks.DisplayNameKoInjective | src/main/java/com/example/feudal/model/Rank.java:38-48 | two ranks share a display name only if they are the same rank |
| Ranks.ValueOf | src/main/java/com/example/feudal/service/FeudalService.java:123-132 | a stored rank name parses only when it is exactly one constant's name; anything else, null included, parses to nothing |
| Ranks.ValueOfName | src/main/java/com/example/feudal/service/FeudalService.java:134-146 | a rank written by name reads back as the same rank |
| Jobs.ValueOf | src/main/java/com/example/feudal/service/FeudalService.java:148-157 | a stored job name parses only when it is exactly one constant's name; anything else, null included, parses to nothing |
| Jobs.ValueOfName | src/main/java/com/example/feudal/service/FeudalService.java:159-165 | a job written by name reads back as the same job |
| Jobs.IsValid | src/main/java/com/example/feudal/model/Job.java:12-15 | a name is accepted exactly when it is not null and its upper-cased form is some job's name |
| Jobs.IsValidIgnoresCase | src/main/java/com/example/feudal/model/Job.java:12-15 | the verdict is the same for a name, its lower-cased and its upper-cased form |
| Jobs.IsValidLowerCase | src/main/java/com/example/feudal/model/Job.java:12-15 | every job's own name is accepted, and so is its lower-cased form |
| Jobs.IsValidRejects | src/main/java/com/example/feudal/model/Job.java:3-15 | a name holding a space or a digit anywhere is rejected, and null is rejected |
| Jobs.NameLetters | src/main/java/com/example/feudal/model/Job.java:3-10 | every job name consists of the letters A to Z and '_' only |
| NpcTrait.RoleValueOf | src/main/java/com/example/feudal/npc/FeudalNPCTrait.java:29-33 | only a role's exact name parses, and it parses to that role |
| NpcTrait.SetRole | src/main/java/com/example/feudal/npc/FeudalNPCTrait.java:25-27 | the role is stored exactly when one is given, and no other field of the trait changes |
| NpcTrait.GetRole | src/main/java/com/example/feudal/npc/FeudalNPCTrait.java:29-33 | an unset role reads as null, and a role read back is the one whose name is stored |
| NpcTrait.RoleRoundTrip | src/main/java/com/example/feudal/npc/FeudalNPCTrait.java:25-33 | setting a role, or null, and reading it back gives what was set |
| NpcTrait.NullFieldsReadAsDefaults | src/main/java/com/example/feudal/npc/FeudalNPCTrait.java:12-18 | null fields read as tax 0, interval 300000 ms, farm interval 5000 ms and deadlines 0, the same values a new trait starts with |
| NpcTrait.GetTaxAmount | src/main/java/com/example/feudal/npc/FeudalNPCTrait.java:40 | no contract; defined as the stored amount, or 0 when null |
| NpcTrait.GetIntervalMs | src/main/java/com/example/feudal/npc/FeudalNPCTrait.java:43 | no contract; defined as the stored interval, or 300000 ms when null |
| NpcTrait.GetNextCollectAtMs | src/main/java/com/example/feudal/npc/FeudalNPCTrait.java:46 | no contract; defined as the stored deadline, or 0 when null |
| NpcTrait.GetFarmIntervalMs | src/main/java/com/example/feudal/npc/FeudalNPCTrait.java:54 | no contract; defined as the stored farm interval, or 5000 ms when null |
| NpcTrait.GetNextFarmAtMs | src/main/java/com/example/feudal/npc/FeudalNPCTrait.java:57 | no contract; defined as the stored farm deadline, or 0 when null |
| NpcTrait.InitNextIfNeeded | src/main/java/com/example/feudal/npc/FeudalNPCTrait.java:49-51 | a deadline that is not positive becomes now plus the interval; a positive one is kept; no other field changes |
| NpcTrait.InitNextIdempotent | src/main/java/com/example/feudal/npc/FeudalNPCTrait.java:49-51 | arming twice at the same time is the same as arming once |
| NpcTrait.InitFarmNextIfNeeded | src/main/java/com/example/feudal/npc/FeudalNPCTrait.java:60-62 | a farm deadline that is not positive becomes now; a positive one is kept; no other field changes |
| NpcTrait.InitFarmNextIdempotent | src/main/java/com/example/feudal/npc/FeudalNPCTrait.java:60-62 | arming the farm deadline twice at the same time is the same as arming it once |
| Store.FamilyIdOf | src/main/java/com/example/feudal/service/FeudalService.java:54-62 | no contract; defined as the family column of the player's member row, empty without a row (AbsentMemberDefaults states the missing case) |
| Store.FamilyIdByName | src/main/java/com/example/feudal/service/FeudalService.java:64-72 | the result is empty exactly when no family has the name; otherwise it is the id of the first family with that name |
| Store.FamilyNameById | src/main/java/com/example/feudal/service/FeudalService.java:74-82 | a stored id gives that family's name; any other id gives "UNKNOWN" |
| Store.GetRank | src/main/java/com/example/feudal/service/FeudalService.java:123-132 | no contract; defined as the parsed stored rank, PEASANT for a missing row or a name that does not parse (stated by AbsentMemberDefaults and UnparsableReadsAsDefault) |
| Store.GetJob | src/main/java/com/example/feudal/service/FeudalService.java:148-157 | no contract; defined as the parsed stored job, NONE for a missing row or a name that does not parse (stated by the same two lemmas) |
| Store.IsSerf | src/main/java/com/example/feudal/service/FeudalService.java:167-175 | no contract; defined as the stored serf flag, false for a missing row |
| Store.GetNpcFamilyId | src/main/java/com/example/feudal/service/FeudalService.java:206-216 | no contract; defined as the family column of the NPC row, empty for a missing row or a null column |
| Store.IsNpcSerf | src/main/java/com/example/feudal/service/FeudalService.java:230-238 | no contract; defined as the NPC row's serf flag, false for a missing row (SetNpcSerf and SetNpcMember state what writes leave) |
| Store.GetNpcJob | src/main/java/com/example/feudal/service/FeudalService.java:248-257 | no contract; defined as the parsed job of the NPC row, NONE for a missing row or a name that does not parse (SetNpcJob states what a write leaves) |
| Store.AbsentMemberDefaults | src/main/java/com/example/feudal/service/FeudalService.java:54-62 | a player without a member row has no family, rank PEASANT, job NONE and is no serf |
| Store.UnparsableReadsAsDefault | src/main/java/com/example/feudal/service/FeudalService.java:123-157 | a stored rank or job that is no constant's name reads as PEASANT or NONE |
| Store.SetMember | src/main/java/com/example/feudal/service/FeudalService.java:134-146 | the player then has the given family and rank; an existing row keeps its job and serf flag, a new one reads job NONE and serf off; no other row changes |
| Store.SetJob | src/main/java/com/example/feudal/service/FeudalService.java:159-165 | with a member row, the job becomes the given one and nothing else changes; without one, nothing at all changes |
| Store.SetSerf | src/main/java/com/example/feudal/service/FeudalService.java:177-183 | with a member row, only the serf flag changes; the job is left as it was; without a row, nothing changes |
| Store.CreateFamily | src/main/java/com/example/feudal/service/FeudalService.java:101-121 | the family is appended under the next id, and its founder becomes its KING with job NONE and serf off; every other player and table is untouched |
| Store.MembersOfFamily | src/main/java/com/example/feudal/service/FeudalService.java:188-200 | a player is listed exactly when its family column is the given family |
| Store.SetNpcMember | src/main/java/com/example/feudal/service/FeudalService.java:218-228 | the NPC then belongs to the family; an existing row keeps its serf flag and job, a new one reads serf off and job NONE; other NPCs are untouched |
| Store.SetNpcSerf | src/main/java/com/example/feudal/service/FeudalService.java:240-246 | with an NPC row only its serf flag changes; without one nothing changes |
| Store.SetNpcJob | src/main/java/com/example/feudal/service/FeudalService.java:259-265 | with an NPC row only its job changes; without one nothing changes |
| Store.GetFamilyLand | src/main/java/com/example/feudal/service/FeudalService.java:271-291 | a land found belongs to the family and is stored; none found means the family has no land row |
| Store.UpsertFamilyLand | src/main/java/com/example/feudal/service/FeudalService.java:293-314 | afterwards the family's land is exactly the one given, every other family's land is as before, and each family still has at most one row |
| Store.UpsertLand | src/main/java/com/example/feudal/service/FeudalService.java:293-314 | the new land replaces the family's old row or is added; rows of other families are all kept; the one-row-per-family key still holds |
| Store.SetFamilyLandRadius | src/main/java/com/example/feudal/service/FeudalService.java:316-322 | without a land row nothing changes; with one only its radius changes; other families' lands are as before |
| Store.SetFamilyLandEnabled | src/main/java/com/example/feudal/service/FeudalService.java:324-330 | without a land row nothing changes; with one only its enabled flag changes; other families' lands are as before |
| Store.UpdateLand | src/main/java/com/example/feudal/service/FeudalService.java:316-330 | an in-place update touches only the rows of the given family, and only the given columns |
| Store.ListEnabledFamilyLands | src/main/java/com/example/feudal/service/FeudalService.java:332-356 | a land is listed exactly when it is stored and enabled |
| Store.UpsertMeta | src/main/java/com/example/feudal/service/FeudalService.java:419-437 | the column then holds the value; every other column of the row, and every other player's row, reads as before (a missing row starts at all zeros) |
| Store.GetMeta | src/main/java/com/example/feudal/service/FeudalService.java:407-417 | no contract; defined as the stored column, or 0 for a missing row (the null column reads 0 as well, since rows are created all zero) |
| Store.AddSerfMissCount | src/main/java/com/example/feudal/service/FeudalService.java:370-373 | the miss counter grows by exactly the amount added, and nothing else changes |
| Tax.AddDue | src/main/java/com/example/feudal/service/TaxService.java:107-118 | the player's due grows by the amount, a negative amount counting as 0; other players' dues, the bank and the ledger are untouched |
| Tax.GetDue | src/main/java/com/example/feudal/service/TaxService.java:120-129 | a player without a due row owes 0, and in a valid table no due read is negative |
| Tax.SetDue | src/main/java/com/example/feudal/service/TaxService.java:131-142 | the stored due is the value clamped at 0; nothing else changes |
| Tax.ReduceDue | src/main/java/com/example/feudal/service/TaxService.java:144-148 | the due drops by the payment (a negative payment counting as 0) and never below 0; a payment within the due is subtracted exactly |
| Tax.EnsureBankRow | src/main/java/com/example/feudal/service/TaxService.java:35-44 | the family then has a bank row, with the balance it had (0 if it had none); an existing row and every other family are untouched |
| Tax.AddToBank | src/main/java/com/example/feudal/service/TaxService.java:46-57 | the family's balance grows by the amount and every other balance is as before |
| Tax.GetBankBalance | src/main/java/com/example/feudal/service/TaxService.java:59-69 | the balance read is the stored one (0 for a missing row), and reading changes no balance |
| Tax.WithdrawFromBank | src/main/java/com/example/feudal/service/TaxService.java:71-88 | the withdrawal succeeds exactly when the amount is positive and covered by the balance; then the balance drops by the amount, otherwise it is unchanged |
| Tax.RecordLedger | src/main/java/com/example/feudal/service/TaxService.java:90-102 | the entry is appended to the ledger and dues and balances are untouched |
| Tax.LedgerSumAppend | src/main/java/com/example/feudal/service/TaxService.java:90-102 | an appended entry adds its amount to the ledger total |
| Tax.BaseSerfTax | src/main/java/com/example/feudal/service/TaxService.java:155-162 | the base tax lies between 3 and 6 and is 3 exactly for jobs other than FARMER, MINER and GUARD |
| Tax.BaseSerfTaxTable | src/main/java/com/example/feudal/service/TaxService.java:155-162 | FARMER pays 4, MINER 6, GUARD 5 and every other job 3 |
| Tax.TickSerfDue | src/main/java/com/example/feudal/service/TaxService.java:172-206 | a non-serf and a serf before the deadline are untouched; on first sight only the deadline is armed; at the deadline a miss is counted for an open due, the base tax is charged (doubled at three misses, halved with floor 1 in a discount window), and the deadline moves one interval past now; nothing of other players changes |
| Tax.TickIdempotent | src/main/java/com/example/feudal/service/TaxService.java:172-206 | a second tick at the same time charges nothing and changes nothing |
| Tax.TickMonotone | src/main/java/com/example/feudal/service/TaxService.java:172-206 | a tick never lowers a due or the miss counter |
| Tax.PunishmentDoublesCharge | src/main/java/com/example/feudal/service/TaxService.java:185-198 | at a deadline outside a discount window, any job is charged twice its base tax once the misses counted at that deadline reach three, and its base tax below three |
| Tax.AddSerfDeliver | src/main/java/com/example/feudal/service/TaxService.java:213-237 | the code as written, with the sum in 32-bit int: a non-positive delivery changes nothing; while the sum fits, old points plus the delivery equal 100 per reward plus the points kept; past int's maximum the wrapped negative sum is stored and no reward is given; each reward takes 10 off the due (floored at 0) and extends the discount window by ten minutes from the later of its end and now; no other player or column changes |
| Tax.AddSerfDeliverLong | src/main/java/com/example/feudal/service/TaxService.java:213-237 | the same with the sum taken without overflow: old points plus the delivery always equal 100 per reward plus the points kept, and a rewarded delivery leaves the points in [0, 100) |
| Tax.ApplyDelivery | src/main/java/com/example/feudal/service/TaxService.java:218-234 | the rewards are the number of full hundreds in the stored count; the count left is the remainder; each reward takes 10 off the due and ten minutes onto the discount window; nothing else of the world changes |
| Tax.DeliverAgreesWithoutOverflow | src/main/java/com/example/feudal/service/TaxService.java:216-217 | while the sum fits in an int, the code as written and the overflow-free sum give the same world and the same rewards |
| Tax.DeliverOverflowStoresNegative | src/main/java/com/example/feudal/service/TaxService.java:216-221 | with 99 points, a delivery of int's maximum stores -2147483550 points and gives no reward, where the overflow-free sum gives 21474837 rewards and keeps 46 points |
| Tax.DeliverKeepsPointsBelowHundred | src/main/java/com/example/feudal/service/TaxService.java:213-237 | a point count in [0, 100) stays in [0, 100) after any delivery with the overflow-free sum, and after any delivery whose sum fits in an int with the code as written |
| Tax.DeliverConservesPoints | src/main/java/com/example/feudal/service/TaxService.java:213-237 | old points plus the delivery equal 100 per reward plus the points kept: always with the overflow-free sum, and with the code as written while the sum fits in an int |
| Tax.CanWarnSerf | src/main/java/com/example/feudal/service/TaxService.java:243-248 | a warning is allowed exactly when a minute has passed since the last stamp, and then the stamp becomes now; a refusal changes nothing |
| Tax.WarnCooldownHolds | src/main/java/com/example/feudal/service/TaxService.java:243-248 | after a granted warning, every check within the next minute is refused |
| TaxCollector.CollectMember | src/main/java/com/example/feudal/npc/TaxCollectorLoop.java:47-71 | after the charge, what leaves the member's due goes, in full, into the family bank and into one ledger line; an offline member or one who pays nothing leaves everything as it was; no other player's due or other family's balance moves |
| TaxCollector.Payable | src/main/java/com/example/feudal/npc/TaxCollectorLoop.java:47-57 | an online member with an open due pays the smaller of that due and the emeralds held; a positive payment never exceeds either |
| TaxCollector.CollectMemberPurse | src/main/java/com/example/feudal/npc/TaxCollectorLoop.java:51-60 | an online member's purse loses exactly as many emeralds as leave the due, and afterwards the member owes nothing or holds no emerald |
| TaxCollector.CollectMemberKeepsPurses | src/main/java/com/example/feudal/npc/TaxCollectorLoop.java:54-60 | collecting from one member keeps every purse well formed |
| TaxCollector.Settle | src/main/java/com/example/feudal/npc/TaxCollectorLoop.java:57-62 | the due drops, the bank and the ledger grow, and the purse shrinks, each by exactly the amount paid |
| TaxCollector.SettleUpTo | src/main/java/com/example/feudal/npc/TaxCollectorLoop.java:57-60 | with the emeralds taken, only the first of the three writes (lower the due, credit the bank, record the ledger line) that happen before a throw take effect, each by exactly the amount paid; the purse always loses it |
| TaxCollector.RemoveEmeralds | src/main/java/com/example/feudal/npc/TaxCollectorLoop.java:93-109 | taking n emeralds from a purse holding at least n takes exactly n and keeps the purse well formed |
| TaxCollector.OfflineMemberCharged | src/main/java/com/example/feudal/npc/TaxCollectorLoop.java:44-48 | an offline member is charged the full amount and nothing else happens to them or to the bank |
| TaxCollector.CollectMemberAt | src/main/java/com/example/feudal/npc/TaxCollectorLoop.java:44-71 | one member's turn with a throw at one storage call: without a throw, or when the member never reaches that call, it is the full turn; it fails exactly when the member reaches the call; a throw at the charge changes nothing; the ledger never records more than the bank received, and records all of it unless the throw hit the ledger write; only this member's due and purse and this family's balance move |
| TaxCollector.Completed | src/main/java/com/example/feudal/npc/TaxCollectorLoop.java:44-71 | the member processed in full: the bank grows by exactly what the ledger records, never less than 0, and only this member and family are touched |
| TaxCollector.PayInterrupted | src/main/java/com/example/feudal/npc/TaxCollectorLoop.java:57-60 | a throw at one of the three payment writes reports a failure; no ledger line is written, and the bank is credited only when the throw hit the ledger write |
| TaxCollector.InterruptedPayment | src/main/java/com/example/feudal/npc/TaxCollectorLoop.java:57-60 | when a throw cuts the payment short the purse has lost the payment; the due has dropped by it unless the throw hit the first write; the bank holds it only when the throw hit the ledger write; the ledger is unchanged |
| TaxCollector.Reaches | src/main/java/com/example/feudal/npc/TaxCollectorLoop.java:44-71 | no contract; defined as whether the member's turn gets to the given call: the charge always, the due read when online, the payment writes when something is payable, the read-back when a due is open |
| TaxCollector.CollectMembers | src/main/java/com/example/feudal/npc/TaxCollectorLoop.java:43-77 | a throw at the member query, or at the first member's charge, leaves everything as it was; the loop reports a failure only when a throw was aimed at the query or at a listed member |
| TaxCollector.CollectMembersBooks | src/main/java/com/example/feudal/npc/TaxCollectorLoop.java:43-77 | over the member loop, whatever call throws, the ledger records no more than the family bank received and the bank never shrinks; the two agree unless the throw hit a ledger write; no other family's balance moves |
| TaxCollector.CollectMembersKeeps | src/main/java/com/example/feudal/npc/TaxCollectorLoop.java:43-77 | whatever call throws, the member loop keeps dues and balances non-negative and purses well formed, and touches only listed members' purses |
| TaxCollector.CollectMembersLeavesOthers | src/main/java/com/example/feudal/npc/TaxCollectorLoop.java:43-77 | whatever call throws, a player who is not on the member list owes what they owed before |
| TaxCollector.OfflineMembersCharged | src/main/java/com/example/feudal/npc/TaxCollectorLoop.java:43-77 | without a failure, every offline member listed once ends up owing exactly the charge more |
| TaxCollector.FamilyTurnCharges | src/main/java/com/example/feudal/npc/TaxCollectorLoop.java:43-77 | when the member list is the store's members of the collector's family, each once, a run without failure charges every offline family member exactly the amount and leaves every player outside the family as they were |
| TaxCollector.CollectorTurn | src/main/java/com/example/feudal/npc/TaxCollectorLoop.java:30-80 | an NPC that is not a collector with a family and a positive amount is skipped; before its deadline only the lazy arming happens; after a run the tables are the member loop's, and the deadline is now plus the interval, or now plus 10 s when a storage call threw; the ledger never records more than the bank received and records all of it unless a ledger write threw; other players' dues are untouched |
| TaxCollector.WaitingTurnIsQuiet | src/main/java/com/example/feudal/npc/TaxCollectorLoop.java:39-40 | a turn before an armed deadline changes no due, no balance and no setting, whatever call would throw |
| Inventory.CountItem | src/main/java/com/example/feudal/npc/TaxCollectorLoop.java:84-91 | no contract; defined as the total amount over the stacks of the item (CountNonNegative and CountAppend state its properties) |
| Inventory.CountNonNegative | src/main/java/com/example/feudal/npc/TaxCollectorLoop.java:84-91 | in a well-formed inventory a count is never negative, and it is 0 exactly when no slot holds the item |
| Inventory.CountAppend | src/main/java/com/example/feudal/npc/TaxCollectorLoop.java:84-91 | the count over two slot sequences laid end to end is the sum of their counts |
| Inventory.CountPositiveHolds | src/main/java/com/example/feudal/npc/TaxCollectorLoop.java:84-91 | a positive count means some slot holds the item |
| Inventory.RemoveFromCount | src/main/java/com/example/feudal/npc/TaxCollectorLoop.java:93-109 | the removal scan from a slot on takes exactly as many items as are wanted or available there, whichever is less |
| Inventory.RemoveFrom | src/main/java/com/example/feudal/npc/TaxCollectorLoop.java:93-109 | the removal scan from a slot on keeps the number of slots; RemoveFromCount and RemoveFromFrame state what it takes |
| Inventory.RemoveFromFrame | src/main/java/com/example/feudal/npc/TaxCollectorLoop.java:93-109 | the removal scan keeps the inventory well formed and every other item's count |
| Inventory.TakenCount | src/main/java/com/example/feudal/npc/TaxCollectorLoop.java:100-104 | one step of the scan takes the smaller of the stack and the wanted amount, and clears an emptied slot |
| Inventory.TakenFrame | src/main/java/com/example/feudal/npc/TaxCollectorLoop.java:100-104 | one step of the scan keeps the inventory well formed and other items' counts |
| Inventory.RemoveItem | src/main/java/com/example/feudal/npc/TaxCollectorLoop.java:93-109 | the in-place loop with its early break takes exactly the smaller of the amount and the count, keeps the inventory well formed and touches no other item |
| Inventory.FirstHolding | src/main/java/com/example/feudal/npc/FarmerLoop.java:174-183 | the index found holds the item and no earlier slot does; -1 means no slot does |
| Inventory.TakeOne | src/main/java/com/example/feudal/npc/FarmerLoop.java:174-183 | an item is taken exactly when some slot holds it; then only the first such slot changes, by one item (cleared at one), and the count drops by one; other items are untouched |
| Inventory.ConsumeOne | src/main/java/com/example/feudal/npc/FarmerLoop.java:174-183 | the slot loop that stops at the first stack agrees with the functional definition |
| Inventory.TakeOneAt | src/main/java/com/example/feudal/npc/FarmerLoop.java:174-183 | the slot the loop stops at is the first one holding the item |
| Inventory.ReplaceSlotCount | src/main/java/com/example/feudal/npc/TaxCollectorLoop.java:84-91 | replacing one slot changes each count by the difference of the old and new slot |
| Inventory.AddItem | src/main/java/com/example/feudal/npc/FarmerLoop.java:168 | `addItem` over every slot it is given: what is added plus what is returned as overflow equals the amount given; other items are untouched; overflow happens only when every slot is taken and every stack of the item is full; a stack that fits goes in whole when a slot is free |
| Inventory.AddToStorage | src/main/java/com/example/feudal/npc/FarmerLoop.java:168 | `addItem` on a player inventory: the same balance and frame as AddItem, but only the first 36 (storage) slots take items; armour and off-hand slots are left exactly as they were, overflow happens once the storage slots are all full, and a stack that fits goes in whole when a storage slot is free |
| Inventory.TopUp | src/main/java/com/example/feudal/npc/FarmerLoop.java:166-172 | topping up existing stacks conserves the items, fills no empty slot, and leaves a remainder only when every stack of the item is full |
| Inventory.FillEmpty | src/main/java/com/example/feudal/npc/FarmerLoop.java:166-172 | filling empty slots conserves the items, leaves occupied slots alone, and leaves a remainder only when no slot is free any more |
| Farmer.SeedOf | src/main/java/com/example/feudal/npc/FarmerLoop.java:185-193 | exactly the four crops have a seed, and no seed is itself a crop block or air |
| Farmer.IsCrop | src/main/java/com/example/feudal/npc/FarmerLoop.java:195-200 | no contract; defined as wheat, carrots, potatoes and beetroots (SeedOf states that exactly these have a seed) |
| Farmer.CropMaxAge | src/main/java/com/example/feudal/npc/FarmerLoop.java:98-99 | no contract; the maximum age the game gives each crop block, 3 for beetroots and 7 for the others |
| Farmer.Mature | src/main/java/com/example/feudal/npc/FarmerLoop.java:98-99 | no contract; defined as an ageable block whose age has reached its maximum |
| Farmer.Planted | src/main/java/com/example/feudal/npc/FarmerLoop.java:137-138 | a replanted crop block is that crop at age 0, so it is never mature |
| Farmer.PlotOf | src/main/java/com/example/feudal/npc/FarmerLoop.java:80-93 | farmland at the scanned height puts the crop above it; otherwise farmland below puts the crop at that height |
| Farmer.Yield | src/main/java/com/example/feudal/npc/FarmerLoop.java:143-164 | a non-crop yields nothing; every stack yielded is a real item of one to three |
| Farmer.StackSumAppend | src/main/java/com/example/feudal/npc/FarmerLoop.java:143-164 | the total of a list of stacks splits over concatenation |
| Farmer.AddOrDrop | src/main/java/com/example/feudal/npc/FarmerLoop.java:166-172 | an empty stack is ignored; otherwise every item of it ends up either in the storage slots of the inventory or on the ground, the armour and off-hand slots never change, and no other item moves |
| Farmer.GiveAll | src/main/java/com/example/feudal/npc/FarmerLoop.java:143-172 | for every item, inventory plus ground after handing over a list of stacks equals inventory before plus the list |
| Farmer.TryPlant | src/main/java/com/example/feudal/npc/FarmerLoop.java:126-141 | with a seed in the inventory the crop is planted at age 0 and exactly one seed is used; without one neither block nor inventory changes |
| Farmer.FarmColumn | src/main/java/com/example/feudal/npc/FarmerLoop.java:80-108 | a column without farmland is untouched, and otherwise only its crop block changes |
| Farmer.FarmColumnShape | src/main/java/com/example/feudal/npc/FarmerLoop.java:95-108 | the soil stays, and a crop block changes only from a mature crop to air or a new crop, or from air to new wheat |
| Farmer.MatureCropIsHarvested | src/main/java/com/example/feudal/npc/FarmerLoop.java:95-104 | a mature crop never survives a pass unharvested |
| Farmer.FarmColumnConserves | src/main/java/com/example/feudal/npc/FarmerLoop.java:113-124 | per item, the harvest ends up in the inventory or on the ground, less the one seed a replanting uses |
| Farmer.PlantCount | src/main/java/com/example/feudal/npc/FarmerLoop.java:126-141 | planting on any block other than the fresh crop itself uses exactly one seed of the crop, and only when it plants |
| Farmer.RootCropReplantsItself | src/main/java/com/example/feudal/npc/FarmerLoop.java:113-124 | with a free slot, mature carrots and potatoes always come back as a new crop, whatever the inventory held |
| Farmer.HarvestHoldsSeed | src/main/java/com/example/feudal/npc/FarmerLoop.java:152-156 | the carrot or potato harvest leaves at least one of its own seed in an inventory that had a free slot |
| Farmer.ScanCoversSquare | src/main/java/com/example/feudal/npc/FarmerLoop.java:77-78 | every offset of the 13 x 13 square is visited exactly once, at the place the nested loops reach it |
| Farmer.ScanStaysInSquare | src/main/java/com/example/feudal/npc/FarmerLoop.java:77-78 | every offset visited lies in the square |
| Farmer.ScanOrder | src/main/java/com/example/feudal/npc/FarmerLoop.java:77-78 | the scan has 13 x 13 offsets (where each lies is stated by ScanCoversSquare and ScanStaysInSquare) |
| Farmer.FarmPass | src/main/java/com/example/feudal/npc/FarmerLoop.java:69-111 | a location without a world farms nothing; columns without farmland are untouched; the inventory stays well formed |
| Farmer.FarmPassColumns | src/main/java/com/example/feudal/npc/FarmerLoop.java:77-110 | each column ends up as farming it alone leaves it when handed the inventory the earlier columns left, and the pass ends with the inventory the last column leaves |
| Farmer.FarmColumnBalance | src/main/java/com/example/feudal/npc/FarmerLoop.java:95-124 | per item, for every kind of column, what one column adds to the inventory plus what it drops is its harvest less the seed it sowed |
| Farmer.FarmPassConserves | src/main/java/com/example/feudal/npc/FarmerLoop.java:69-124 | per item, over a whole pass the inventory gain plus everything dropped is the sum of the harvests less the seeds sown |
| Farmer.ScannedColumns | src/main/java/com/example/feudal/npc/FarmerLoop.java:77-80 | the columns read are 13 x 13, the one at each scan offset in scan order |
| Farmer.FarmSquareColumn | src/main/java/com/example/feudal/npc/FarmerLoop.java:69-110 | the column at each offset of the 13 x 13 square around the farmer is farmed exactly once, with the inventory the columns scanned before it left |
| Farmer.FarmerTurn | src/main/java/com/example/feudal/npc/FarmerLoop.java:36-65 | a pass runs exactly for a spawned serf player NPC with the farmer role whose deadline has come; after a pass the deadline is now plus the farm interval; an eligible farmer whose deadline has not come keeps only the lazily armed deadline; an NPC that fails a check is left untouched |
| Farmer.FirstSightFarmsAtOnce | src/main/java/com/example/feudal/npc/FarmerLoop.java:55-64 | a farmer seen for the first time farms at once and then not again at the same moment |
| Guard.FindNearestEnemy | src/main/java/com/example/feudal/npc/GuardLoop.java:199-222 | -1 exactly when no eligible player is within the aggro radius; otherwise the index of an eligible player in range that is nearest of all, and strictly nearer than every eligible one seen before it |
| Guard.MainHand | src/main/java/com/example/feudal/npc/GuardLoop.java:140-145 | an empty hand or air is no weapon; any other item is the weapon |
| Guard.IsRangedWeapon | src/main/java/com/example/feudal/npc/GuardLoop.java:147-151 | no contract; defined as a bow or a crossbow in the hand |
| Guard.Eligible | src/main/java/com/example/feudal/npc/GuardLoop.java:202-211 | no contract; defined as online, alive, not an admin, inside the land by the exact test, and with a family lookup that succeeds and is not the guard's family |
| Guard.InAggro | src/main/java/com/example/feudal/npc/GuardLoop.java:215-216 | no contract; defined as Eligible with a squared distance of at most 196, the aggro radius 14 squared |
| Guard.Gated | src/main/java/com/example/feudal/npc/GuardLoop.java:58-83 | no contract; defined as the GUARD role, a spawned living entity, a family found for the NPC, and an enabled land found for that family |
| Guard.Active | src/main/java/com/example/feudal/npc/GuardLoop.java:58-86 | no contract; defined as the gating above with the guard standing inside its land by the exact test |
| Guard.ActiveAsWritten | src/main/java/com/example/feudal/npc/GuardLoop.java:58-86 | no contract; the same gating with the guard's own 32-bit containment test |
| Guard.FarGuardActiveAsWritten | src/main/java/com/example/feudal/npc/GuardLoop.java:224-232 | a guard 65536 blocks east of the centre of a radius-10 land passes the 32-bit test and keeps guarding, which the exact test refuses |
| Guard.ActiveGuardNearLand | src/main/java/com/example/feudal/npc/GuardLoop.java:224-232 | with the exact test, an active guard stands within the square of side 2·abs(radius) around its land's centre |
| Guard.WeaponBase | src/main/java/com/example/feudal/npc/GuardLoop.java:168-188 | the base damage is 1 with an empty hand, at least 2 with any item, and at most 10 |
| Guard.MeleeDamage | src/main/java/com/example/feudal/npc/GuardLoop.java:168-197 | the damage is the weapon base plus a quarter of the attack attribute above 1; an absent or low attribute adds nothing; the damage is never below 1 or the base |
| Guard.MeleeDamageMonotone | src/main/java/com/example/feudal/npc/GuardLoop.java:190-196 | a larger attack attribute never gives less damage |
| Guard.Engage | src/main/java/com/example/feudal/npc/GuardLoop.java:98-135 | inside a grace window the guard only chases; when the warning cooldown is over it warns and opens a grace window; otherwise it shoots or strikes exactly when the weapon kind, the range and its own cooldown allow, stamping that cooldown, and chases if not |
| Guard.IsNearest | src/main/java/com/example/feudal/npc/GuardLoop.java:199-222 | no contract; defined as an eligible player in aggro range no farther than any other, and strictly nearer than every earlier one (the choice FindNearestEnemy makes) |
| Guard.AnyInAggro | src/main/java/com/example/feudal/npc/GuardLoop.java:89-90 | no contract; defined as some player being eligible and within the aggro radius, the case in which findNearestEnemy returns a player |
| Guard.GuardRound | src/main/java/com/example/feudal/npc/GuardLoop.java:55-136 | a guard that fails any gate does nothing; an active guard acts exactly when some eligible player is within the aggro radius; its action and new state are those of Engage against the nearest such player, the first one on a tie; the warning timestamps stay consistent |
| Guard.AttackOnlyInWindow | src/main/java/com/example/feudal/npc/GuardLoop.java:99-109 | an attack falls only after the grace period of the last warning and before the next warning is due |
| Guard.GraceSharedAcrossGuards | src/main/java/com/example/feudal/npc/GuardLoop.java:41-44 | once any guard has warned a player, no guard attacks that player during the grace period |
| Guard.CooldownSpacesAttacks | src/main/java/com/example/feudal/npc/GuardLoop.java:127-133 | a guard does not strike twice within its melee cooldown |
| Territory.WithinRadiusAsWritten | src/main/java/com/example/feudal/land/FamilyLandProtectListener.java:42-46 | the 32-bit test; whenever offsets stay below 32768 and the radius within 46340 its verdict is the exact test's |
| Territory.IsInside | src/main/java/com/example/feudal/land/FamilyLandProtectListener.java:21-30 | a block counted inside is in the land's world; the centre column of a land is always inside; without overflow the verdict is the one the 32-bit code reaches |
| Territory.IsInsideAsWritten | src/main/java/com/example/feudal/land/FamilyLandProtectListener.java:21-30 | no contract; defined as the same world and the 32-bit test |
| Territory.WrapAroundCountsFarBlockInside | src/main/java/com/example/feudal/land/FamilyLandProtectListener.java:42-48 | the 32-bit test counts a block 65536 blocks from the centre of a radius-10 land as inside, which the exact test does not |
| Territory.WrapAroundShrinksHugeRadius | src/main/java/com/example/feudal/land/FamilyLandProtectListener.java:28-29 | with a radius of 65536 the 32-bit test rejects a block one step from the centre, which the exact test accepts |
| Territory.SquareBound | src/main/java/com/example/feudal/land/FamilyLandProtectListener.java:42-48 | a value between -b and b has a square between 0 and b², which bounds the products of the test |
| Territory.AsWrittenAgreesWhenSmall | src/main/java/com/example/feudal/land/FamilyLandProtectListener.java:42-48 | for offsets below 32768 and radii up to 46340 every wrap in the 32-bit test leaves its value alone, so the test is the exact one |
| Territory.InsideWithinBoundingSquare | src/main/java/com/example/feudal/land/FamilyLandProtectListener.java:21-30 | every block counted inside lies within the square of side 2·abs(radius) around the centre |
| Territory.BeyondSquare | src/main/java/com/example/feudal/land/FamilyLandProtectListener.java:29 | an offset beyond the radius on one axis alone already squares to more than the squared radius |
| Territory.NegatedRadiusSame | src/main/java/com/example/feudal/land/FamilyLandProtectListener.java:28-29 | a negative radius protects the same blocks as its absolute value |
| Territory.ContainmentShape | src/main/java/com/example/feudal/land/FamilyLandProtectListener.java:21-30 | the boundary is inclusive, the height is ignored and a block in another world is never inside |
| Territory.FirstContaining | src/main/java/com/example/feudal/land/FamilyLandProtectListener.java:38-50 | the index found contains the block and no earlier land does; -1 exactly when no land contains it |
| Territory.CanBuild | src/main/java/com/example/feudal/land/FamilyLandProtectListener.java:32-52 | admins and players without a family may always build; otherwise building is allowed exactly when no land contains the block or the first land containing it belongs to the player's family |
| Territory.ForeignerBlockedInsideLand | src/main/java/com/example/feudal/land/FamilyLandProtectListener.java:46-49 | a non-admin whose family owns none of the lands containing a block cannot build there |
| Territory.OwnerMayBuildInOwnLand | src/main/java/com/example/feudal/land/FamilyLandProtectListener.java:46-49 | a member of the family owning every land that contains the block may build there |
| Territory.DisabledLandsIgnored | src/main/java/com/example/feudal/land/FamilyLandProtectListener.java:38 | a block covered only by disabled lands may be built on by anyone |
| Territory.CancelBuild | src/main/java/com/example/feudal/land/FamilyLandProtectListener.java:54-82 | an admin's event is never cancelled; a failed lookup cancels it; otherwise it is cancelled exactly when building is not allowed |
| Territory.CancelInteract | src/main/java/com/example/feudal/land/FamilyLandProtectListener.java:84-100 | a click on no block is never cancelled; a click on a block is decided as a build at that block |
| Command.OnOff | src/main/java/com/example/feudal/command/FeudalCommand.java:293-295 | "on" and "off" in any letter case give true and false; any other word gives no choice |
| Command.Create | src/main/java/com/example/feudal/command/FeudalCommand.java:52-65 | a family is created exactly when a name is given, the caller has no family and the name is unused; the caller becomes its KING with no job and not a serf; names stay unique; nothing else changes |
| Command.LandSetRadius | src/main/java/com/example/feudal/command/FeudalCommand.java:131-135 | without a radius argument the radius is 30; with one, it is the parsed argument or nothing |
| Command.Land | src/main/java/com/example/feudal/command/FeudalCommand.java:94-170 | without a family nothing happens; only a KING changes anything, and only the caller's family's land; the command reports Done exactly when the caller has a family, gives a sub-command, is KING and that sub-command is one LandAccepts (`set` with a usable radius, `radius` with a number, `on`, `off`); then LandChanged holds: `set` installs the land at the caller, `radius` gives an existing land the parsed radius, `on`/`off` set its flag, and no other family's land moves; the land map stays keyed by family |
| Command.LandWrite | src/main/java/com/example/feudal/command/FeudalCommand.java:130-169 | Done exactly for the sub-commands LandAccepts; `set` installs an enabled land at the caller's block position with the chosen radius; `radius` gives the family's existing land exactly the parsed radius and `on`/`off` exactly the flag, changing nothing when the family has no land; no other family's land changes under any sub-command; a bad number changes nothing |
| Command.LandAccepts | src/main/java/com/example/feudal/command/FeudalCommand.java:130-169 | (definition) the sub-commands that write: `set` with a radius it can use, `radius` with a parsable number, `on`, `off` |
| Command.PromoteDemote | src/main/java/com/example/feudal/command/FeudalCommand.java:173-201 | only an admin changes a rank, of an online player of the caller's family, by exactly one step; the command reports Done exactly when the caller is an admin, names an online player of the same family, and that player is not already KING on promote or PEASANT on demote; a rank already at the end is reported unchanged exactly in that last case |
| Command.InvitePlayer | src/main/java/com/example/feudal/command/FeudalCommand.java:204-234 | an invite is stored exactly when a KING invites an online player without a family; it expires five minutes later |
| Command.Accept | src/main/java/com/example/feudal/command/FeudalCommand.java:237-254 | a pending invite is always consumed; an unexpired one makes the caller a PEASANT of that family with no job and not a serf, leaving every other member unchanged |
| Command.InviteBoundary | src/main/java/com/example/feudal/command/FeudalCommand.java:227-246 | an invite can be accepted at exactly five minutes after it was issued and not one millisecond later |
| Command.SerfCommand | src/main/java/com/example/feudal/command/FeudalCommand.java:257-311 | only a KING sets the serf flag, on an online member of the same family; Done exactly when the sub-command is `set` with four arguments, the caller is KING, the target is online and in the same family and the flag reads as on or off; turning it on also makes the job FARMER; rank and family stay |
| Command.JobCommand | src/main/java/com/example/feudal/command/FeudalCommand.java:314-375 | only a KING sets a job, on an online member of the same family, from a valid job name in any case; Done exactly when those gates pass and the job is allowed for the target; the serf restriction is refused exactly when the target is a serf and the job is not FARMER, MINER or GUARD |
| Command.SerfCannotBecomeJobless | src/main/java/com/example/feudal/command/FeudalCommand.java:344-365 | a serf cannot be given the job NONE by command |
| Command.Withdraw | src/main/java/com/example/feudal/command/FeudalCommand.java:390-420 | a non-positive amount is refused before any lookup; a KING with a family asking for a positive amount is granted it exactly when the bank balance covers it, and is otherwise told the funds are short; a grant lowers that family's balance by exactly the amount; other balances, the store and the due table never change |
| Command.WithdrawNeverOverdraws | src/main/java/com/example/feudal/command/FeudalCommand.java:411-416 | an amount handed out never exceeds the family's balance |
| Command.NpcRoleCommand | src/main/java/com/example/feudal/command/FeudalCommand.java:467-494 | Done exactly when the NPC id parses, the role name is a role in any case, and the NPC is registered; the role of that NPC is then the named role; no other NPC's settings change |
| Command.TraitOf | src/main/java/com/example/feudal/command/FeudalCommand.java:488 | no contract; defined as the NPC's settings, or fresh defaults when it carries none yet, as getOrAddTrait gives them |
| Command.NpcTaxCommand | src/main/java/com/example/feudal/command/FeudalCommand.java:495-537 | Done exactly when the id, family, amount and seconds all parse, the amount is positive, the interval is at least five seconds and the NPC is registered; the family, amount and interval are then stored and the next collection is exactly one interval from now; the role is left as it was |
| Command.NpcTaxArmsFullInterval | src/main/java/com/example/feudal/command/FeudalCommand.java:527-530 | a collector just configured waits at least five seconds before its first collection |
| Command.NpcFamilyCommand | src/main/java/com/example/feudal/command/FeudalCommand.java:539-564 | Done exactly when the caller is KING, the NPC id and family id parse and the NPC is registered; the NPC's family is then the one named |
| Command.NpcSerfCommand | src/main/java/com/example/feudal/command/FeudalCommand.java:565-601 | Done exactly when the caller is KING, the id parses, the NPC is registered and has a family, and the flag reads as on or off; turning it on also makes its job FARMER |
| Command.NpcJobCommand | src/main/java/com/example/feudal/command/FeudalCommand.java:602-641 | Done exactly when the caller is KING, the id parses, the NPC is registered, the job name is valid in any case and, for a serf NPC, is FARMER, MINER or GUARD; an NPC without a stored row keeps nothing |
| Command.SerfRuleSameForNpcs | src/main/java/com/example/feudal/command/FeudalCommand.java:354-365 | a job is refused to a serf player exactly when it is refused to a serf NPC |
| MerchantKeys.MetaOf | src/main/java/com/example/feudal/merchant/MerchantKeys.java:32 | air has no meta; any other stack has its own meta or, lacking one, a fresh empty meta |
| MerchantKeys.KeepLines | src/main/java/com/example/feudal/merchant/MerchantKeys.java:39 | the kept lines are exactly the lines of the lore that pass the filter, never more lines than before |
| MerchantKeys.KeepLinesAppend | src/main/java/com/example/feudal/merchant/MerchantKeys.java:39 | filtering a concatenation filters each part, so the kept lines keep their order |
| MerchantKeys.KeepLinesAll | src/main/java/com/example/feudal/merchant/MerchantKeys.java:39 | a filter every line passes leaves the lore as it was |
| MerchantKeys.WithoutTagLines | src/main/java/com/example/feudal/merchant/MerchantKeys.java:39 | the lines left are exactly the lines that do not start with "가격:" once their "§x" pairs are removed |
| MerchantKeys.IsTagLine | src/main/java/com/example/feudal/merchant/MerchantKeys.java:39 | no contract; defined as a line that starts with "가격:" once its "§x" pairs are removed |
| MerchantKeys.TagLine | src/main/java/com/example/feudal/merchant/MerchantKeys.java:40 | no contract; defined as the grey "가격: ", the price in yellow, and the grey " 에메랄드" (TagLineIsTagLine states that the tag code removes it again) |
| MerchantKeys.TagLineIsTagLine | src/main/java/com/example/feudal/merchant/MerchantKeys.java:39-40 | the line the tag code writes is itself a line the tag code removes |
| MerchantKeys.RetagLore | src/main/java/com/example/feudal/merchant/MerchantKeys.java:36-41 | removing price lines again after one was appended gives back the lines kept the first time |
| MerchantKeys.GetPrice | src/main/java/com/example/feudal/merchant/MerchantKeys.java:21-28 | null, air, a stack without meta and a stack without the key all read as -1; otherwise the stored value is read |
| MerchantKeys.ApplyPriceTag | src/main/java/com/example/feudal/merchant/MerchantKeys.java:30-46 | null and air pass through; any other stack keeps material and amount and stores the price; with the lore flag, the lore ends in exactly one price line, preceded by the old lines that were not price lines in their order |
| MerchantKeys.PriceTagRoundTrip | src/main/java/com/example/feudal/merchant/MerchantKeys.java:21-46 | the price read back from a tagged stack is the price written |
| MerchantKeys.ApplyPriceTagIdempotent | src/main/java/com/example/feudal/merchant/MerchantKeys.java:30-46 | tagging twice with the same price is the same as tagging once |
| MerchantKeys.StripPriceTag | src/main/java/com/example/feudal/merchant/MerchantKeys.java:48-63 | the result has no price; null, air and stacks without meta are untouched; otherwise the lore keeps exactly its non-price lines, and an emptied lore becomes null |
| MerchantKeys.StripUndoesApply | src/main/java/com/example/feudal/merchant/MerchantKeys.java:30-63 | stripping a tagged stack gives the same stack as stripping the untagged one |
| MerchantBuy.CostOfLine | src/main/java/com/example/feudal/npc/MerchantBuyListener.java:63-72 | a line yields a number only if its colour-stripped text mentions "가격"; the number is a non-negative 32-bit int |
| MerchantBuy.FirstCost | src/main/java/com/example/feudal/npc/MerchantBuyListener.java:62-74 | no number exactly when no lore line yields one; any number found is a non-negative int |
| MerchantBuy.FirstCostIsFirst | src/main/java/com/example/feudal/npc/MerchantBuyListener.java:62-73 | the number found is the one of the earliest line that yields a number |
| MerchantBuy.FirstCostSkips | src/main/java/com/example/feudal/npc/MerchantBuyListener.java:62-73 | lines that yield no number in front of the lore do not change the number found |
| MerchantBuy.ParseCost | src/main/java/com/example/feudal/npc/MerchantBuyListener.java:57-75 | -1 without meta or lore, and -1 exactly when no lore line yields a number |
| MerchantBuy.TagLinePlain | src/main/java/com/example/feudal/npc/MerchantBuyListener.java:77-80 | the colour-stripped price line is "가격: ", the price and " 에메랄드" |
| MerchantBuy.PlainTagDigits | src/main/java/com/example/feudal/npc/MerchantBuyListener.java:63-68 | the plain price line is already trimmed, mentions "가격", and its digits are exactly the price's decimal digits |
| MerchantBuy.TagLineCost | src/main/java/com/example/feudal/npc/MerchantBuyListener.java:63-71 | the price line written by the tag code yields exactly its price |
| MerchantBuy.ShopPriceRoundTrip | src/main/java/com/example/feudal/npc/MerchantBuyListener.java:57-75 | the price a buyer pays for a tagged stack is the price that was tagged, when no kept line yields a number of its own |
| MerchantBuy.RemovePriceLore | src/main/java/com/example/feudal/npc/MerchantBuyListener.java:83-100 | material, amount and stored price stay; the lore keeps exactly the lines not mentioning "가격", in order; it becomes null exactly when every line mentions it |
| MerchantBuy.BoughtStackUnpriced | src/main/java/com/example/feudal/npc/MerchantBuyListener.java:45 | the stack handed to the buyer carries no price a later purchase could read |
| MerchantBuy.IsShopTitle | src/main/java/com/example/feudal/npc/MerchantBuyListener.java:24 | no contract; defined as a title that starts with the gold "상인" |
| MerchantBuy.HasEmerald | src/main/java/com/example/feudal/npc/MerchantBuyListener.java:102-104 | no contract; defined as at least that many emeralds in the inventory |
| MerchantBuy.OnClick | src/main/java/com/example/feudal/npc/MerchantBuyListener.java:20-55 | outside a shop window nothing happens; a purchase goes through exactly for a positive price the player can pay, and then exactly that many emeralds leave the inventory and nothing else changes |
| ShopStorage.GetTitle | src/main/java/com/example/feudal/merchant/MerchantShopStorage.java:37-40 | a stored title is returned as it is; without one the title is "상인 #" in gold (colour code 6) followed by the id |
| ShopStorage.EditorTitle | src/main/java/com/example/feudal/merchant/MerchantService.java:42 | no contract; defined as the pink "[편집] " prefix before the shop title (MerchantEdit.EditorTitleIsEditor and PriceInput.DefaultEditorTitleRoundTrip state how it reads back) |
| ShopStorage.GetSize | src/main/java/com/example/feudal/merchant/MerchantShopStorage.java:42-48 | the size is a multiple of 9 between 9 and 54, and the smallest such multiple not below the stored size (54 when absent) clamped to [9, 54] |
| ShopStorage.GetSizeKeepsChestSizes | src/main/java/com/example/feudal/merchant/MerchantShopStorage.java:42-48 | a stored chest size (9, 18, …, 54) reads back unchanged, and a missing size reads as 54 |
| ShopStorage.GetSizeMonotone | src/main/java/com/example/feudal/merchant/MerchantShopStorage.java:43-47 | a larger stored size never gives a smaller shop |
| ShopStorage.DivMonotone | src/main/java/com/example/feudal/merchant/MerchantShopStorage.java:46 | rounding down to a multiple of 9 keeps the order of non-negative values |
| ShopStorage.LoadEntries | src/main/java/com/example/feudal/merchant/MerchantShopStorage.java:56-75 | every loaded slot lies in [0, 54) with a positive price and a real item, and a slot is loaded exactly when some entry for it passes those filters |
| ShopStorage.Kept | src/main/java/com/example/feudal/merchant/MerchantShopStorage.java:70-72 | no contract; defined as a slot in [0, 54), a positive price and an item that is not air, the entries loadItems keeps |
| ShopStorage.LoadItems | src/main/java/com/example/feudal/merchant/MerchantShopStorage.java:50-77 | an NPC without a section has an empty shop; every loaded entry is well placed and priced |
| ShopStorage.LoadedIsLastKept | src/main/java/com/example/feudal/merchant/MerchantShopStorage.java:56-75 | the item and price loaded for a slot are those of the last entry for that slot that passes the filters |
| ShopStorage.EditorEntries | src/main/java/com/example/feudal/merchant/MerchantShopStorage.java:87-100 | every entry written names a slot below the bound that holds a real item with a positive price, with that item and price |
| ShopStorage.EditorEntriesIncrease | src/main/java/com/example/feudal/merchant/MerchantShopStorage.java:88-99 | the entries are written in increasing slot order |
| ShopStorage.EditorEntriesCover | src/main/java/com/example/feudal/merchant/MerchantShopStorage.java:88-99 | every slot below the bound holding a real item with a positive price gets an entry |
| ShopStorage.SaveFromEditorInventory | src/main/java/com/example/feudal/merchant/MerchantShopStorage.java:79-107 | the NPC's section gets the given title and size and exactly the entries of the priced slots below min(contents, size); every other NPC's section is unchanged |
| ShopStorage.SaveThenLoad | src/main/java/com/example/feudal/merchant/MerchantShopStorage.java:50-107 | after a save, loading gives exactly the priced slots below 54, each with its item and stored price; none of the old entries survive |
| PriceInput.DigitsNumber | src/main/java/com/example/feudal/merchant/MerchantPriceInputListener.java:163-168 | -1 without digits or when the digits exceed the int range; otherwise the value of all digits read as one number |
| PriceInput.SafeParseInt | src/main/java/com/example/feudal/merchant/MerchantPriceInputListener.java:163-168 | null reads as -1; any text reads as the number its digits form |
| PriceInput.IsEditorTitle | src/main/java/com/example/feudal/merchant/MerchantPriceInputListener.java:59-63 | no contract; defined as a title whose colour-stripped text contains both "편집" and "상인" (DefaultEditorTitleRoundTrip and DefaultShopTitleIsNoEditor state what it accepts) |
| PriceInput.ParseNpcIdFromTitle | src/main/java/com/example/feudal/merchant/MerchantPriceInputListener.java:65-70 | the id read is -1 or a non-negative int |
| PriceInput.SafeParseDropsSign | src/main/java/com/example/feudal/merchant/MerchantPriceInputListener.java:165 | a leading '-' or '+' is dropped: any text reads as the same price with either sign in front |
| PriceInput.DefaultEditorTitleRoundTrip | src/main/java/com/example/feudal/merchant/MerchantPriceInputListener.java:59-70 | the editor of a shop with the default title is recognised, and its NPC id is read back from the title |
| PriceInput.DefaultShopTitleIsNoEditor | src/main/java/com/example/feudal/merchant/MerchantPriceInputListener.java:59-63 | a shop window with the default title is not taken for an editor |
| PriceInput.ApplyPriceLore | src/main/java/com/example/feudal/merchant/MerchantPriceInputListener.java:180-198 | material, amount and the stored price stay; the lore is the old lines not mentioning "가격", in order, then the new price line |
| PriceInput.AnvilKeepsStoredPrice | src/main/java/com/example/feudal/merchant/MerchantPriceInputListener.java:180-198 | the anvil's edit never changes the price the shop's save reads |
| PriceInput.AnvilPriceLostOnSave | src/main/java/com/example/feudal/merchant/MerchantEditListener.java:77-83 | a stack priced 12 in the anvil and never priced before is not saved; one priced 5 before is saved at 5 |
| PriceInput.ApplyPriceLoreAndKey | src/main/java/com/example/feudal/merchant/MerchantPriceInputListener.java:180-198 | the same lore as the anvil's edit, with the typed price stored under the price key |
| PriceInput.AnvilPriceSaved | src/main/java/com/example/feudal/merchant/MerchantPriceInputListener.java:138-142 | with the key set, the typed price is the stored price and the shop reloads the stack at that slot with that price |
| PriceInput.OnEditorClick | src/main/java/com/example/feudal/merchant/MerchantPriceInputListener.java:30-57 | a click is cancelled exactly in the top part of an editor; a context is recorded only for a real stack and a readable id, with that id, slot and stack |
| PriceInput.OnPrepareAnvil | src/main/java/com/example/feudal/merchant/MerchantPriceInputListener.java:88-115 | nothing happens without a context or outside the price anvil; unreadable text clears the result; a positive typed price is shown, anything else refused |
| PriceInput.OnClose | src/main/java/com/example/feudal/merchant/MerchantPriceInputListener.java:150-158 | closing the price anvil drops exactly the player's context; closing any other window changes nothing |
| PriceInput.OnAnvilClick | src/main/java/com/example/feudal/merchant/MerchantPriceInputListener.java:117-148 | a click outside the anvil context is not ours; inside it, a click off the result slot or outside an anvil is OtherSlot, an unreadable text Unreadable, a text whose number is not positive NotPositive, and otherwise the price is set, each exactly in its case; a set price writes the priced stack into the recorded editor slot, leaves every other slot and ends the context; anything else changes nothing |
| MerchantEdit.EditorTitleIsEditor | src/main/java/com/example/feudal/merchant/MerchantService.java:41-42 | every title an editor window is opened with is recognised as an editor |
| MerchantEdit.IsEditor | src/main/java/com/example/feudal/merchant/MerchantEditListener.java:34-37 | no contract; defined as a title that starts with the pink "[편집]" |
| MerchantEdit.ExtractNpcIdFromTitle | src/main/java/com/example/feudal/merchant/MerchantEditListener.java:136-143 | no '#' in the stripped title gives -1; the result is always a 32-bit int |
| MerchantEdit.ExtractNpcIdRoundTrip | src/main/java/com/example/feudal/merchant/MerchantEditListener.java:136-143 | a title ending in '#' and a number reads back that number |
| MerchantEdit.DefaultEditorTitleId | src/main/java/com/example/feudal/merchant/MerchantEditListener.java:136-143 | the editor of a shop with the default title reads back its NPC id |
| MerchantEdit.OnEditorClick | src/main/java/com/example/feudal/merchant/MerchantEditListener.java:39-63 | only a shift-right click on a stack in an editor is cancelled; a request is recorded exactly for a top slot and a readable id |
| MerchantEdit.OnEditorClose | src/main/java/com/example/feudal/merchant/MerchantEditListener.java:65-87 | closing an editor with a readable id saves its contents as that NPC's shop under its existing title, so the shop then holds exactly the priced slots, and drops the request; any other close changes nothing |
| MerchantEdit.ChatPriced | src/main/java/com/example/feudal/merchant/MerchantEditListener.java:90-108 | (definition) a pending player's message that is not "cancel" and reads as a positive number |
| MerchantEdit.PlaceChatPrice | src/main/java/com/example/feudal/merchant/MerchantEditListener.java:110-133 | the scheduled callback: a closed editor, a slot outside the window, an empty slot and a successful tag each happen exactly in their case; only an empty slot keeps the request; on success the requested slot holds the stack tagged with the price, which reads back as that price, and no other slot changes |
| MerchantEdit.OnChat | src/main/java/com/example/feudal/merchant/MerchantEditListener.java:89-134 | a player without a request chats normally; "cancel" in any case drops the request; for any other message every outcome holds exactly in its case: no number, a number not above zero, the editor closed, the slot out of range, an empty slot, and otherwise the price is set and tags the requested stack with that price, leaving the other slots; the request stays after a bad number or an empty slot |
| MerchantEdit.CancelAnyCase | src/main/java/com/example/feudal/merchant/MerchantEditListener.java:98 | "cancel" in any mix of letter cases cancels |
| MerchantEdit.ChatPriceSurvivesSave | src/main/java/com/example/feudal/merchant/MerchantEditListener.java:77-83 | a price set by chat is the price the saved shop sells that stack for |
| Text.StripColor | src/main/java/com/example/feudal/npc/MerchantBuyListener.java:77-80 | the result is never longer than the input, and text without '§' is left as it is |
| Text.StripAny | src/main/java/com/example/feudal/merchant/MerchantKeys.java:65-69 | the result is never longer than the input, and text without '§' is left as it is |
| Text.StripColorAppend | src/main/java/com/example/feudal/npc/MerchantBuyListener.java:79 | removing colour codes from a concatenation removes them from each part, provided the first part does not end in a bare '§' |
| Text.StripAnyAppend | src/main/java/com/example/feudal/merchant/MerchantKeys.java:68 | removing "§x" pairs from a concatenation removes them from each part, provided the first part does not end in a bare '§' |
| Text.StripAnyLeavesNoPair | src/main/java/com/example/feudal/merchant/MerchantKeys.java:68 | after the single pass no '§' is left that is followed by a character the pattern's '.' matches |
| Text.StripColorSinglePass | src/main/java/com/example/feudal/npc/MerchantBuyListener.java:79 | the removal is one left-to-right pass: for any colour code c and any tail, "§§c" becomes "§", "§§cc" becomes "§c", and a second pass then removes what the first uncovered |
| Text.StripColorKeepsLoneSection | src/main/java/com/example/feudal/npc/MerchantBuyListener.java:79 | a '§' in front of a character that is no colour code is kept, and the rest is stripped as usual |
| Text.KeepDigits | src/main/java/com/example/feudal/npc/MerchantBuyListener.java:68 | the result is all digits, never longer than the input, and a string of digits is kept whole |
| Text.KeepDigitsAppend | src/main/java/com/example/feudal/npc/MerchantBuyListener.java:68 | keeping the digits of a concatenation keeps those of each part |
| Text.ParseDigits | src/main/java/com/example/feudal/npc/MerchantBuyListener.java:71 | a non-empty digit string parses exactly when its value fits in an int, and then to that value |
| Text.ParseInt | src/main/java/com/example/feudal/command/FeudalCommand.java:394 | any number parsed is a 32-bit int, and the empty string does not parse |
| Text.IntToStringRoundTrip | src/main/java/com/example/feudal/merchant/MerchantEditListener.java:141 | parsing the decimal rendering of an int gives the int back |
| Text.IntToString | src/main/java/com/example/feudal/merchant/MerchantEditListener.java:141 | the rendering is non-empty, starts with '-' exactly for a negative int, and is all digits otherwise |
| Text.Trim | src/main/java/com/example/feudal/npc/MerchantBuyListener.java:63 | the result is a substring s[i..j] of the input with every character cut off on either side at or below U+0020, and it neither starts nor ends with such a character |
| Text.TrimUnchanged | src/main/java/com/example/feudal/npc/MerchantBuyListener.java:63 | text that neither starts nor ends with a trimmable character is its own trim |
| Text.LastIndexOf | src/main/java/com/example/feudal/merchant/MerchantEditListener.java:139 | -1 or the index of an occurrence of the character, with no occurrence after it |
| Text.ToUpper | src/main/java/com/example/feudal/command/FeudalCommand.java:344 | each character is replaced by its upper case, one for one, so the length stays |
| Text.ToLower | src/main/java/com/example/feudal/command/FeudalCommand.java:107 | each character is replaced by its lower case, ASCII A-Z only, one for one, so the length stays |
| Text.UpperIdempotent | src/main/java/com/example/feudal/command/FeudalCommand.java:344 | upper-casing twice, or after lower-casing, is the same as upper-casing once |
| Text.EqualsIgnoreCase | src/main/java/com/example/feudal/command/FeudalCommand.java:264 | two strings match only at equal length; strings with the same upper-case or the same lower-case form match; and in a match every pair of characters agrees after upper-casing or after lower-casing |
| JavaInt.Wrap | src/main/java/com/example/feudal/land/FamilyLandProtectListener.java:42-46 | the result is a 32-bit int congruent to the exact value modulo 2^32, and an int already in range is unchanged |
| JavaInt.Quot | src/main/java/com/example/feudal/service/TaxService.java:198 | for a positive divisor the quotient is positive exactly when the dividend is at least the divisor; for non-negative operands it is the floor quotient |

## Left out

- Database.java and FeudalPlugin.java are not part of this model: they hold the table schema and the wiring of listeners and loops.
- SQL itself is not modelled. Each table is a map or a sequence, and a failing call appears only where a rule depends on it: as a `Lookup` that may be `Failed` in the land listener, the guard and the farmer, and as the storage call that throws (`TaxCollector.Fault`) in the tax collector's member loop. The `/f` command's catch of storage errors is not modelled.
- Chat messages, titles shown to players, GUI opening, navigation, particles and sounds are host calls with no effect on the state; they reduce to outcome values or are dropped.
- The scheduler is not modelled. Each loop is one evaluation at a given clock value, and the thread hop in `MerchantEditListener.onChat` is modelled by passing in the window the player has open when the scheduled callback runs.
- Random drops are parameters (`Farmer.Roll`), and so is whether world drops happen. Dropping items at a location is recorded only as the list of dropped stacks.
- `Farmer.CropMaxAge`: the maximum ages of the crops are game data, taken as fixed values.
- `Farmer.FarmPass` treats the scanned columns as independent blocks. The real world could make neighbouring columns overlap; the scan never visits the same column twice.
- Guard distances are exact real squares. Java's `double` rounding is not modelled (2.7 * 2.7 is 7.29 here, not 7.290000000000001).
- The arrow's flight and physics, and the damage call itself, are host behaviour; the model stops at the chosen action and its damage value.
- NPCRole.java is not part of this model. The four roles are taken from the command's usage text.
- `ItemStack` serialisation and the YAML file are abstracted to `ShopStorage.RawEntry`: an entry that cannot be read has `None` in that field.
- Item meta is reduced to the stored price and the lore. A stack without meta reads as a fresh empty meta, as `getItemMeta` returns one.
- Adding a bought stack to the buyer's inventory, and dropping what does not fit, is host work. `MerchantBuy.OnClick` returns the stack to give.
- `getFamilyInfoById` and `countMembers` only build a display string, so they are not modelled.
- The `(int)` casts of the long serf meta values in `FeudalService` (miss count, deliver points) are modelled for values within the `int` range only.
- `PriceInput.OnAnvilClick` uses the corrected `ApplyPriceLoreAndKey` (see Findings); `PriceInput.ApplyPriceLore` keeps the code as written.
- `PriceInput.ParseNpcIdFromTitle` states only its range. What it reads from an editor title is stated by `PriceInput.DefaultEditorTitleRoundTrip`.
- `Text.ParseInt` states only that its result is a 32-bit int; what it parses is stated by `Text.IntToStringRoundTrip`. It reads ASCII digits only, while `Integer.parseInt` also accepts the other Unicode decimal digits, such as the fullwidth ones; a number typed in such digits is refused here.
- `Text.ToLower` and `Text.EqualsIgnoreCase` lower-case ASCII A-Z only. Java's default-locale `toLowerCase` (Turkish I to dotless ı) and its lower-casing of non-ASCII letters such as É, İ and the Kelvin sign are not modelled, and neither is `equalsIgnoreCase` matching É with é, İ with i or the Kelvin sign with k; the sub-command words compared here are ASCII.
- `Text.ToUpper` maps each character to one character: a to z, and the dotless ı and long ſ that Java upper-cases to ASCII letters. Java's special casings that lengthen a string (ß to "SS", ligatures) and its dependence on the default locale (Turkish i to İ) are not modelled, so a job name typed with those characters is judged as in the root locale with single-character mappings.
- A Dafny `char` is a Unicode scalar value, while Java's `String` counts UTF-16 code units. Lengths and indices differ for characters outside the Basic Multilingual Plane; none of the rules depend on them.
- `Territory.IsInside` uses the exact containment test, not the 32-bit one the code computes (see Findings). The two agree while offsets stay below 32768 and radii within 46340 (`Territory.WithinRadiusAsWritten`).
- `Territory.FirstContaining` finds the first land containing the block by the exact test.
- `Territory.CanBuild` decides by the exact test: a block far outside a land that the 32-bit test wraps inside may be built on here, where the code refuses it.
- `Guard.Eligible` admits only players inside the land by the exact test, where the guard loop's own `isInside` wraps at 32 bits (see Findings).
- `Guard.Active` requires the guard to stand inside its land by the exact test; `Guard.ActiveAsWritten` keeps the 32-bit test.
- `Guard.FindNearestEnemy` chooses among the players `Guard.Eligible` admits, so by the exact test.
- `Guard.GuardRound` acts only for a guard that `Guard.Active` admits, so by the exact test.
- `Tax.DeliverKeepsPointsBelowHundred` holds of the code as written (`Tax.AddSerfDeliver`) only while the point sum fits in an `int`; past that the wrapped sum is stored negative (see Findings). It holds unconditionally of `Tax.AddSerfDeliverLong`.
- `Tax.DeliverConservesPoints` likewise holds of the code as written only while the point sum fits in an `int`, and unconditionally of `Tax.AddSerfDeliverLong`.
- `MerchantBuy.HasEmerald` counts every emerald in the inventory. `containsAtLeast` counts only stacks similar to a plain emerald, so emeralds with a name or lore are not counted by the code; item meta on emeralds is not modelled.
- `JavaInt.Quot` states truncation exactly only for non-negative operands; for a negative dividend it states only the sign, which is all the tax rules use.
- `MerchantEdit.OnChat` does not check that the open editor belongs to the NPC of the request, and neither does the code.

## Findings

| source | as written | input that shows it | evidently intended | confidence | as-written member | corrected member |
|---|---|---|---|---|---|---|
| src/main/java/com/example/feudal/land/FamilyLandProtectListener.java:42-48 | `dx * dx + dz * dz <= r * r` is computed in 32-bit `int` and wraps | land centred at (0, 0) with radius 10; block at x = 65536, z = 0: dx * dx wraps to 0, so the block counts as inside and a foreigner is refused there | the exact squared distance, so only blocks within the radius are protected | not executed | Territory.WrapAroundCountsFarBlockInside | Territory.InsideWithinBoundingSquare |
| src/main/java/com/example/feudal/merchant/MerchantPriceInputListener.java:180-198 | the anvil writes only a price line into the lore; the shop's save reads the price key | an unpriced stack set to 12 in the anvil: the editor closes and the stack is not saved; a stack priced 5 before stays at 5 | the price typed in the anvil is the price saved | not executed | PriceInput.AnvilPriceLostOnSave | PriceInput.AnvilPriceSaved |
| src/main/java/com/example/feudal/npc/GuardLoop.java:224-232 | the guard loop's own `isInside` computes `dx * dx + dz * dz <= r * r` in 32-bit `int` | a guard standing at x = 65536, z = 0 of a radius-10 land centred at (0, 0): dx * dx wraps to 0, so the guard counts as inside its land and goes on guarding | the exact squared distance, so a guard acts only inside its land | not executed | Guard.FarGuardActiveAsWritten | Guard.ActiveGuardNearLand |
| src/main/java/com/example/feudal/service/TaxService.java:216-221 | `int after = before + addPoints` wraps, and the negative sum is stored as the new point count | 99 points and a delivery of 2147483647: the sum wraps to -2147483550, which is stored, and no reward is given | the sum without overflow (the column is a `long`), giving 21474837 rewards and keeping 46 points | not executed | Tax.DeliverOverflowStoresNegative | Tax.AddSerfDeliverLong |

=== FILE: command.dfy ===
/**
 * The decision rules of the `/f` command: which preconditions each
 * sub-command checks, in which order, and which store, bank, invite and
 * NPC-settings writes follow. Chat output is reduced to a `Reply`; the
 * host lookups (the online player a name resolves to, the caller's
 * location, the admin permission, the clock) are parameters.
 */
module Command {
  import opened Wrappers
  import opened Ranks
  import opened Jobs
  import opened Store
  import opened Tax
  import opened NpcTrait
  import Text
  import JavaInt

  const INVITE_EXPIRE_MS: int := 5 * 60 * 1000
  const DEFAULT_LAND_RADIUS: int := 30
  const MIN_INTERVAL_SEC: int := 5

  /** A pending invitation, held in memory only. */
  datatype Invite = Invite(familyId: int, expiresAtMs: int, familyName: string)

  /**
   * Everything a command can change: the store, the tax tables, the
   * pending invites, and the NPC registry with the settings of the NPCs
   * that carry the plugin's trait.
   */
  datatype Server = Server(
    store: Store, tax: TaxState, invites: map<Uuid, Invite>,
    registry: set<int>, traits: map<int, Trait>)

  /** How a command ends; the chat messages collapse into these. */
  datatype Reply =
    | Usage | Shown | NoFamily | AlreadyInFamily | NameTaken
    | NotKing | NotAdmin | Offline | NotSameFamily | Unchanged
    | NoInvite | InviteExpired | BadNumber | BadChoice | SerfJobRestricted
    | NotPositive | IntervalTooShort | InsufficientFunds | NoNpc | NpcWithoutFamily
    | Done | Granted(emeralds: int)

  /** The caller's block position when a land is set. */
  datatype Spot = Spot(world: string, x: int, y: int, z: int)


  predicate IsKing(s: Store, u: Uuid) {
    GetRank(s, u) == King
  }

  /** Both players belong to a family, and to the same one. */
  predicate SameFamily(s: Store, a: Uuid, b: Uuid) {
    FamilyIdOf(s, a).Some? && FamilyIdOf(s, b).Some? && FamilyIdOf(s, a) == FamilyIdOf(s, b)
  }

  /** `on` / `off` in any letter case; anything else is no choice. */
  function OnOff(s: string): (r: Option<bool>)
    ensures r == Some(true) <==> Text.EqualsIgnoreCase(s, "on")
    ensures r == Some(false) <==> !Text.EqualsIgnoreCase(s, "on") && Text.EqualsIgnoreCase(s, "off")
  {
    if Text.EqualsIgnoreCase(s, "on") then Some(true)
    else if Text.EqualsIgnoreCase(s, "off") then Some(false)
    else None
  }

  /** The jobs a serf may be given. */
  predicate SerfMayHold(j: Job) {
    j == Farmer || j == Miner || j == Guard
  }

  /** Family names are never reused. */
  predicate UniqueNames(s: Store) {
    forall i, j :: 0 <= i < j < |s.families| ==> s.families[i] != s.families[j]
  }

  // ---------------------------------------------------------------
  // create
  // ---------------------------------------------------------------

  /** `create <name>`: only for a player without a family, and only under an unused name. */
  function Create(sv: Server, me: Uuid, args: seq<string>): (r: (Server, Reply))
    ensures r.1 == Done <==> |args| >= 2 && FamilyIdOf(sv.store, me).None? && args[1] !in sv.store.families
    ensures r.1 != Done ==> r.0 == sv
    ensures r.1 == Done ==>
      && r.0.store.families == sv.store.families + [args[1]]
      && FamilyIdOf(r.0.store, me) == Some(|r.0.store.families|)
      && IsKing(r.0.store, me) && GetJob(r.0.store, me) == NoJob && !IsSerf(r.0.store, me)
      && r.0.(store := sv.store) == sv
    ensures UniqueNames(sv.store) ==> UniqueNames(r.0.store)
  {
    if |args| < 2 then (sv, Usage)
    else if FamilyIdOf(sv.store, me).Some? then (sv, AlreadyInFamily)
    else if FamilyIdByName(sv.store, args[1]).Some? then (sv, NameTaken)
    else (sv.(store := CreateFamily(sv.store, args[1], me)), Done)
  }

  // ---------------------------------------------------------------
  // land
  // ---------------------------------------------------------------

  /** The radius `land set` uses: 30 without an argument, else the parsed argument. */
  function LandSetRadius(args: seq<string>): (r: Option<int>)
    ensures |args| < 3 ==> r == Some(DEFAULT_LAND_RADIUS)
    ensures |args| >= 3 ==> r == Text.ParseInt(args[2])
  {
    if |args| < 3 then Some(DEFAULT_LAND_RADIUS) else Text.ParseInt(args[2])
  }

  /** The land sub-commands that write: `set` with a usable radius, `radius` with a number, `on` and `off`. */
  predicate LandAccepts(sub: string, args: seq<string>) {
    || (sub == "set" && LandSetRadius(args).Some?)
    || (sub == "radius" && |args| >= 3 && Text.ParseInt(args[2]).Some?)
    || sub == "on" || sub == "off"
  }

  /**
   * `land info|set [r]|radius <r>|on|off`: a family is needed for all of
   * them; everything but `info` is for the KING only.
   */
  function Land(sv: Server, me: Uuid, args: seq<string>, here: Spot): (r: (Server, Reply))
    requires LandsKeyed(sv.store.lands)
    ensures LandsKeyed(r.0.store.lands)
    ensures FamilyIdOf(sv.store, me).None? ==> r == (sv, NoFamily)
    ensures !IsKing(sv.store, me) ==> r.0 == sv
    ensures r.0.(store := sv.store) == sv && r.0.store.(lands := sv.store.lands) == sv.store
    ensures r.1 != Done ==> r.0 == sv
    ensures r.1 == Done <==>
      FamilyIdOf(sv.store, me).Some? && |args| >= 2 && IsKing(sv.store, me) && LandAccepts(Text.ToLower(args[1]), args)
    ensures r.1 == Done ==>
      && IsKing(sv.store, me) && FamilyIdOf(sv.store, me).Some? && |args| >= 2
      && LandChanged(sv.store, r.0.store, FamilyIdOf(sv.store, me).value, Text.ToLower(args[1]), args, here)
  {
    var fid := FamilyIdOf(sv.store, me);
    if fid.None? then (sv, NoFamily)
    else if |args| < 2 then (sv, Usage)
    else
      var sub := Text.ToLower(args[1]);
      if sub == "info" then (sv, Shown)
      else if !IsKing(sv.store, me) then (sv, NotKing)
      else
        var (s1, reply) := LandWrite(sv.store, fid.value, sub, args, here);
        (sv.(store := s1), reply)
  }

  /**
   * What a successful land sub-command leaves: `set` installs the land
   * here, `radius` and `on`/`off` edit one column of an existing land (and
   * change nothing when the family has none); no other family's land moves.
   */
  ghost predicate LandChanged(s: Store, r: Store, f: int, sub: string, args: seq<string>, here: Spot) {
    && (sub == "set" || sub == "radius" || sub == "on" || sub == "off")
    && (forall g :: g != f ==> GetFamilyLand(r, g) == GetFamilyLand(s, g))
    && (sub == "set" ==>
          LandSetRadius(args).Some?
          && GetFamilyLand(r, f) == Some(FamilyLand(f, here.world, here.x, here.y, here.z, LandSetRadius(args).value, true)))
    && (sub == "radius" ==>
          && |args| >= 3 && Text.ParseInt(args[2]).Some?
          && (GetFamilyLand(s, f).None? ==> r == s)
          && (GetFamilyLand(s, f).Some? ==>
                GetFamilyLand(r, f) == Some(GetFamilyLand(s, f).value.(radius := Text.ParseInt(args[2]).value))))
    && (sub == "on" || sub == "off" ==>
          && (GetFamilyLand(s, f).None? ==> r == s)
          && (GetFamilyLand(s, f).Some? ==> GetFamilyLand(r, f) == Some(GetFamilyLand(s, f).value.(enabled := sub == "on"))))
  }

  /** The KING-only land sub-commands. */
  function LandWrite(s: Store, f: int, sub: string, args: seq<string>, here: Spot): (r: (Store, Reply))
    requires LandsKeyed(s.lands)
    ensures LandsKeyed(r.0.lands)
    ensures r.0.(lands := s.lands) == s
    ensures r.1 != Done ==> r.0 == s
    ensures r.1 == Done <==> LandAccepts(sub, args)
    ensures r.1 == Done ==> LandChanged(s, r.0, f, sub, args, here)
  {
    if sub == "set" then
      var radius := LandSetRadius(args);
      if radius.None? then (s, BadNumber)
      else (UpsertFamilyLand(s, FamilyLand(f, here.world, here.x, here.y, here.z, radius.value, true)), Done)
    else if sub == "radius" then
      if |args| < 3 then (s, Usage)
      else
        var n := Text.ParseInt(args[2]);
        if n.None? then (s, BadNumber)
        else (SetFamilyLandRadius(s, f, n.value), Done)
    else if sub == "on" || sub == "off" then
      (SetFamilyLandEnabled(s, f, sub == "on"), Done)
    else (s, Usage)
  }

  // ---------------------------------------------------------------
  // promote / demote
  // ---------------------------------------------------------------

  /**
   * `promote|demote <name>`: admin only, target online and in the
   * caller's family; a rank that would not move is reported and not written.
   * `target` is the online player the name resolves to, if any.
   */
  function PromoteDemote(sv: Server, me: Uuid, args: seq<string>, isAdmin: bool, target: Option<Uuid>): (r: (Server, Reply))
    requires |args| >= 1
    ensures !isAdmin ==> r.0 == sv
    ensures r.1 != Done ==> r.0 == sv
    ensures r.1 == Done ==> isAdmin && target.Some? && SameFamily(sv.store, me, target.value)
    ensures r.1 == Done ==>
      var t := target.value;
      var cur := GetRank(sv.store, t);
      && (Text.EqualsIgnoreCase(args[0], "promote") ==> Ordinal(GetRank(r.0.store, t)) + 1 == Ordinal(cur))
      && (!Text.EqualsIgnoreCase(args[0], "promote") ==> Ordinal(GetRank(r.0.store, t)) == Ordinal(cur) + 1)
      && FamilyIdOf(r.0.store, t) == FamilyIdOf(sv.store, t)
      && GetJob(r.0.store, t) == GetJob(sv.store, t) && IsSerf(r.0.store, t) == IsSerf(sv.store, t)
    ensures |args| >= 2 && isAdmin && target.Some? && SameFamily(sv.store, me, target.value) ==>
      (r.1 == Unchanged <==>
         GetRank(sv.store, target.value) == (if Text.EqualsIgnoreCase(args[0], "promote") then King else Peasant))
    ensures r.1 == Done <==>
      && |args| >= 2 && isAdmin && target.Some? && SameFamily(sv.store, me, target.value)
      && GetRank(sv.store, target.value) != (if Text.EqualsIgnoreCase(args[0], "promote") then King else Peasant)
  {
    if |args| < 2 then (sv, Usage)
    else if !isAdmin then (sv, NotAdmin)
    else if target.None? then (sv, Offline)
    else
      var t := target.value;
      if !SameFamily(sv.store, me, t) then (sv, NotSameFamily)
      else
        var cur := GetRank(sv.store, t);
        var next := if Text.EqualsIgnoreCase(args[0], "promote") then Promote(Some(cur)) else Demote(Some(cur));
        if cur == next then (sv, Unchanged)
        else (sv.(store := SetMember(sv.store, t, FamilyIdOf(sv.store, me).value, next)), Done)
  }

  // ---------------------------------------------------------------
  // invite / accept
  // ---------------------------------------------------------------

  /** `invite <name>`: the KING of a family invites an online player without a family, for five minutes. */
  function InvitePlayer(sv: Server, me: Uuid, args: seq<string>, target: Option<Uuid>, now: int): (r: (Server, Reply))
    ensures !IsKing(sv.store, me) ==> r.0 == sv
    ensures r.1 != Done ==> r.0 == sv
    ensures r.1 == Done <==>
      |args| >= 2 && FamilyIdOf(sv.store, me).Some? && IsKing(sv.store, me)
      && target.Some? && FamilyIdOf(sv.store, target.value).None?
    ensures r.1 == Done ==>
      var f := FamilyIdOf(sv.store, me).value;
      r.0 == sv.(invites := sv.invites[target.value := Invite(f, now + INVITE_EXPIRE_MS, FamilyNameById(sv.store, f))])
  {
    if |args| < 2 then (sv, Usage)
    else if FamilyIdOf(sv.store, me).None? then (sv, NoFamily)
    else if !IsKing(sv.store, me) then (sv, NotKing)
    else if target.None? then (sv, Offline)
    else if FamilyIdOf(sv.store, target.value).Some? then (sv, AlreadyInFamily)
    else
      var f := FamilyIdOf(sv.store, me).value;
      (sv.(invites := sv.invites[target.value := Invite(f, now + INVITE_EXPIRE_MS, FamilyNameById(sv.store, f))]), Done)
  }

  /**
   * `accept`: a pending invite that has not expired (`now` may equal the
   * expiry) makes the caller a PEASANT of that family with no job and not
   * a serf; an expired one is deleted. Either way the invite is gone.
   */
  function Accept(sv: Server, me: Uuid, now: int): (r: (Server, Reply))
    ensures me !in sv.invites ==> r == (sv, NoInvite)
    ensures me in sv.invites ==> r.0.invites == sv.invites - {me}
    ensures me in sv.invites && now > sv.invites[me].expiresAtMs ==> r == (sv.(invites := sv.invites - {me}), InviteExpired)
    ensures me in sv.invites && now <= sv.invites[me].expiresAtMs ==>
      && r.1 == Done
      && FamilyIdOf(r.0.store, me) == Some(sv.invites[me].familyId)
      && GetRank(r.0.store, me) == Peasant && GetJob(r.0.store, me) == NoJob && !IsSerf(r.0.store, me)
      && (forall v :: v in sv.store.members && v != me ==> v in r.0.store.members && r.0.store.members[v] == sv.store.members[v])
      && r.0.store.families == sv.store.families && r.0.store.lands == sv.store.lands
      && r.0.tax == sv.tax
  {
    if me !in sv.invites then (sv, NoInvite)
    else
      var inv := sv.invites[me];
      if now > inv.expiresAtMs then (sv.(invites := sv.invites - {me}), InviteExpired)
      else
        var s1 := SetMember(sv.store, me, inv.familyId, Peasant);
        var s2 := SetJob(s1, me, NoJob);
        var s3 := SetSerf(s2, me, false);
        (sv.(store := s3, invites := sv.invites - {me}), Done)
  }

  /** An invite can be accepted until and including the last millisecond of its five minutes. */
  lemma InviteBoundary(sv: Server, me: Uuid, args: seq<string>, target: Uuid, issuedAt: int)
    requires |args| >= 2 && FamilyIdOf(sv.store, me).Some? && IsKing(sv.store, me)
    requires FamilyIdOf(sv.store, target).None?
    ensures var sv1 := InvitePlayer(sv, me, args, Some(target), issuedAt).0;
      && Accept(sv1, target, issuedAt + INVITE_EXPIRE_MS).1 == Done
      && Accept(sv1, target, issuedAt + INVITE_EXPIRE_MS + 1).1 == InviteExpired
      && FamilyIdOf(Accept(sv1, target, issuedAt + INVITE_EXPIRE_MS).0.store, target) == FamilyIdOf(sv.store, me)
  {
  }

  // ---------------------------------------------------------------
  // serf set / job set
  // ---------------------------------------------------------------

  /**
   * `serf me|set <name> on|off`: setting is for the KING, on a member of
   * the same family; turning it on also makes the job FARMER.
   */
  function SerfCommand(sv: Server, me: Uuid, args: seq<string>, target: Option<Uuid>): (r: (Server, Reply))
    ensures !IsKing(sv.store, me) ==> r.0 == sv
    ensures r.1 != Done ==> r.0 == sv
    ensures r.1 == Done <==>
      && |args| >= 4 && Text.EqualsIgnoreCase(args[1], "set") && IsKing(sv.store, me)
      && target.Some? && SameFamily(sv.store, me, target.value) && OnOff(args[3]).Some?
    ensures r.1 == Done ==>
      && |args| >= 4 && IsKing(sv.store, me) && target.Some? && SameFamily(sv.store, me, target.value)
      && OnOff(args[3]).Some?
    ensures r.1 == Done ==>
      var t := target.value;
      && IsSerf(r.0.store, t) == OnOff(args[3]).value
      && GetJob(r.0.store, t) == (if OnOff(args[3]).value then Farmer else GetJob(sv.store, t))
      && FamilyIdOf(r.0.store, t) == FamilyIdOf(sv.store, t) && GetRank(r.0.store, t) == GetRank(sv.store, t)
      && r.0.(store := sv.store) == sv
  {
    if |args| < 2 then (sv, Usage)
    else if Text.EqualsIgnoreCase(args[1], "me") then (sv, Shown)
    else if !Text.EqualsIgnoreCase(args[1], "set") then (sv, Usage)
    else if |args| < 4 then (sv, Usage)
    else if !IsKing(sv.store, me) then (sv, NotKing)
    else if target.None? then (sv, Offline)
    else if !SameFamily(sv.store, me, target.value) then (sv, NotSameFamily)
    else
      var on := OnOff(args[3]);
      if on.None? then (sv, BadChoice)
      else
        var t := target.value;
        var s1 := SetSerf(sv.store, t, on.value);
        var s2 := if on.value then SetJob(s1, t, Farmer) else s1;
        (sv.(store := s2), Done)
  }

  /**
   * `job me|set <name> <job>`: setting is for the KING, on a member of the
   * same family, with a valid job name in any case; a serf may only be a
   * FARMER, MINER or GUARD.
   */
  function JobCommand(sv: Server, me: Uuid, args: seq<string>, target: Option<Uuid>): (r: (Server, Reply))
    ensures !IsKing(sv.store, me) ==> r.0 == sv
    ensures r.1 != Done ==> r.0 == sv
    ensures r.1 == Done <==>
      && |args| >= 4 && Text.EqualsIgnoreCase(args[1], "set") && IsKing(sv.store, me)
      && target.Some? && SameFamily(sv.store, me, target.value)
      && Jobs.ValueOf(Some(Text.ToUpper(args[3]))).Some?
      && (IsSerf(sv.store, target.value) ==> SerfMayHold(Jobs.ValueOf(Some(Text.ToUpper(args[3]))).value))
    ensures r.1 == Done ==>
      && |args| >= 4 && IsKing(sv.store, me) && target.Some? && SameFamily(sv.store, me, target.value)
      && Jobs.ValueOf(Some(Text.ToUpper(args[3]))).Some?
      && var j := Jobs.ValueOf(Some(Text.ToUpper(args[3]))).value;
         && (IsSerf(sv.store, target.value) ==> SerfMayHold(j))
         && GetJob(r.0.store, target.value) == j
         && IsSerf(r.0.store, target.value) == IsSerf(sv.store, target.value)
         && FamilyIdOf(r.0.store, target.value) == FamilyIdOf(sv.store, target.value)
         && GetRank(r.0.store, target.value) == GetRank(sv.store, target.value)
    ensures r.1 == SerfJobRestricted <==>
      && |args| >= 4 && Text.EqualsIgnoreCase(args[1], "set") && IsKing(sv.store, me)
      && target.Some? && SameFamily(sv.store, me, target.value)
      && Jobs.ValueOf(Some(Text.ToUpper(args[3]))).Some?
      && IsSerf(sv.store, target.value) && !SerfMayHold(Jobs.ValueOf(Some(Text.ToUpper(args[3]))).value)
    ensures r.0.(store := sv.store) == sv
  {
    if |args| < 2 then (sv, Usage)
    else if Text.EqualsIgnoreCase(args[1], "me") then (sv, Shown)
    else if !Text.EqualsIgnoreCase(args[1], "set") then (sv, Usage)
    else if |args| < 4 then (sv, Usage)
    else if !IsKing(sv.store, me) then (sv, NotKing)
    else if target.None? then (sv, Offline)
    else if !SameFamily(sv.store, me, target.value) then (sv, NotSameFamily)
    else
      var jobStr := Text.ToUpper(args[3]);
      var j := Jobs.ValueOf(Some(jobStr));
      if j.None? then (sv, BadChoice)
      else if IsSerf(sv.store, target.value) && !SerfMayHold(j.value) then (sv, SerfJobRestricted)
      else (sv.(store := SetJob(sv.store, target.value, j.value)), Done)
  }

  /** A serf can never be given NONE by command, even though NONE is a valid job name. */
  lemma SerfCannotBecomeJobless(sv: Server, me: Uuid, target: Uuid)
    requires IsKing(sv.store, me) && SameFamily(sv.store, me, target) && IsSerf(sv.store, target)
    ensures JobCommand(sv, me, ["job", "set", "x", "none"], Some(target)).1 == SerfJobRestricted
  {
    assert Text.ToUpper("none") == "NONE";
    assert Jobs.ValueOf(Some("NONE")) == Some(NoJob);
    assert Text.EqualsIgnoreCase("set", "set");
  }

  // ---------------------------------------------------------------
  // bank / withdraw
  // ---------------------------------------------------------------

  /**
   * `withdraw <amount>`: the amount is checked before anything else is
   * looked up; then a family and the KING rank are needed, and emeralds
   * are handed out only when the bank debit succeeds.
   */
  function Withdraw(sv: Server, me: Uuid, args: seq<string>): (r: (Server, Reply))
    ensures |args| >= 2 && Text.ParseInt(args[1]).Some? && Text.ParseInt(args[1]).value <= 0 ==> r == (sv, NotPositive)
    ensures !IsKing(sv.store, me) ==> r.0 == sv
    ensures r.0.store == sv.store && r.0.invites == sv.invites && r.0.traits == sv.traits && r.0.registry == sv.registry
    ensures r.0.tax.due == sv.tax.due && r.0.tax.ledger == sv.tax.ledger
    ensures r.1.Granted? ==>
      && |args| >= 2 && FamilyIdOf(sv.store, me).Some? && IsKing(sv.store, me)
      && r.1.emeralds > 0 && Some(r.1.emeralds) == Text.ParseInt(args[1])
    ensures r.1.Granted? ==>
      var f := FamilyIdOf(sv.store, me).value;
      Balance(r.0.tax, f) == Balance(sv.tax, f) - r.1.emeralds
    ensures !r.1.Granted? ==> forall g :: Balance(r.0.tax, g) == Balance(sv.tax, g)
    ensures (|args| >= 2 && Text.ParseInt(args[1]).Some? && Text.ParseInt(args[1]).value > 0
             && FamilyIdOf(sv.store, me).Some? && IsKing(sv.store, me)) ==>
        && (r.1.Granted? <==> Balance(sv.tax, FamilyIdOf(sv.store, me).value) >= Text.ParseInt(args[1]).value)
        && (!r.1.Granted? ==> r.1 == InsufficientFunds)
    ensures forall g :: FamilyIdOf(sv.store, me) != Some(g) ==> Balance(r.0.tax, g) == Balance(sv.tax, g)
    ensures Valid(sv.tax) ==> Valid(r.0.tax)
  {
    if |args| < 2 then (sv, Usage)
    else
      var amount := Text.ParseInt(args[1]);
      if amount.None? then (sv, BadNumber)
      else if amount.value <= 0 then (sv, NotPositive)
      else if FamilyIdOf(sv.store, me).None? then (sv, NoFamily)
      else if !IsKing(sv.store, me) then (sv, NotKing)
      else
        var f := FamilyIdOf(sv.store, me).value;
        var (t1, ok) := WithdrawFromBank(sv.tax, f, amount.value);
        if !ok then
          var (t2, _) := GetBankBalance(t1, f);
          (sv.(tax := t2), InsufficientFunds)
        else (sv.(tax := t1), Granted(amount.value))
  }

  /** A withdrawal never overdraws: whatever is granted was in the bank. */
  lemma WithdrawNeverOverdraws(sv: Server, me: Uuid, args: seq<string>)
    requires Valid(sv.tax)
    ensures var r := Withdraw(sv, me, args);
      r.1.Granted? ==> r.1.emeralds <= Balance(sv.tax, FamilyIdOf(sv.store, me).value)
  {
  }

  // ---------------------------------------------------------------
  // npc role / tax / family / serf / job
  // ---------------------------------------------------------------

  /** `getOrAddTrait`: a registered NPC without the trait gets a fresh one. */
  function TraitOf(sv: Server, npcId: int): Trait {
    if npcId in sv.traits then sv.traits[npcId] else NewTrait
  }

  /** `npc role <id> <role>`: any player may set the role of a registered NPC. */
  function NpcRoleCommand(sv: Server, args: seq<string>): (r: (Server, Reply))
    ensures r.1 != Done ==> r.0 == sv
    ensures r.1 == Done <==>
      && |args| >= 4 && Text.ParseInt(args[2]).Some? && RoleValueOf(Text.ToUpper(args[3])).Some?
      && Text.ParseInt(args[2]).value in sv.registry
    ensures r.1 == Done ==>
      && |args| >= 4 && Text.ParseInt(args[2]).Some? && Text.ParseInt(args[2]).value in sv.registry
      && RoleValueOf(Text.ToUpper(args[3])).Some?
      && var n := Text.ParseInt(args[2]).value;
         && n in r.0.traits && GetRole(r.0.traits[n]) == RoleValueOf(Text.ToUpper(args[3]))
         && r.0.traits == sv.traits[n := r.0.traits[n]]
    ensures r.0.(traits := sv.traits) == sv
  {
    if |args| < 4 then (sv, Usage)
    else
      var n := Text.ParseInt(args[2]);
      if n.None? then (sv, BadNumber)
      else
        var role := RoleValueOf(Text.ToUpper(args[3]));
        if role.None? then (sv, BadChoice)
        else if n.value !in sv.registry then (sv, NoNpc)
        else
          var tr := SetRole(TraitOf(sv, n.value), role);
          RoleRoundTrip(TraitOf(sv, n.value), role);
          (sv.(traits := sv.traits[n.value := tr]), Done)
  }

  /**
   * `npc tax <id> <family> <amount> <seconds>`: a positive amount and at
   * least five seconds; the NPC's next collection is one interval from now.
   * Any player may do this, and the role is not required to match.
   */
  function NpcTaxCommand(sv: Server, args: seq<string>, now: int): (r: (Server, Reply))
    ensures r.1 != Done ==> r.0 == sv
    ensures r.1 == Done <==>
      && |args| >= 6 && (forall i :: 2 <= i < 6 ==> Text.ParseInt(args[i]).Some?)
      && Text.ParseInt(args[4]).value > 0 && Text.ParseInt(args[5]).value >= MIN_INTERVAL_SEC
      && Text.ParseInt(args[2]).value in sv.registry
    ensures r.1 == Done ==>
      && |args| >= 6
      && (forall i :: 2 <= i < 6 ==> Text.ParseInt(args[i]).Some?)
      && var n := Text.ParseInt(args[2]).value;
         var amount := Text.ParseInt(args[4]).value;
         var sec := Text.ParseInt(args[5]).value;
         && amount > 0 && sec >= MIN_INTERVAL_SEC && n in sv.registry
         && n in r.0.traits
         && r.0.traits[n].familyId == Some(Text.ParseInt(args[3]).value)
         && GetTaxAmount(r.0.traits[n]) == amount
         && GetIntervalMs(r.0.traits[n]) == sec * 1000
         && GetNextCollectAtMs(r.0.traits[n]) == now + sec * 1000
         && GetRole(r.0.traits[n]) == GetRole(TraitOf(sv, n))
    ensures |args| >= 6 && (forall i :: 2 <= i < 6 ==> Text.ParseInt(args[i]).Some?) ==>
      (Text.ParseInt(args[4]).value <= 0 ==> r.1 == NotPositive)
      && (Text.ParseInt(args[4]).value > 0 && Text.ParseInt(args[5]).value < MIN_INTERVAL_SEC ==> r.1 == IntervalTooShort)
    ensures r.0.(traits := sv.traits) == sv
  {
    if |args| < 6 then (sv, Usage)
    else
      var n := Text.ParseInt(args[2]);
      var f := Text.ParseInt(args[3]);
      var amount := Text.ParseInt(args[4]);
      var sec := Text.ParseInt(args[5]);
      if n.None? || f.None? || amount.None? || sec.None? then (sv, BadNumber)
      else if amount.value <= 0 then (sv, NotPositive)
      else if sec.value < MIN_INTERVAL_SEC then (sv, IntervalTooShort)
      else if n.value !in sv.registry then (sv, NoNpc)
      else
        var tr := TraitOf(sv, n.value);
        var interval := sec.value * 1000;
        var tr1 := tr.(familyId := Some(f.value), taxAmount := Some(amount.value), intervalMs := Some(interval));
        var tr2 := tr1.(nextCollectAtMs := Some(now + GetIntervalMs(tr1)));
        (sv.(traits := sv.traits[n.value := tr2]), Done)
  }

  /** A collector configured by `npc tax` waits a full interval before its first collection. */
  lemma NpcTaxArmsFullInterval(sv: Server, args: seq<string>, now: int)
    requires NpcTaxCommand(sv, args, now).1 == Done
    ensures var n := Text.ParseInt(args[2]).value;
      var tr := NpcTaxCommand(sv, args, now).0.traits[n];
      GetNextCollectAtMs(tr) >= now + MIN_INTERVAL_SEC * 1000 && InitNextIfNeeded(tr, now) == tr
  {
  }

  /** `npc family <id> <family>`: the KING binds a registered NPC to a family (an upsert). */
  function NpcFamilyCommand(sv: Server, me: Uuid, args: seq<string>): (r: (Server, Reply))
    ensures !IsKing(sv.store, me) ==> r.0 == sv
    ensures r.1 != Done ==> r.0 == sv
    ensures r.1 == Done <==>
      && |args| >= 4 && IsKing(sv.store, me)
      && Text.ParseInt(args[2]).Some? && Text.ParseInt(args[3]).Some? && Text.ParseInt(args[2]).value in sv.registry
    ensures r.1 == Done ==>
      && |args| >= 4 && IsKing(sv.store, me)
      && Text.ParseInt(args[2]).Some? && Text.ParseInt(args[3]).Some? && Text.ParseInt(args[2]).value in sv.registry
      && GetNpcFamilyId(r.0.store, Text.ParseInt(args[2]).value) == Text.ParseInt(args[3])
    ensures r.0.(store := sv.store) == sv
  {
    if |args| < 4 then (sv, Usage)
    else if !IsKing(sv.store, me) then (sv, NotKing)
    else
      var n := Text.ParseInt(args[2]);
      var f := Text.ParseInt(args[3]);
      if n.None? || f.None? then (sv, BadNumber)
      else if n.value !in sv.registry then (sv, NoNpc)
      else (sv.(store := SetNpcMember(sv.store, n.value, f.value)), Done)
  }

  /**
   * `npc serf <id> on|off`: the KING, on a registered NPC that already has
   * a family; turning it on also makes the NPC's job FARMER.
   */
  function NpcSerfCommand(sv: Server, me: Uuid, args: seq<string>): (r: (Server, Reply))
    ensures !IsKing(sv.store, me) ==> r.0 == sv
    ensures r.1 != Done ==> r.0 == sv
    ensures r.1 == Done <==>
      && |args| >= 4 && IsKing(sv.store, me) && Text.ParseInt(args[2]).Some?
      && Text.ParseInt(args[2]).value in sv.registry && GetNpcFamilyId(sv.store, Text.ParseInt(args[2]).value).Some?
      && OnOff(args[3]).Some?
    ensures r.1 == Done ==>
      && |args| >= 4 && IsKing(sv.store, me) && Text.ParseInt(args[2]).Some?
      && var n := Text.ParseInt(args[2]).value;
         && n in sv.registry && GetNpcFamilyId(sv.store, n).Some? && OnOff(args[3]).Some?
         && IsNpcSerf(r.0.store, n) == OnOff(args[3]).value
         && GetNpcJob(r.0.store, n) == (if OnOff(args[3]).value then Farmer else GetNpcJob(sv.store, n))
         && GetNpcFamilyId(r.0.store, n) == GetNpcFamilyId(sv.store, n)
    ensures r.0.(store := sv.store) == sv
  {
    if |args| < 4 then (sv, Usage)
    else if !IsKing(sv.store, me) then (sv, NotKing)
    else
      var n := Text.ParseInt(args[2]);
      if n.None? then (sv, BadNumber)
      else if n.value !in sv.registry then (sv, NoNpc)
      else if GetNpcFamilyId(sv.store, n.value).None? then (sv, NpcWithoutFamily)
      else
        var on := OnOff(args[3]);
        if on.None? then (sv, BadChoice)
        else
          var s1 := SetNpcSerf(sv.store, n.value, on.value);
          var s2 := if on.value then SetNpcJob(s1, n.value, Farmer) else s1;
          (sv.(store := s2), Done)
  }

  /**
   * `npc job <id> <job>`: the KING, on a registered NPC, with a valid job;
   * a serf NPC may only be a FARMER, MINER or GUARD. The write is
   * update-only, so an NPC without a stored row keeps no job although the
   * command reports success.
   */
  function NpcJobCommand(sv: Server, me: Uuid, args: seq<string>): (r: (Server, Reply))
    ensures !IsKing(sv.store, me) ==> r.0 == sv
    ensures r.1 != Done ==> r.0 == sv
    ensures r.1 == Done <==>
      && |args| >= 4 && IsKing(sv.store, me) && Text.ParseInt(args[2]).Some?
      && Text.ParseInt(args[2]).value in sv.registry
      && Jobs.ValueOf(Some(Text.ToUpper(args[3]))).Some?
      && (IsNpcSerf(sv.store, Text.ParseInt(args[2]).value) ==> SerfMayHold(Jobs.ValueOf(Some(Text.ToUpper(args[3]))).value))
    ensures r.1 == Done ==>
      && |args| >= 4 && IsKing(sv.store, me) && Text.ParseInt(args[2]).Some?
      && Text.ParseInt(args[2]).value in sv.registry
      && Jobs.ValueOf(Some(Text.ToUpper(args[3]))).Some?
      && var n := Text.ParseInt(args[2]).value;
         var j := Jobs.ValueOf(Some(Text.ToUpper(args[3]))).value;
         && (IsNpcSerf(sv.store, n) ==> SerfMayHold(j))
         && (n in sv.store.npcs ==> GetNpcJob(r.0.store, n) == j)
         && (n !in sv.store.npcs ==> r.0 == sv)
    ensures r.1 == SerfJobRestricted ==>
      && |args| >= 4 && Text.ParseInt(args[2]).Some? && Jobs.ValueOf(Some(Text.ToUpper(args[3]))).Some?
      && IsNpcSerf(sv.store, Text.ParseInt(args[2]).value) && !SerfMayHold(Jobs.ValueOf(Some(Text.ToUpper(args[3]))).value)
    ensures r.0.(store := sv.store) == sv
  {
    if |args| < 4 then (sv, Usage)
    else if !IsKing(sv.store, me) then (sv, NotKing)
    else
      var n := Text.ParseInt(args[2]);
      if n.None? then (sv, BadNumber)
      else if n.value !in sv.registry then (sv, NoNpc)
      else
        var j := Jobs.ValueOf(Some(Text.ToUpper(args[3])));
        if j.None? then (sv, BadChoice)
        else if IsNpcSerf(sv.store, n.value) && !SerfMayHold(j.value) then (sv, SerfJobRestricted)
        else (sv.(store := SetNpcJob(sv.store, n.value, j.value)), Done)
  }

  /** The serf job rule is the same for players and NPCs. */
  lemma SerfRuleSameForNpcs(sv: Server, me: Uuid, target: Uuid, n: int, job: string)
    requires IsKing(sv.store, me) && SameFamily(sv.store, me, target) && n in sv.registry && JavaInt.IsInt(n)
    requires IsSerf(sv.store, target) && IsNpcSerf(sv.store, n)
    requires Jobs.ValueOf(Some(Text.ToUpper(job))).Some?
    ensures var a := JobCommand(sv, me, ["job", "set", "x", job], Some(target)).1;
      var b := NpcJobCommand(sv, me, ["npc", "job", Text.IntToString(n), job]).1;
      (a == SerfJobRestricted) == (b == SerfJobRestricted)
  {
    assert Text.EqualsIgnoreCase("set", "set");
    Text.IntToStringRoundTrip(n);
  }
}

=== FILE: farmer.dfy ===
/**
 * The farmer NPC of FarmerLoop: the per-NPC gating and timer, and one
 * farming pass over the 13 x 13 columns around the NPC. Each column is
 * the block at the NPC's height with the blocks just below and above it;
 * a pass changes only the crop block of a column, and no column reads
 * another, so a pass is a walk over independent columns. The random
 * harvest rolls are inputs.
 */
module Farmer {
  import opened Wrappers
  import opened Inventory
  import opened NpcTrait

  const RADIUS: int := 6
  const SIDE: int := 2 * RADIUS + 1

  /** Growth data of an `Ageable` block; a block without it has none. */
  datatype Growth = Growth(age: int, maxAge: int)

  datatype Block = Block(material: Material, growth: Option<Growth>)

  datatype Column = Column(below: Block, base: Block, above: Block)

  const AIR_BLOCK: Block := Block(Air, None)

  /** `isCrop`: the four crop blocks. */
  predicate IsCrop(m: Material) {
    m == Wheat || m == Carrots || m == Potatoes || m == Beetroots
  }

  /** `seedOf`: what is planted to grow each crop; carrots and potatoes plant themselves. */
  function SeedOf(crop: Material): (r: Option<Material>)
    ensures r.Some? <==> IsCrop(crop)
    ensures r.Some? ==> r.value != Air && !IsCrop(r.value)
  {
    match crop
    case Wheat => Some(WheatSeeds)
    case Carrots => Some(Carrot)
    case Potatoes => Some(Potato)
    case Beetroots => Some(BeetrootSeeds)
    case _ => None
  }

  /** The maximum age of each crop block in the game's block data (not part of the plugin). */
  function CropMaxAge(crop: Material): int {
    if crop == Beetroots then 3 else 7
  }

  /** A freshly planted crop: the crop block with its age set to 0. */
  function Planted(crop: Material): (b: Block)
    ensures b.material == crop && b.growth.Some? && b.growth.value.age == 0
    ensures !Mature(b)
  {
    Block(crop, Some(Growth(0, CropMaxAge(crop))))
  }

  predicate Mature(b: Block) {
    b.growth.Some? && b.growth.value.age >= b.growth.value.maxAge
  }

  /** Where the crop of a column sits: on the scanned block, or above it. */
  datatype Plot = NoSoil | CropAbove | CropAtBase

  /** Farmland at the scanned height puts the crop above it; farmland just below puts it at that height. */
  function PlotOf(c: Column): (p: Plot)
    ensures p == CropAbove <==> c.base.material == Farmland
    ensures p == CropAtBase <==> c.base.material != Farmland && c.below.material == Farmland
  {
    if c.base.material == Farmland then CropAbove
    else if c.below.material == Farmland then CropAtBase
    else NoSoil
  }

  function CropOf(c: Column, p: Plot): Block
    requires p != NoSoil
  {
    if p == CropAbove then c.above else c.base
  }

  function WithCrop(c: Column, p: Plot, b: Block): Column
    requires p != NoSoil
  {
    if p == CropAbove then c.(above := b) else c.(base := b)
  }

  /** The outcome of `ThreadLocalRandom` for one harvest. */
  datatype Roll = Roll(seeds: int, roots: int, poisonous: bool)

  /** The ranges the draws come from: `nextInt(0, 3)`, `nextInt(1, 4)` and a one-in-twenty chance. */
  predicate RollInRange(r: Roll) {
    0 <= r.seeds <= 2 && 1 <= r.roots <= 3
  }

  /** `giveHarvestToNpc`: the stacks a mature crop yields, in the order they are handed over. */
  function Yield(crop: Material, r: Roll): (ys: seq<Stack>)
    ensures !IsCrop(crop) ==> ys == []
    ensures forall k :: 0 <= k < |ys| ==> ys[k].material != Air
    ensures RollInRange(r) ==> forall k :: 0 <= k < |ys| ==> 1 <= ys[k].amount <= 3
  {
    match crop
    case Wheat => [Stack(Wheat, 1)] + (if r.seeds > 0 then [Stack(WheatSeeds, r.seeds)] else [])
    case Carrots => [Stack(Carrot, r.roots)]
    case Potatoes => [Stack(Potato, r.roots)] + (if r.poisonous then [Stack(PoisonousPotato, 1)] else [])
    case Beetroots => [Stack(Beetroot, 1)] + (if r.seeds > 0 then [Stack(BeetrootSeeds, r.seeds)] else [])
    case _ => []
  }

  /** Total amount of `m` in a list of stacks. */
  function StackSum(ys: seq<Stack>, m: Material): int {
    if |ys| == 0 then 0
    else (if ys[0].material == m then ys[0].amount else 0) + StackSum(ys[1..], m)
  }

  lemma {:induction false} StackSumAppend(a: seq<Stack>, b: seq<Stack>, m: Material)
    ensures StackSum(a + b, m) == StackSum(a, m) + StackSum(b, m)
    decreases |a|
  {
    if |a| == 0 {
      assert a + b == b;
    } else {
      assert (a + b)[1..] == a[1..] + b;
      StackSumAppend(a[1..], b, m);
    }
  }

  /**
   * `addOrDrop`: an empty or non-positive stack is ignored; otherwise it
   * goes into the storage slots of the farmer's player inventory and what
   * does not fit is dropped, even when an armour or off-hand slot is empty.
   */
  function AddOrDrop(inv: Slots, item: Stack): (r: (Slots, seq<Stack>))
    requires item.material != Air
    ensures |r.0| == |inv|
    ensures WellFormed(inv) ==> WellFormed(r.0)
    ensures item.amount <= 0 ==> r == (inv, [])
    ensures forall i :: STORAGE_SLOTS <= i < |inv| ==> r.0[i] == inv[i]
    ensures CountItem(r.0, item.material) + StackSum(r.1, item.material)
      == CountItem(inv, item.material) + (if item.amount > 0 then item.amount else 0)
    ensures forall m :: m != item.material ==> CountItem(r.0, m) == CountItem(inv, m) && StackSum(r.1, m) == 0
  {
    if item.amount <= 0 then (inv, [])
    else
      var (s, left) := AddToStorage(inv, item.material, item.amount);
      (s, if left > 0 then [Stack(item.material, left)] else [])
  }

  /** Hand over a list of stacks one after another; returns the inventory and everything dropped. */
  function GiveAll(inv: Slots, ys: seq<Stack>): (r: (Slots, seq<Stack>))
    requires forall k :: 0 <= k < |ys| ==> ys[k].material != Air
    ensures |r.0| == |inv|
    ensures WellFormed(inv) ==> WellFormed(r.0)
    ensures forall m :: CountItem(r.0, m) + StackSum(r.1, m) == CountItem(inv, m) + PositiveSum(ys, m)
    decreases |ys|
  {
    if |ys| == 0 then (inv, [])
    else
      var (s1, d1) := AddOrDrop(inv, ys[0]);
      var (s2, d2) := GiveAll(s1, ys[1..]);
      StackSumAllAppend(d1, d2);
      (s2, d1 + d2)
  }

  lemma StackSumAllAppend(a: seq<Stack>, b: seq<Stack>)
    ensures forall m :: StackSum(a + b, m) == StackSum(a, m) + StackSum(b, m)
  {
    forall m ensures StackSum(a + b, m) == StackSum(a, m) + StackSum(b, m) {
      StackSumAppend(a, b, m);
    }
  }

  /** Like StackSum, counting only positive stacks (the ones `addOrDrop` does not ignore). */
  function PositiveSum(ys: seq<Stack>, m: Material): int {
    if |ys| == 0 then 0
    else (if ys[0].material == m && ys[0].amount > 0 then ys[0].amount else 0) + PositiveSum(ys[1..], m)
  }

  /**
   * `tryPlant`: with a seed for the crop in the inventory, use one and
   * plant the crop at age 0; otherwise leave block and inventory as they are.
   */
  function TryPlant(inv: Slots, b: Block, crop: Material): (r: (Block, Slots))
    ensures SeedOf(crop).None? ==> r == (b, inv)
    ensures SeedOf(crop).Some? ==>
      var seed := SeedOf(crop).value;
      && ((exists i :: 0 <= i < |inv| && Holds(inv[i], seed)) ==> r.0 == Planted(crop))
      && (!(exists i :: 0 <= i < |inv| && Holds(inv[i], seed)) ==> r == (b, inv))
      && (WellFormed(inv) && (exists i :: 0 <= i < |inv| && Holds(inv[i], seed)) ==> CountItem(r.1, seed) == CountItem(inv, seed) - 1)
      && forall m :: m != seed ==> CountItem(r.1, m) == CountItem(inv, m)
    ensures WellFormed(inv) ==> WellFormed(r.1)
    ensures |r.1| == |inv|
  {
    var seed := SeedOf(crop);
    if seed.None? then (b, inv)
    else
      var (inv1, ok) := TakeOne(inv, seed.value);
      if !ok then (b, inv) else (Planted(crop), inv1)
  }

  /** What farming one column did. */
  datatype Outcome = Outcome(column: Column, inv: Slots, dropped: seq<Stack>)

  /**
   * One column of `doFarmAround`: a mature crop is harvested into the
   * inventory and replanted if a seed is at hand (the harvest's own seeds
   * count); an immature crop is left alone; bare air over farmland gets wheat.
   */
  function FarmColumn(c: Column, inv: Slots, roll: Roll): (r: Outcome)
    ensures PlotOf(c) == NoSoil ==> r == Outcome(c, inv, [])
    ensures PlotOf(c) != NoSoil ==> r.column == WithCrop(c, PlotOf(c), CropOf(r.column, PlotOf(c)))
    ensures |r.inv| == |inv|
    ensures WellFormed(inv) ==> WellFormed(r.inv)
  {
    var p := PlotOf(c);
    if p == NoSoil then Outcome(c, inv, [])
    else
      var crop := CropOf(c, p);
      if IsCrop(crop.material) then
        if Mature(crop) then
          var (inv1, dropped) := GiveAll(inv, Yield(crop.material, roll));
          var (b, inv2) := TryPlant(inv1, AIR_BLOCK, crop.material);
          Outcome(WithCrop(c, p, b), inv2, dropped)
        else Outcome(c, inv, [])
      else if crop.material == Air then
        var (b, inv1) := TryPlant(inv, crop, Wheat);
        Outcome(WithCrop(c, p, b), inv1, [])
      else Outcome(c, inv, [])
  }

  /**
   * The soil is never touched, and the crop block ends up in exactly one
   * of the states the loop can leave it in.
   */
  lemma FarmColumnShape(c: Column, inv: Slots, roll: Roll)
    requires PlotOf(c) != NoSoil
    ensures var p := PlotOf(c);
      var before := CropOf(c, p);
      var after := CropOf(FarmColumn(c, inv, roll).column, p);
      && (p == CropAbove ==> FarmColumn(c, inv, roll).column.base == c.base)
      && (p == CropAtBase ==> FarmColumn(c, inv, roll).column.below == c.below)
      && (after != before ==>
            || (IsCrop(before.material) && Mature(before) && (after == AIR_BLOCK || after == Planted(before.material)))
            || (before.material == Air && after == Planted(Wheat)))
  {
  }

  /** A mature crop is always taken: it never survives a pass unharvested. */
  lemma MatureCropIsHarvested(c: Column, inv: Slots, roll: Roll)
    requires PlotOf(c) != NoSoil
    requires IsCrop(CropOf(c, PlotOf(c)).material) && Mature(CropOf(c, PlotOf(c)))
    requires CropMaxAge(CropOf(c, PlotOf(c)).material) > 0
    ensures !Mature(CropOf(FarmColumn(c, inv, roll).column, PlotOf(c)))
  {
  }

  /**
   * Per item kind, the harvest ends up either in the inventory or on the
   * ground, less the one seed a replanting uses.
   */
  lemma FarmColumnConserves(c: Column, inv: Slots, roll: Roll, m: Material)
    requires WellFormed(inv)
    requires PlotOf(c) != NoSoil
    requires IsCrop(CropOf(c, PlotOf(c)).material) && Mature(CropOf(c, PlotOf(c)))
    ensures var crop := CropOf(c, PlotOf(c)).material;
      var r := FarmColumn(c, inv, roll);
      var replanted := CropOf(r.column, PlotOf(c)) == Planted(crop);
      CountItem(r.inv, m) + StackSum(r.dropped, m)
        == CountItem(inv, m) + PositiveSum(Yield(crop, roll), m) - (if replanted && Some(m) == SeedOf(crop) then 1 else 0)
  {
    var p := PlotOf(c);
    var crop := CropOf(c, p).material;
    var (inv1, dropped) := GiveAll(inv, Yield(crop, roll));
    var (b, inv2) := TryPlant(inv1, AIR_BLOCK, crop);
    assert FarmColumn(c, inv, roll) == Outcome(WithCrop(c, p, b), inv2, dropped);
    assert CropOf(WithCrop(c, p, b), p) == b;
    assert AIR_BLOCK != Planted(crop);
    assert CountItem(inv1, m) + StackSum(dropped, m) == CountItem(inv, m) + PositiveSum(Yield(crop, roll), m);
    PlantCount(inv1, AIR_BLOCK, crop, m);
  }

  /** Planting uses exactly one seed of the crop, and only when it plants. */
  lemma PlantCount(inv: Slots, b: Block, crop: Material, m: Material)
    requires WellFormed(inv) && b != Planted(crop)
    ensures var (b2, inv2) := TryPlant(inv, b, crop);
      CountItem(inv2, m) == CountItem(inv, m) - (if b2 == Planted(crop) && Some(m) == SeedOf(crop) then 1 else 0)
  {
    var (b2, inv2) := TryPlant(inv, b, crop);
    if SeedOf(crop).Some? && b2 == Planted(crop) && m == SeedOf(crop).value {
      assert exists i :: 0 <= i < |inv| && Holds(inv[i], m);
    }
  }

  /**
   * Carrots and potatoes replant themselves: with a free slot, a mature
   * one always comes back as a new crop, whatever the purse held.
   */
  lemma RootCropReplantsItself(c: Column, inv: Slots, roll: Roll, free: int)
    requires PlotOf(c) != NoSoil
    requires var crop := CropOf(c, PlotOf(c)); (crop.material == Carrots || crop.material == Potatoes) && Mature(crop)
    requires RollInRange(roll) && WellFormed(inv)
    requires 0 <= free < |inv| && free < STORAGE_SLOTS && inv[free].None?
    ensures CropOf(FarmColumn(c, inv, roll).column, PlotOf(c)) == Planted(CropOf(c, PlotOf(c)).material)
  {
    var p := PlotOf(c);
    var crop := CropOf(c, p).material;
    var (inv2, _) := GiveAll(inv, Yield(crop, roll));
    HarvestHoldsSeed(crop, inv, roll, free);
    CountPositiveHolds(inv2, SeedOf(crop).value);
    var (b, _) := TryPlant(inv2, AIR_BLOCK, crop);
    assert b == Planted(crop);
    assert FarmColumn(c, inv, roll).column == WithCrop(c, p, b);
  }

  /** The harvest of carrots or potatoes always leaves a seed for them in a purse that had a free slot. */
  lemma HarvestHoldsSeed(crop: Material, inv: Slots, roll: Roll, free: int)
    requires crop == Carrots || crop == Potatoes
    requires RollInRange(roll) && WellFormed(inv)
    requires 0 <= free < |inv| && free < STORAGE_SLOTS && inv[free].None?
    ensures CountItem(GiveAll(inv, Yield(crop, roll)).0, SeedOf(crop).value) >= 1
  {
    var first := Stack(SeedOf(crop).value, roll.roots);
    if crop == Potatoes && roll.poisonous {
      assert Yield(crop, roll) == [first, Stack(PoisonousPotato, 1)];
      KeptBesidePoison(inv, first, free);
    } else {
      assert Yield(crop, roll) == [first];
      GiveOne(inv, first);
      AddToFreeSlot(inv, first, free);
    }
  }

  /** A stack followed by a poisonous potato: the poisonous potato does not push the first stack out. */
  lemma KeptBesidePoison(inv: Slots, first: Stack, free: int)
    requires first.material != Air && first.material != PoisonousPotato && 1 <= first.amount <= MAX_STACK
    requires WellFormed(inv) && 0 <= free < |inv| && free < STORAGE_SLOTS && inv[free].None?
    ensures CountItem(GiveAll(inv, [first, Stack(PoisonousPotato, 1)]).0, first.material) >= 1
  {
    AddToFreeSlot(inv, first, free);
    GiveTwo(inv, first, Stack(PoisonousPotato, 1));
  }

  lemma GiveOne(inv: Slots, a: Stack)
    requires a.material != Air
    ensures GiveAll(inv, [a]).0 == AddOrDrop(inv, a).0
  {
    assert [a][1..] == [];
  }

  lemma GiveTwo(inv: Slots, a: Stack, b: Stack)
    requires a.material != Air && b.material != Air
    ensures GiveAll(inv, [a, b]).0 == AddOrDrop(AddOrDrop(inv, a).0, b).0
  {
    assert [a, b][1..] == [b];
    GiveOne(AddOrDrop(inv, a).0, b);
  }

  /** A stack that fits in one slot, handed to a purse with a free slot, is not dropped. */
  lemma AddToFreeSlot(inv: Slots, item: Stack, free: int)
    requires item.material != Air && 1 <= item.amount <= MAX_STACK
    requires WellFormed(inv) && 0 <= free < |inv| && free < STORAGE_SLOTS && inv[free].None?
    ensures CountItem(AddOrDrop(inv, item).0, item.material) >= 1
  {
    CountNonNegative(inv, item.material);
    assert inv[free].None?;
  }

  /**
   * The scan order: dx from -6 to 6, and for each dx, dz from -6 to 6.
   */
  function ScanOrder(): (offs: seq<(int, int)>)
    ensures |offs| == SIDE * SIDE
  {
    seq(SIDE * SIDE, i requires 0 <= i < SIDE * SIDE => (i / SIDE - RADIUS, i % SIDE - RADIUS))
  }

  /** Every column of the square is visited, exactly once, at the place the nested loops reach it. */
  lemma ScanCoversSquare(dx: int, dz: int)
    requires -RADIUS <= dx <= RADIUS && -RADIUS <= dz <= RADIUS
    ensures var i := (dx + RADIUS) * SIDE + (dz + RADIUS);
      0 <= i < |ScanOrder()| && ScanOrder()[i] == (dx, dz)
      && forall j :: 0 <= j < |ScanOrder()| && ScanOrder()[j] == (dx, dz) ==> j == i
  {
    var i := (dx + RADIUS) * SIDE + (dz + RADIUS);
    assert i / SIDE == dx + RADIUS && i % SIDE == dz + RADIUS;
    forall j | 0 <= j < |ScanOrder()| && ScanOrder()[j] == (dx, dz)
      ensures j == i
    {
      assert j == (j / SIDE) * SIDE + j % SIDE;
    }
  }

  /** Every offset the scan visits lies in the square. */
  lemma ScanStaysInSquare(j: int)
    requires 0 <= j < |ScanOrder()|
    ensures -RADIUS <= ScanOrder()[j].0 <= RADIUS && -RADIUS <= ScanOrder()[j].1 <= RADIUS
  {
  }

  /** The columns after a pass, the farmer's inventory, and what fell to the ground. */
  datatype PassOutcome = PassOutcome(columns: seq<Column>, inv: Slots, dropped: seq<Stack>)

  /**
   * `doFarmAround` over the columns in scan order, with one roll per
   * column (used only when that column is harvested). A location without a
   * world farms nothing. Each column is farmed with the inventory the
   * columns before it left behind.
   */
  function FarmPass(hasWorld: bool, cols: seq<Column>, inv: Slots, rolls: seq<Roll>): (r: PassOutcome)
    requires |rolls| == |cols|
    ensures |r.columns| == |cols| && |r.inv| == |inv|
    ensures !hasWorld ==> r == PassOutcome(cols, inv, [])
    ensures forall k :: 0 <= k < |cols| && PlotOf(cols[k]) == NoSoil ==> r.columns[k] == cols[k]
    ensures WellFormed(inv) ==> WellFormed(r.inv)
    decreases |cols|
  {
    if !hasWorld || |cols| == 0 then PassOutcome(cols, inv, [])
    else
      var n := |cols| - 1;
      var done := FarmPass(true, cols[..n], inv, rolls[..n]);
      var o := FarmColumn(cols[n], done.inv, rolls[n]);
      assert forall k :: 0 <= k < n ==> cols[..n][k] == cols[k];
      PassOutcome(done.columns + [o.column], o.inv, done.dropped + o.dropped)
  }

  /** The inventory the pass hands to column `k`: what the columns before it left. */
  function InvBefore(cols: seq<Column>, inv: Slots, rolls: seq<Roll>, k: nat): Slots
    requires |rolls| == |cols| && k <= |cols|
  {
    FarmPass(true, cols[..k], inv, rolls[..k]).inv
  }

  /**
   * The pass is the columns farmed one after another: column `k` ends up
   * as `FarmColumn` leaves it when given the inventory the earlier
   * columns left, and the last column's inventory is the pass's.
   */
  lemma FarmPassColumns(cols: seq<Column>, inv: Slots, rolls: seq<Roll>)
    requires |rolls| == |cols|
    ensures var r := FarmPass(true, cols, inv, rolls);
      && (forall k :: 0 <= k < |cols| ==>
            r.columns[k] == FarmColumn(cols[k], InvBefore(cols, inv, rolls, k), rolls[k]).column)
      && (|cols| > 0 ==> r.inv == FarmColumn(cols[|cols| - 1], InvBefore(cols, inv, rolls, |cols| - 1), rolls[|cols| - 1]).inv)
  {
    forall k | 0 <= k < |cols|
      ensures FarmPass(true, cols, inv, rolls).columns[k] == FarmColumn(cols[k], InvBefore(cols, inv, rolls, k), rolls[k]).column
    {
      FarmPassColumnAt(cols, inv, rolls, k);
    }
    if |cols| > 0 {
      PrefixInvBefore(cols, inv, rolls, |cols| - 1, |cols| - 1);
    }
  }

  /** Column `k` of the pass, one column at a time. */
  lemma {:induction false} FarmPassColumnAt(cols: seq<Column>, inv: Slots, rolls: seq<Roll>, k: nat)
    requires |rolls| == |cols| && k < |cols|
    ensures FarmPass(true, cols, inv, rolls).columns[k] == FarmColumn(cols[k], InvBefore(cols, inv, rolls, k), rolls[k]).column
    decreases |cols|
  {
    var n := |cols| - 1;
    var done := FarmPass(true, cols[..n], inv, rolls[..n]);
    var o := FarmColumn(cols[n], done.inv, rolls[n]);
    assert FarmPass(true, cols, inv, rolls).columns == done.columns + [o.column];
    PrefixInvBefore(cols, inv, rolls, n, k);
    if k < n {
      FarmPassColumnAt(cols[..n], inv, rolls[..n], k);
      assert cols[..n][k] == cols[k] && rolls[..n][k] == rolls[k];
    }
  }

  /** Cutting the columns after the `n`-th does not change what the first `k` hand on. */
  lemma PrefixInvBefore(cols: seq<Column>, inv: Slots, rolls: seq<Roll>, n: nat, k: nat)
    requires |rolls| == |cols| && k <= n <= |cols|
    ensures InvBefore(cols[..n], inv, rolls[..n], k) == InvBefore(cols, inv, rolls, k)
  {
    assert cols[..n][..k] == cols[..k] && rolls[..n][..k] == rolls[..k];
  }

  /** What a column's harvest yields of `m`: nothing unless a mature crop stands on it. */
  function Harvest(c: Column, roll: Roll, m: Material): int {
    var p := PlotOf(c);
    if p != NoSoil && IsCrop(CropOf(c, p).material) && Mature(CropOf(c, p)) then
      PositiveSum(Yield(CropOf(c, p).material, roll), m)
    else 0
  }

  /**
   * What sowing the column used of `m`: one seed when a freshly planted
   * crop now stands where something else stood, and `m` is its seed.
   */
  function Sown(c: Column, after: Column, m: Material): int {
    var p := PlotOf(c);
    if p == NoSoil then 0
    else
      var b := CropOf(after, p);
      if b != CropOf(c, p) && b == Planted(b.material) && SeedOf(b.material) == Some(m) then 1 else 0
  }

  /**
   * Per item, one column's farming moves into the inventory or onto the
   * ground exactly what it harvested, less the seed it sowed.
   */
  lemma FarmColumnBalance(c: Column, inv: Slots, roll: Roll, m: Material)
    requires WellFormed(inv)
    ensures var r := FarmColumn(c, inv, roll);
      CountItem(r.inv, m) + StackSum(r.dropped, m) == CountItem(inv, m) + Harvest(c, roll, m) - Sown(c, r.column, m)
  {
    var p := PlotOf(c);
    if p != NoSoil {
      var crop := CropOf(c, p);
      if IsCrop(crop.material) && Mature(crop) {
        MatureColumnBalance(c, inv, roll, m);
      } else if !IsCrop(crop.material) && crop.material == Air {
        BareColumnBalance(c, inv, roll, m);
      }
    }
  }

  /** The balance of a column with a mature crop: what `FarmColumnConserves` says, in terms of `Sown`. */
  lemma MatureColumnBalance(c: Column, inv: Slots, roll: Roll, m: Material)
    requires WellFormed(inv) && PlotOf(c) != NoSoil
    requires IsCrop(CropOf(c, PlotOf(c)).material) && Mature(CropOf(c, PlotOf(c)))
    ensures var r := FarmColumn(c, inv, roll);
      CountItem(r.inv, m) + StackSum(r.dropped, m) == CountItem(inv, m) + Harvest(c, roll, m) - Sown(c, r.column, m)
  {
    var crop := CropOf(c, PlotOf(c));
    FarmColumnConserves(c, inv, roll, m);
    assert crop != Planted(crop.material);
    assert AIR_BLOCK != Planted(AIR_BLOCK.material);
  }

  /** The balance of bare farmland: nothing is harvested, and planting wheat uses one wheat seed. */
  lemma BareColumnBalance(c: Column, inv: Slots, roll: Roll, m: Material)
    requires WellFormed(inv) && PlotOf(c) != NoSoil
    requires CropOf(c, PlotOf(c)).material == Air
    ensures var r := FarmColumn(c, inv, roll);
      CountItem(r.inv, m) + StackSum(r.dropped, m) == CountItem(inv, m) + Harvest(c, roll, m) - Sown(c, r.column, m)
  {
    var p := PlotOf(c);
    var crop := CropOf(c, p);
    var (b, inv1) := TryPlant(inv, crop, Wheat);
    assert FarmColumn(c, inv, roll) == Outcome(WithCrop(c, p, b), inv1, []);
    assert CropOf(WithCrop(c, p, b), p) == b;
    PlantCount(inv, crop, Wheat, m);
  }


  /** The harvest of the first `|cols|` columns, summed. */
  function PassHarvest(cols: seq<Column>, rolls: seq<Roll>, m: Material): int
    requires |rolls| == |cols|
  {
    if |cols| == 0 then 0
    else PassHarvest(cols[..|cols| - 1], rolls[..|cols| - 1], m) + Harvest(cols[|cols| - 1], rolls[|cols| - 1], m)
  }

  /** The seeds sown over the columns, comparing each column before and after. */
  function PassSown(cols: seq<Column>, after: seq<Column>, m: Material): int
    requires |after| == |cols|
  {
    if |cols| == 0 then 0
    else PassSown(cols[..|cols| - 1], after[..|cols| - 1], m) + Sown(cols[|cols| - 1], after[|cols| - 1], m)
  }

  /**
   * Per item, a whole pass conserves the farmer's goods: what the
   * inventory gained plus what was dropped is the total harvest less the
   * seeds sown.
   */
  lemma {:induction false} FarmPassConserves(cols: seq<Column>, inv: Slots, rolls: seq<Roll>, m: Material)
    requires |rolls| == |cols| && WellFormed(inv)
    ensures var r := FarmPass(true, cols, inv, rolls);
      CountItem(r.inv, m) + StackSum(r.dropped, m)
        == CountItem(inv, m) + PassHarvest(cols, rolls, m) - PassSown(cols, r.columns, m)
    decreases |cols|
  {
    if |cols| > 0 {
      var n := |cols| - 1;
      var r := FarmPass(true, cols, inv, rolls);
      var done := FarmPass(true, cols[..n], inv, rolls[..n]);
      var o := FarmColumn(cols[n], done.inv, rolls[n]);
      FarmPassConserves(cols[..n], inv, rolls[..n], m);
      FarmColumnBalance(cols[n], done.inv, rolls[n], m);
      StackSumAppend(done.dropped, o.dropped, m);
      assert r.columns[..n] == done.columns;
      assert r.columns[n] == o.column;
    }
  }

  /** The columns the nested loops read, in their order: the one at each offset of `ScanOrder`. */
  function ScannedColumns(columnAt: ((int, int)) -> Column): (cols: seq<Column>)
    ensures |cols| == SIDE * SIDE
    ensures forall i :: 0 <= i < |cols| ==> cols[i] == columnAt(ScanOrder()[i])
  {
    seq(SIDE * SIDE, i requires 0 <= i < SIDE * SIDE => columnAt(ScanOrder()[i]))
  }

  /**
   * The column the loops reach at offset (dx, dz) of the 13 x 13 square is
   * farmed exactly once, with the inventory the columns scanned before it
   * left.
   */
  lemma FarmSquareColumn(columnAt: ((int, int)) -> Column, inv: Slots, rolls: seq<Roll>, dx: int, dz: int)
    requires |rolls| == SIDE * SIDE
    requires -RADIUS <= dx <= RADIUS && -RADIUS <= dz <= RADIUS
    ensures var cols := ScannedColumns(columnAt);
      var i := (dx + RADIUS) * SIDE + (dz + RADIUS);
      && 0 <= i < |cols|
      && FarmPass(true, cols, inv, rolls).columns[i] == FarmColumn(columnAt((dx, dz)), InvBefore(cols, inv, rolls, i), rolls[i]).column
      && forall j :: 0 <= j < |cols| && ScanOrder()[j] == (dx, dz) ==> j == i
  {
    ScanCoversSquare(dx, dz);
    FarmPassColumnAt(ScannedColumns(columnAt), inv, rolls, (dx + RADIUS) * SIDE + (dz + RADIUS));
  }

  /**
   * One farmer NPC's turn: farm only as a spawned serf player whose
   * deadline has come; the deadline is armed to now on first sight and
   * moved one farm interval ahead after every pass (also when the pass
   * threw). Returns the new settings and whether a pass ran.
   */
  function FarmerTurn(tr: Trait, spawned: bool, isSerf: Lookup<bool>, isPlayer: bool, now: int): (r: (Trait, bool))
    ensures r.1 <==> GetRole(tr) == Some(FarmerRole) && spawned && isSerf == Found(true) && isPlayer
                     && now >= GetNextFarmAtMs(InitFarmNextIfNeeded(tr, now))
    ensures r.1 ==> GetNextFarmAtMs(r.0) == now + GetFarmIntervalMs(tr) && r.0.(nextFarmAtMs := tr.nextFarmAtMs) == tr
    ensures !(GetRole(tr) == Some(FarmerRole) && spawned && isSerf == Found(true) && isPlayer) ==> r == (tr, false)
    ensures !r.1 && GetRole(tr) == Some(FarmerRole) && spawned && isSerf == Found(true) && isPlayer ==>
      r.0 == InitFarmNextIfNeeded(tr, now)
  {
    if GetRole(tr) != Some(FarmerRole) || !spawned then (tr, false)
    else if isSerf != Found(true) then (tr, false)
    else if !isPlayer then (tr, false)
    else
      var tr1 := InitFarmNextIfNeeded(tr, now);
      if now < GetNextFarmAtMs(tr1) then (tr1, false)
      else (tr1.(nextFarmAtMs := Some(now + GetFarmIntervalMs(tr1))), true)
  }

  /** A farmer seen for the first time farms at once, then waits a full interval. */
  lemma FirstSightFarmsAtOnce(tr: Trait, now: int)
    requires GetRole(tr) == Some(FarmerRole) && GetNextFarmAtMs(tr) <= 0 && GetFarmIntervalMs(tr) > 0 && now >= 0
    ensures var (tr1, ran) := FarmerTurn(tr, true, Found(true), true, now);
      ran && !FarmerTurn(tr1, true, Found(true), true, now).1
  {
  }
}

=== FILE: guard.dfy ===
/**
 * One guard NPC's evaluation in GuardLoop: gating on role, spawn, family
 * and an enabled land it stands in; the choice of the nearest intruder;
 * the warning / grace / cooldown state machine; and the weapon-based
 * attack. Warning state is keyed by the intruder, attack cooldowns by the
 * guard. Squared distances are exact reals.
 */
module Guard {
  import opened Wrappers
  import opened Store
  import opened Inventory
  import opened NpcTrait
  import opened Territory

  const AGGRO_RADIUS_SQ: real := 196.0
  const MELEE_RANGE_SQ: real := 7.29
  const RANGED_MAX_DISTANCE_SQ: real := 324.0
  const ATTACK_COOLDOWN_MS: int := 1200
  const RANGED_COOLDOWN_MS: int := 1800
  const WARN_COOLDOWN_MS: int := 10000
  const WARN_GRACE_MS: int := 3000

  /** A player in the guard's world as the guard sees it. */
  datatype Candidate = Candidate(
    id: Uuid, online: bool, dead: bool, admin: bool,
    pos: BlockPos, distSq: real, family: Lookup<Option<int>>)

  /** Everything `findNearestEnemy` skips: offline, dead, admin, outside the land, same family, or a failed lookup. */
  predicate Eligible(c: Candidate, land: FamilyLand, guardFamily: int) {
    c.online && !c.dead && !c.admin && IsInside(c.pos, land)
    && c.family.Found? && c.family.value != Some(guardFamily)
  }

  predicate InAggro(c: Candidate, land: FamilyLand, guardFamily: int) {
    Eligible(c, land, guardFamily) && c.distSq <= AGGRO_RADIUS_SQ
  }

  /**
   * `findNearestEnemy`: the strictly nearest eligible player within the
   * aggro radius; on a tie the one seen first. -1 when there is none.
   */
  method FindNearestEnemy(cands: seq<Candidate>, land: FamilyLand, guardFamily: int) returns (best: int)
    ensures -1 <= best < |cands|
    ensures best < 0 <==> forall j :: 0 <= j < |cands| ==> !InAggro(cands[j], land, guardFamily)
    ensures best >= 0 ==> InAggro(cands[best], land, guardFamily)
    ensures best >= 0 ==> forall j :: 0 <= j < |cands| && InAggro(cands[j], land, guardFamily) ==> cands[best].distSq <= cands[j].distSq
    ensures best >= 0 ==> forall j :: 0 <= j < best && InAggro(cands[j], land, guardFamily) ==> cands[best].distSq < cands[j].distSq
  {
    best := -1;
    var i := 0;
    while i < |cands|
      invariant 0 <= i <= |cands|
      invariant -1 <= best < i
      invariant best < 0 <==> forall j :: 0 <= j < i ==> !InAggro(cands[j], land, guardFamily)
      invariant best >= 0 ==> InAggro(cands[best], land, guardFamily)
      invariant best >= 0 ==> forall j :: 0 <= j < i && InAggro(cands[j], land, guardFamily) ==> cands[best].distSq <= cands[j].distSq
      invariant best >= 0 ==> forall j :: 0 <= j < best && InAggro(cands[j], land, guardFamily) ==> cands[best].distSq < cands[j].distSq
    {
      var c := cands[i];
      if InAggro(c, land, guardFamily) && (best < 0 || c.distSq < cands[best].distSq) {
        best := i;
      }
      i := i + 1;
    }
  }

  /** The per-guard and per-intruder timestamps, absent keys reading as 0. */
  datatype GuardState = GuardState(
    lastAttackAt: map<int, int>,
    lastRangedAt: map<int, int>,
    lastWarnAt: map<Uuid, int>,
    warnedUntil: map<Uuid, int>)

  function GetOr0<K>(m: map<K, int>, k: K): int {
    if k in m then m[k] else 0
  }

  /** Every warning so far opened a grace window exactly WARN_GRACE_MS long. */
  predicate WarningsConsistent(st: GuardState) {
    && st.lastWarnAt.Keys == st.warnedUntil.Keys
    && forall t :: t in st.lastWarnAt ==> st.warnedUntil[t] == st.lastWarnAt[t] + WARN_GRACE_MS
  }

  datatype Action =
    | Idle                               // gated out, or no intruder
    | Chase(target: Uuid)                // pursuing, no attack this round
    | Warn(target: Uuid)                 // warning sent, grace window opened
    | Shoot(target: Uuid)                // bow or crossbow fired
    | Strike(target: Uuid, damage: real) // melee hit

  predicate IsAttack(a: Action) {
    a.Shoot? || a.Strike?
  }

  /** `getMainHand`: no equipment or an empty hand (AIR) is no weapon. */
  function MainHand(item: Option<Material>): (w: Option<Material>)
    ensures w.Some? ==> w.value != Air && item == w
    ensures item.Some? && item.value != Air ==> w == item
  {
    if item.None? || item.value == Air then None else item
  }

  /** `isRangedWeapon`. */
  predicate IsRangedWeapon(w: Option<Material>) {
    w.Some? && (w.value == Bow || w.value == Crossbow)
  }

  /** The weapon base damage of `calculateMeleeDamage`; 1 with an empty hand. */
  function WeaponBase(w: Option<Material>): (d: real)
    ensures 1.0 <= d <= 10.0
    ensures w.None? ==> d == 1.0
    ensures w.Some? ==> d >= 2.0
  {
    if w.None? then 1.0
    else match w.value
      case WoodenSword => 4.0
      case GoldenSword => 4.0
      case StoneSword => 5.0
      case IronSword => 6.0
      case DiamondSword => 7.0
      case NetheriteSword => 8.0
      case WoodenAxe => 7.0
      case GoldenAxe => 7.0
      case StoneAxe => 9.0
      case IronAxe => 9.0
      case DiamondAxe => 9.0
      case NetheriteAxe => 10.0
      case Trident => 8.0
      case _ => 2.0
  }

  /**
   * `calculateMeleeDamage`: the weapon base plus a quarter of the attack
   * attribute above 1 (an unreadable attribute counts as none), at least 1.
   */
  function MeleeDamage(w: Option<Material>, attackAttr: Option<real>): (d: real)
    ensures d >= 1.0 && d >= WeaponBase(w)
    ensures attackAttr.None? || attackAttr.value <= 1.0 ==> d == WeaponBase(w)
    ensures attackAttr.Some? && attackAttr.value > 1.0 ==> d == WeaponBase(w) + (attackAttr.value - 1.0) / 4.0
  {
    var extra := if attackAttr.Some? && attackAttr.value - 1.0 > 0.0 then attackAttr.value - 1.0 else 0.0;
    var d := WeaponBase(w) + extra * 0.25;
    if d >= 1.0 then d else 1.0
  }

  /** A stronger arm never hits softer. */
  lemma MeleeDamageMonotone(w: Option<Material>, a: real, b: real)
    requires a <= b
    ensures MeleeDamage(w, Some(a)) <= MeleeDamage(w, Some(b))
  {
  }

  /** What the guard knows about itself this round. */
  datatype GuardView = GuardView(
    npcId: int, settings: Trait, spawnedLiving: bool,
    family: Lookup<Option<int>>, land: Lookup<Option<FamilyLand>>,
    pos: BlockPos, weapon: Option<Material>, attackAttr: Option<real>)

  /** The gating before the position test: role, spawn, a family, and an enabled land. */
  predicate Gated(g: GuardView) {
    && GetRole(g.settings) == Some(GuardRole) && g.spawnedLiving
    && g.family.Found? && g.family.value.Some?
    && g.land.Found? && g.land.value.Some? && g.land.value.value.enabled
  }

  /** All of the gating in front of the intruder search holds, with the exact containment test. */
  predicate Active(g: GuardView) {
    Gated(g) && IsInside(g.pos, g.land.value.value)
  }

  /** The same gating with the guard's own `isInside`, evaluated in 32-bit arithmetic. */
  predicate ActiveAsWritten(g: GuardView) {
    Gated(g) && IsInsideAsWritten(g.pos, g.land.value.value)
  }

  /**
   * The overflow in the guard's copy of the containment test: a guard
   * 65536 blocks east of a radius-10 land's centre still guards it.
   */
  lemma FarGuardActiveAsWritten(g: GuardView)
    requires Gated(g)
    requires g.land.value.value == FamilyLand(1, "world", 0, 64, 0, 10, true)
    requires g.pos == BlockPos(Some("world"), 65536, 64, 0)
    ensures ActiveAsWritten(g) && !Active(g)
  {
    WrapAroundCountsFarBlockInside();
  }

  /** With the exact test, an active guard stands within the bounding square of its land's circle. */
  lemma ActiveGuardNearLand(g: GuardView)
    requires Active(g)
    ensures var land := g.land.value.value;
      var r := if land.radius >= 0 then land.radius else -land.radius;
      -r <= g.pos.x - land.x <= r && -r <= g.pos.z - land.z <= r
  {
    InsideWithinBoundingSquare(g.pos.x, g.pos.z, g.land.value.value);
  }

  /**
   * The warning / grace / attack decision against the chosen intruder `c`.
   */
  function Engage(st: GuardState, g: GuardView, c: Candidate, now: int): (r: (GuardState, Action))
    ensures now < GetOr0(st.warnedUntil, c.id) ==> r == (st, Chase(c.id))
    ensures now >= GetOr0(st.warnedUntil, c.id) && now - GetOr0(st.lastWarnAt, c.id) >= WARN_COOLDOWN_MS ==>
      && r.1 == Warn(c.id)
      && r.0 == st.(lastWarnAt := st.lastWarnAt[c.id := now], warnedUntil := st.warnedUntil[c.id := now + WARN_GRACE_MS])
    ensures IsAttack(r.1) ==>
      && r.1.target == c.id
      && GetOr0(st.warnedUntil, c.id) <= now
      && now - GetOr0(st.lastWarnAt, c.id) < WARN_COOLDOWN_MS
      && r.0.lastWarnAt == st.lastWarnAt && r.0.warnedUntil == st.warnedUntil
    ensures r.1.Shoot? <==>
      && now >= GetOr0(st.warnedUntil, c.id) && now - GetOr0(st.lastWarnAt, c.id) < WARN_COOLDOWN_MS
      && IsRangedWeapon(g.weapon) && c.distSq <= RANGED_MAX_DISTANCE_SQ
      && now - GetOr0(st.lastRangedAt, g.npcId) >= RANGED_COOLDOWN_MS
    ensures r.1.Strike? <==>
      && now >= GetOr0(st.warnedUntil, c.id) && now - GetOr0(st.lastWarnAt, c.id) < WARN_COOLDOWN_MS
      && !IsRangedWeapon(g.weapon) && c.distSq <= MELEE_RANGE_SQ
      && now - GetOr0(st.lastAttackAt, g.npcId) >= ATTACK_COOLDOWN_MS
    ensures r.1.Shoot? ==> r.0 == st.(lastRangedAt := st.lastRangedAt[g.npcId := now])
    ensures r.1.Strike? ==>
      r.0 == st.(lastAttackAt := st.lastAttackAt[g.npcId := now]) && r.1.damage == MeleeDamage(g.weapon, g.attackAttr)
    ensures r.1.Chase? ==> r.0 == st
    ensures !r.1.Idle?
  {
    var until := GetOr0(st.warnedUntil, c.id);
    if now < until then (st, Chase(c.id))
    else
      var lastW := GetOr0(st.lastWarnAt, c.id);
      if now - lastW >= WARN_COOLDOWN_MS then
        (st.(lastWarnAt := st.lastWarnAt[c.id := now], warnedUntil := st.warnedUntil[c.id := now + WARN_GRACE_MS]), Warn(c.id))
      else if IsRangedWeapon(g.weapon) then
        if c.distSq <= RANGED_MAX_DISTANCE_SQ && now - GetOr0(st.lastRangedAt, g.npcId) >= RANGED_COOLDOWN_MS then
          (st.(lastRangedAt := st.lastRangedAt[g.npcId := now]), Shoot(c.id))
        else (st, Chase(c.id))
      else
        if c.distSq <= MELEE_RANGE_SQ && now - GetOr0(st.lastAttackAt, g.npcId) >= ATTACK_COOLDOWN_MS then
          (st.(lastAttackAt := st.lastAttackAt[g.npcId := now]), Strike(c.id, MeleeDamage(g.weapon, g.attackAttr)))
        else (st, Chase(c.id))
  }

  /**
   * Candidate `k` is the one `findNearestEnemy` picks: in aggro range, no
   * farther than any other, and strictly nearer than every earlier one.
   */
  predicate IsNearest(cands: seq<Candidate>, k: int, land: FamilyLand, guardFamily: int) {
    && 0 <= k < |cands| && InAggro(cands[k], land, guardFamily)
    && (forall j :: 0 <= j < |cands| && InAggro(cands[j], land, guardFamily) ==> cands[k].distSq <= cands[j].distSq)
    && (forall j :: 0 <= j < k && InAggro(cands[j], land, guardFamily) ==> cands[k].distSq < cands[j].distSq)
  }

  /** Some candidate is an intruder within the aggro radius. */
  predicate AnyInAggro(cands: seq<Candidate>, land: FamilyLand, guardFamily: int) {
    exists j :: 0 <= j < |cands| && InAggro(cands[j], land, guardFamily)
  }

  /**
   * One guard's round: gate, pick the nearest intruder, then engage.
   */
  method GuardRound(st: GuardState, g: GuardView, cands: seq<Candidate>, now: int) returns (st': GuardState, act: Action)
    ensures !Active(g) ==> st' == st && act == Idle
    ensures act.Idle? ==> st' == st
    ensures !act.Idle? ==> Active(g)
    ensures Active(g) ==>
      (act.Idle? <==> !AnyInAggro(cands, g.land.value.value, g.family.value.value))
    ensures !act.Idle? ==>
      exists k :: IsNearest(cands, k, g.land.value.value, g.family.value.value)
        && (st', act) == Engage(st, g, cands[k], now)
    ensures WarningsConsistent(st) ==> WarningsConsistent(st')
  {
    if !Active(g) {
      return st, Idle;
    }
    var land := g.land.value.value;
    var k := FindNearestEnemy(cands, land, g.family.value.value);
    if k < 0 {
      return st, Idle;
    }
    assert IsNearest(cands, k, land, g.family.value.value);
    st', act := Engage(st, g, cands[k], now).0, Engage(st, g, cands[k], now).1;
  }

  /**
   * Attacks fall only in the window the last warning opened: at least the
   * grace period after it and before the next warning is due.
   */
  lemma AttackOnlyInWindow(st: GuardState, g: GuardView, c: Candidate, now: int)
    requires WarningsConsistent(st) && now >= WARN_COOLDOWN_MS
    ensures var (_, act) := Engage(st, g, c, now);
      IsAttack(act) ==>
        c.id in st.lastWarnAt
        && st.lastWarnAt[c.id] + WARN_GRACE_MS <= now < st.lastWarnAt[c.id] + WARN_COOLDOWN_MS
  {
  }

  /**
   * Warning state belongs to the intruder: once any guard has warned a
   * player, no guard attacks that player during the grace period.
   */
  lemma GraceSharedAcrossGuards(st: GuardState, g1: GuardView, g2: GuardView, c: Candidate, now: int, later: int)
    requires Engage(st, g1, c, now).1.Warn?
    requires now <= later < now + WARN_GRACE_MS
    ensures Engage(Engage(st, g1, c, now).0, g2, c, later).1 == Chase(c.id)
  {
  }

  /** A guard's own cooldown spaces its attacks of the same kind. */
  lemma CooldownSpacesAttacks(st: GuardState, g: GuardView, c: Candidate, c2: Candidate, now: int, later: int)
    requires Engage(st, g, c, now).1.Strike?
    requires later - now < ATTACK_COOLDOWN_MS
    ensures !Engage(Engage(st, g, c, now).0, g, c2, later).1.Strike?
  {
  }
}

=== FILE: inventory.dfy ===
/**
 * Player and NPC inventories as a sequence of slots, each empty or
 * holding one stack; the counting, removal and single-item consumption
 * loops that the tax collector, the farmer and the merchant run over them,
 * and the add-with-overflow used when a harvest is handed to the farmer.
 */
module Inventory {
  import opened Wrappers

  /** The item and block types the plugin distinguishes; every other one is `Other`. */
  datatype Material =
    | Air | Emerald | Farmland
    | Wheat | WheatSeeds | Carrots | Carrot | Potatoes | Potato | PoisonousPotato
    | Beetroots | Beetroot | BeetrootSeeds
    | Bow | Crossbow | Trident
    | WoodenSword | GoldenSword | StoneSword | IronSword | DiamondSword | NetheriteSword
    | WoodenAxe | GoldenAxe | StoneAxe | IronAxe | DiamondAxe | NetheriteAxe
    | Other(name: string)

  datatype Stack = Stack(material: Material, amount: int)

  type Slots = seq<Option<Stack>>

  /** Maximum stack size of the items handled here. */
  const MAX_STACK: int := 64

  /** Every occupied slot holds a positive amount of a real item. */
  predicate WellFormed(s: Slots) {
    forall i :: 0 <= i < |s| && s[i].Some? ==> 0 < s[i].value.amount && s[i].value.material != Air
  }

  predicate Holds(slot: Option<Stack>, mat: Material) {
    slot.Some? && slot.value.material == mat
  }

  /** `countItem`: the total amount over the stacks of `mat`. */
  function CountItem(s: Slots, mat: Material): int {
    if |s| == 0 then 0
    else (if Holds(s[0], mat) then s[0].value.amount else 0) + CountItem(s[1..], mat)
  }

  lemma {:induction false} CountNonNegative(s: Slots, mat: Material)
    requires WellFormed(s)
    ensures CountItem(s, mat) >= 0
    ensures CountItem(s, mat) == 0 <==> forall i :: 0 <= i < |s| ==> !Holds(s[i], mat)
    decreases |s|
  {
    if |s| > 0 {
      CountNonNegative(s[1..], mat);
      assert forall i :: 1 <= i < |s| ==> s[i] == s[1..][i - 1];
    }
  }

  lemma {:induction false} CountAppend(a: Slots, b: Slots, mat: Material)
    ensures CountItem(a + b, mat) == CountItem(a, mat) + CountItem(b, mat)
    decreases |a|
  {
    if |a| == 0 {
      assert a + b == b;
    } else {
      assert (a + b)[1..] == a[1..] + b;
      CountAppend(a[1..], b, mat);
    }
  }

  function Min(a: int, b: int): int {
    if a <= b then a else b
  }

  // ---------------------------------------------------------------
  // removeItem
  // ---------------------------------------------------------------

  /** The stack `removeItem` leaves in a slot of `mat` holding `a` items when `left` are still wanted. */
  function Taken(mat: Material, a: int, left: int): Option<Stack> {
    if a - Min(a, left) <= 0 then None else Some(Stack(mat, a - Min(a, left)))
  }

  /**
   * The removal scan of `removeItem` from slot `i` on: take what is still
   * wanted from each stack of `mat` in turn, clear a stack that reaches
   * zero, and stop as soon as nothing more is wanted.
   */
  function RemoveFrom(s: Slots, mat: Material, i: nat, left: int): (r: Slots)
    requires i <= |s|
    ensures |r| == |s|
    decreases |s| - i
  {
    if i == |s| then s
    else if !Holds(s[i], mat) then RemoveFrom(s, mat, i + 1, left)
    else
      var take := Min(s[i].value.amount, left);
      var t := s[i := Taken(mat, s[i].value.amount, left)];
      if left - take <= 0 then t else RemoveFrom(t, mat, i + 1, left - take)
  }

  lemma WellFormedSuffix(s: Slots, i: nat)
    requires WellFormed(s) && i <= |s|
    ensures WellFormed(s[i..])
  {
    forall k | 0 <= k < |s[i..]| && s[i..][k].Some?
      ensures 0 < s[i..][k].value.amount && s[i..][k].value.material != Air
    {
      assert s[i..][k] == s[i + k];
    }
  }

  lemma CountSuffix(s: Slots, mat: Material, i: nat)
    requires i < |s|
    ensures CountItem(s[i..], mat) == (if Holds(s[i], mat) then s[i].value.amount else 0) + CountItem(s[i + 1..], mat)
  {
    assert s[i..][1..] == s[i + 1..];
  }

  /**
   * From slot `i` on, removing a positive amount removes exactly as many
   * items of `mat` as are available there, up to that amount.
   */
  lemma {:induction false} RemoveFromCount(s: Slots, mat: Material, i: nat, left: int)
    requires i <= |s| && WellFormed(s) && left > 0
    ensures CountItem(RemoveFrom(s, mat, i, left), mat) == CountItem(s, mat) - Min(left, CountItem(s[i..], mat))
    decreases |s| - i
  {
    if i < |s| {
      CountSuffix(s, mat, i);
      if !Holds(s[i], mat) {
        RemoveFromCount(s, mat, i + 1, left);
      } else {
        var a := s[i].value.amount;
        var take := Min(a, left);
        var t := s[i := Taken(mat, a, left)];
        TakenCount(s, mat, i, left);
        WellFormedSuffix(s, i + 1);
        CountNonNegative(s[i + 1..], mat);
        if left - take > 0 {
          assert t[i + 1..] == s[i + 1..];
          RemoveFromCount(t, mat, i + 1, left - take);
        }
      }
    }
  }

  /** Removal keeps the inventory well formed and every other material's count. */
  lemma {:induction false} RemoveFromFrame(s: Slots, mat: Material, i: nat, left: int, m: Material)
    requires i <= |s| && WellFormed(s) && m != mat
    ensures WellFormed(RemoveFrom(s, mat, i, left))
    ensures CountItem(RemoveFrom(s, mat, i, left), m) == CountItem(s, m)
    decreases |s| - i
  {
    if i < |s| {
      if !Holds(s[i], mat) {
        RemoveFromFrame(s, mat, i + 1, left, m);
      } else {
        var take := Min(s[i].value.amount, left);
        var t := s[i := Taken(mat, s[i].value.amount, left)];
        TakenFrame(s, mat, i, left, m);
        if left - take > 0 {
          RemoveFromFrame(t, mat, i + 1, left - take, m);
        }
      }
    }
  }

  /** One step of the scan takes `Min(a, left)` items from the stack of `a`, and keeps the slots well formed. */
  lemma TakenCount(s: Slots, mat: Material, i: nat, left: int)
    requires i < |s| && WellFormed(s) && Holds(s[i], mat) && left > 0
    ensures CountItem(s[i := Taken(mat, s[i].value.amount, left)], mat) == CountItem(s, mat) - Min(s[i].value.amount, left)
    ensures WellFormed(s[i := Taken(mat, s[i].value.amount, left)])
  {
    var head := Taken(mat, s[i].value.amount, left);
    ReplaceSlotCount(s, i, head);
    TakenFrame(s, mat, i, left, if mat == Air then Emerald else Air);
  }

  /** One step of the scan: the shortened stack keeps the slots well formed and other materials' counts. */
  lemma TakenFrame(s: Slots, mat: Material, i: nat, left: int, m: Material)
    requires i < |s| && WellFormed(s) && m != mat && Holds(s[i], mat)
    ensures WellFormed(s[i := Taken(mat, s[i].value.amount, left)])
    ensures CountItem(s[i := Taken(mat, s[i].value.amount, left)], m) == CountItem(s, m)
  {
    var head := Taken(mat, s[i].value.amount, left);
    ReplaceSlotCount(s, i, head);
    var t := s[i := head];
    forall k | 0 <= k < |t| && t[k].Some?
      ensures 0 < t[k].value.amount && t[k].value.material != Air
    {
      if k != i {
        assert t[k] == s[k];
      }
    }
  }

  /**
   * `removeItem` (TaxCollectorLoop): the index loop over the slots that
   * edits stacks in place and breaks once nothing more is wanted.
   */
  method RemoveItem(s: Slots, mat: Material, amount: int) returns (r: Slots)
    ensures r == RemoveFrom(s, mat, 0, amount)
    ensures WellFormed(s) && amount > 0 ==>
      && CountItem(r, mat) == CountItem(s, mat) - Min(amount, CountItem(s, mat))
      && WellFormed(r)
      && (forall m :: m != mat ==> CountItem(r, m) == CountItem(s, m))
  {
    var left := amount;
    r := s;
    var i := 0;
    while i < |r|
      invariant 0 <= i <= |r| == |s|
      invariant RemoveFrom(r, mat, i, left) == RemoveFrom(s, mat, 0, amount)
      decreases |r| - i
    {
      if !Holds(r[i], mat) {
        i := i + 1;
        continue;
      }
      var a := r[i].value.amount;
      var take := Min(a, left);
      r := r[i := Taken(mat, a, left)];
      left := left - take;
      if left <= 0 {
        break;
      }
      i := i + 1;
    }
    if WellFormed(s) && amount > 0 {
      assert s[0..] == s;
      RemoveFromCount(s, mat, 0, amount);
      forall m | m != mat ensures WellFormed(r) && CountItem(r, m) == CountItem(s, m) {
        RemoveFromFrame(s, mat, 0, amount, m);
      }
      RemoveFromFrame(s, mat, 0, amount, if mat == Emerald then Air else Emerald);
    }
  }

  // ---------------------------------------------------------------
  // consumeOne
  // ---------------------------------------------------------------

  /** The index of the first stack of `mat`, if any. */
  function FirstHolding(s: Slots, mat: Material): (r: int)
    ensures -1 <= r < |s|
    ensures r >= 0 ==> Holds(s[r], mat)
    ensures forall i :: 0 <= i < |s| && (r < 0 || i < r) ==> !Holds(s[i], mat)
    decreases |s|
  {
    if |s| == 0 then -1
    else if Holds(s[|s| - 1], mat) && FirstHolding(s[..|s| - 1], mat) < 0 then |s| - 1
    else FirstHolding(s[..|s| - 1], mat)
  }

  /**
   * `consumeOne` (FarmerLoop): take one item from the first stack of `mat`,
   * clearing the slot when that stack has at most one; report whether a
   * stack was found.
   */
  function TakeOne(s: Slots, mat: Material): (r: (Slots, bool))
    ensures r.1 <==> exists i :: 0 <= i < |s| && Holds(s[i], mat)
    ensures !r.1 ==> r.0 == s
    ensures r.1 ==> var k := FirstHolding(s, mat);
      && |r.0| == |s| && (forall i :: 0 <= i < |s| && i != k ==> r.0[i] == s[i])
      && r.0[k] == (if s[k].value.amount <= 1 then None else Some(Stack(mat, s[k].value.amount - 1)))
    ensures WellFormed(s) ==> WellFormed(r.0)
    ensures WellFormed(s) && r.1 ==> CountItem(r.0, mat) == CountItem(s, mat) - 1
    ensures forall m :: m != mat ==> CountItem(r.0, m) == CountItem(s, m)
  {
    var k := FirstHolding(s, mat);
    if k < 0 then (s, false)
    else
      var a := s[k].value.amount;
      var slot := if a <= 1 then None else Some(s[k].value.(amount := a - 1));
      ReplaceSlotCount(s, k, slot);
      (s[k := slot], true)
  }

  /** The slot loop of `consumeOne`, which stops at the first stack of `mat`. */
  method ConsumeOne(s: Slots, mat: Material) returns (r: Slots, ok: bool)
    ensures (r, ok) == TakeOne(s, mat)
  {
    var i := 0;
    while i < |s|
      invariant 0 <= i <= |s|
      invariant forall j :: 0 <= j < i ==> !Holds(s[j], mat)
    {
      if Holds(s[i], mat) {
        var a := s[i].value.amount;
        r := s[i := if a <= 1 then None else Some(s[i].value.(amount := a - 1))];
        ok := true;
        TakeOneAt(s, mat, i);
        return;
      }
      i := i + 1;
    }
    r := s;
    ok := false;
  }

  /** The stack `consumeOne` takes from is the first one of `mat`. */
  lemma TakeOneAt(s: Slots, mat: Material, i: int)
    requires 0 <= i < |s| && Holds(s[i], mat)
    requires forall j :: 0 <= j < i ==> !Holds(s[j], mat)
    ensures var a := s[i].value.amount;
      TakeOne(s, mat) == (s[i := if a <= 1 then None else Some(s[i].value.(amount := a - 1))], true)
  {
    assert FirstHolding(s, mat) == i;
  }

  /** A positive count means some slot holds the item. */
  lemma {:induction false} CountPositiveHolds(s: Slots, mat: Material)
    requires CountItem(s, mat) > 0
    ensures exists i :: 0 <= i < |s| && Holds(s[i], mat)
  {
    if !Holds(s[0], mat) {
      CountPositiveHolds(s[1..], mat);
      var i :| 0 <= i < |s[1..]| && Holds(s[1..][i], mat);
      assert Holds(s[i + 1], mat);
    }
  }

  /** Replacing one slot changes each count by the difference of the two slots. */
  lemma ReplaceSlotCount(s: Slots, k: int, slot: Option<Stack>)
    requires 0 <= k < |s|
    ensures forall m :: (CountItem(s[k := slot], m) ==
      CountItem(s, m) - (if Holds(s[k], m) then s[k].value.amount else 0) + (if Holds(slot, m) then slot.value.amount else 0))
  {
    var t := s[k := slot];
    assert s == s[..k] + [s[k]] + s[k + 1..];
    assert t == s[..k] + [slot] + s[k + 1..];
    forall m ensures CountItem(t, m)
      == CountItem(s, m) - (if Holds(s[k], m) then s[k].value.amount else 0) + (if Holds(slot, m) then slot.value.amount else 0)
    {
      CountAppend(s[..k] + [s[k]], s[k + 1..], m);
      CountAppend(s[..k], [s[k]], m);
      CountAppend(s[..k] + [slot], s[k + 1..], m);
      CountAppend(s[..k], [slot], m);
    }
  }

  // ---------------------------------------------------------------
  // addItem
  // ---------------------------------------------------------------

  /**
   * `Inventory.addItem` for one kind of item: top up the existing stacks
   * of that kind in slot order, then fill empty slots in order; whatever
   * does not fit is returned (and dropped at the holder's feet).
   */
  function AddItem(s: Slots, mat: Material, n: nat): (r: (Slots, nat))
    requires mat != Air
    ensures |r.0| == |s|
    ensures WellFormed(s) ==> WellFormed(r.0)
    ensures CountItem(r.0, mat) + r.1 == CountItem(s, mat) + n
    ensures forall m :: m != mat ==> CountItem(r.0, m) == CountItem(s, m)
    ensures r.1 > 0 ==> forall i :: 0 <= i < |s| ==> r.0[i].Some? && (Holds(r.0[i], mat) ==> r.0[i].value.amount >= MAX_STACK)
    ensures n <= MAX_STACK && (exists i :: 0 <= i < |s| && s[i].None?) ==> r.1 == 0
  {
    var (s1, left) := TopUp(s, mat, n);
    FillEmpty(s1, mat, left)
  }

  /** The storage part of a player inventory; armour and off-hand slots follow it. */
  const STORAGE_SLOTS: int := 36

  /**
   * `addItem` on a player's inventory: only the storage slots, the first
   * STORAGE_SLOTS, take items; the armour and off-hand slots after them are
   * never filled, though other scans over all slots still see them.
   */
  function AddToStorage(s: Slots, mat: Material, n: nat): (r: (Slots, nat))
    requires mat != Air
    ensures |r.0| == |s|
    ensures WellFormed(s) ==> WellFormed(r.0)
    ensures CountItem(r.0, mat) + r.1 == CountItem(s, mat) + n
    ensures forall m :: m != mat ==> CountItem(r.0, m) == CountItem(s, m)
    ensures forall i :: STORAGE_SLOTS <= i < |s| ==> r.0[i] == s[i]
    ensures r.1 > 0 ==> forall i :: 0 <= i < |s| && i < STORAGE_SLOTS ==>
      r.0[i].Some? && (Holds(r.0[i], mat) ==> r.0[i].value.amount >= MAX_STACK)
    ensures n <= MAX_STACK && (exists i :: 0 <= i < |s| && i < STORAGE_SLOTS && s[i].None?) ==> r.1 == 0
  {
    if |s| <= STORAGE_SLOTS then AddItem(s, mat, n)
    else
      var (a, left) := AddItem(s[..STORAGE_SLOTS], mat, n);
      StorageSplit(s, a, mat);
      (a + s[STORAGE_SLOTS..], left)
  }

  /** Counting over the storage part and the rest, before and after a storage update. */
  lemma StorageSplit(s: Slots, a: Slots, mat: Material)
    requires |s| > STORAGE_SLOTS
    ensures forall m :: CountItem(s, m) == CountItem(s[..STORAGE_SLOTS], m) + CountItem(s[STORAGE_SLOTS..], m)
    ensures forall m :: CountItem(a + s[STORAGE_SLOTS..], m) == CountItem(a, m) + CountItem(s[STORAGE_SLOTS..], m)
  {
    assert s == s[..STORAGE_SLOTS] + s[STORAGE_SLOTS..];
    forall m ensures CountItem(s, m) == CountItem(s[..STORAGE_SLOTS], m) + CountItem(s[STORAGE_SLOTS..], m)
    {
      CountAppend(s[..STORAGE_SLOTS], s[STORAGE_SLOTS..], m);
    }
    forall m ensures CountItem(a + s[STORAGE_SLOTS..], m) == CountItem(a, m) + CountItem(s[STORAGE_SLOTS..], m)
    {
      CountAppend(a, s[STORAGE_SLOTS..], m);
    }
  }

  function TopUp(s: Slots, mat: Material, n: nat): (r: (Slots, nat))
    ensures |r.0| == |s| && r.1 <= n
    ensures WellFormed(s) ==> WellFormed(r.0)
    ensures CountItem(r.0, mat) + r.1 == CountItem(s, mat) + n
    ensures forall m :: m != mat ==> CountItem(r.0, m) == CountItem(s, m)
    ensures forall i :: 0 <= i < |s| ==> (r.0[i].None? <==> s[i].None?)
    ensures r.1 > 0 ==> forall i :: 0 <= i < |s| && Holds(r.0[i], mat) ==> r.0[i].value.amount >= MAX_STACK
    decreases |s|
  {
    if |s| == 0 then (s, n)
    else if Holds(s[0], mat) && s[0].value.amount < MAX_STACK && n > 0 then
      var put := Min(MAX_STACK - s[0].value.amount, n);
      var (rest, left) := TopUp(s[1..], mat, n - put);
      var out := [Some(s[0].value.(amount := s[0].value.amount + put))] + rest;
      assert out[1..] == rest;
      (out, left)
    else
      var (rest, left) := TopUp(s[1..], mat, n);
      var out := [s[0]] + rest;
      assert out[1..] == rest;
      (out, left)
  }

  function FillEmpty(s: Slots, mat: Material, n: nat): (r: (Slots, nat))
    requires mat != Air
    ensures |r.0| == |s| && r.1 <= n
    ensures WellFormed(s) ==> WellFormed(r.0)
    ensures CountItem(r.0, mat) + r.1 == CountItem(s, mat) + n
    ensures forall m :: m != mat ==> CountItem(r.0, m) == CountItem(s, m)
    ensures forall i :: 0 <= i < |s| && s[i].Some? ==> r.0[i] == s[i]
    ensures r.1 > 0 ==> forall i :: 0 <= i < |s| ==> r.0[i].Some? && (s[i].None? ==> r.0[i].value.amount == MAX_STACK)
    ensures n <= MAX_STACK && (exists i :: 0 <= i < |s| && s[i].None?) ==> r.1 == 0
    decreases |s|
  {
    if |s| == 0 then (s, n)
    else if s[0].None? && n > 0 then
      var put := Min(MAX_STACK, n);
      var (rest, left) := FillEmpty(s[1..], mat, n - put);
      var out := [Some(Stack(mat, put))] + rest;
      assert out[1..] == rest;
      (out, left)
    else
      var (rest, left) := FillEmpty(s[1..], mat, n);
      var out := [s[0]] + rest;
      assert out[1..] == rest;
      assert n > 0 && (exists i :: 0 <= i < |s| && s[i].None?) ==> exists i :: 0 <= i < |s[1..]| && s[1..][i].None?;
      (out, left)
  }
}

=== FILE: java_int.dfy ===
/**
 * Java 32-bit `int` arithmetic, written out explicitly: Dafny's `int` is
 * unbounded and its `/` is Euclidean, while Java wraps on overflow and
 * truncates toward zero.
 */
module JavaInt {

  const INT_MAX: int := 0x7fff_ffff
  const INT_MIN: int := -0x8000_0000
  const MODULUS: int := 0x1_0000_0000

  predicate IsInt(v: int) {
    INT_MIN <= v <= INT_MAX
  }

  /** Two's-complement wrap-around of a mathematical result into `int`. */
  function Wrap(v: int): (r: int)
    ensures IsInt(r)
    ensures (r - v) % MODULUS == 0
    ensures IsInt(v) ==> r == v
  {
    (v - INT_MIN) % MODULUS + INT_MIN
  }

  /** Java's `a / b`: the quotient truncated toward zero. */
  function Quot(a: int, b: int): (q: int)
    requires b != 0
    ensures a >= 0 && b > 0 ==> q == a / b
    ensures a < 0 && b > 0 ==> q <= 0
    ensures b > 0 ==> (q > 0 <==> a >= b)
  {
    if (a >= 0) == (b > 0) then
      (if a >= 0 then a else -a) / (if b > 0 then b else -b)
    else
      -((if a >= 0 then a else -a) / (if b > 0 then b else -b))
  }
}

=== FILE: jobs.dfy ===
/** The job catalogue and its case-insensitive name check. */
module Jobs {
  import opened Wrappers
  import Text

  /** `NoJob` is the source's NONE. */
  datatype Job = NoJob | Farmer | Miner | Guard | Merchant | Builder | TaxCollector

  function Name(j: Job): string {
    match j
    case NoJob => "NONE"
    case Farmer => "FARMER"
    case Miner => "MINER"
    case Guard => "GUARD"
    case Merchant => "MERCHANT"
    case Builder => "BUILDER"
    case TaxCollector => "TAX_COLLECTOR"
  }

  /** `Job.valueOf(s)`: exact, case-sensitive name match; None when it throws (null or unknown). */
  function ValueOf(s: Option<string>): (r: Option<Job>)
    ensures r.Some? ==> s == Some(Name(r.value))
    ensures r.None? ==> forall k: Job :: s != Some(Name(k))
  {
    match s
    case None => None
    case Some(t) =>
      if t == "NONE" then Some(NoJob)
      else if t == "FARMER" then Some(Farmer)
      else if t == "MINER" then Some(Miner)
      else if t == "GUARD" then Some(Guard)
      else if t == "MERCHANT" then Some(Merchant)
      else if t == "BUILDER" then Some(Builder)
      else if t == "TAX_COLLECTOR" then Some(TaxCollector)
      else None
  }

  lemma ValueOfName(j: Job)
    ensures ValueOf(Some(Name(j))) == Some(j)
  {
  }

  /**
   * `Job.isValid(s)`: upper-case `s` and look it up; a null `s` throws
   * inside the try and reads as false.
   */
  function IsValid(s: Option<string>): (b: bool)
    ensures b <==> s.Some? && exists j: Job :: Name(j) == Text.ToUpper(s.value)
  {
    match s
    case None => false
    case Some(t) =>
      var r := ValueOf(Some(Text.ToUpper(t)));
      assert r.Some? ==> Name(r.value) == Text.ToUpper(t);
      r.Some?
  }

  /** The check does not depend on the letter case of its input. */
  lemma IsValidIgnoresCase(s: string)
    ensures IsValid(Some(Text.ToLower(s))) == IsValid(Some(s))
    ensures IsValid(Some(Text.ToUpper(s))) == IsValid(Some(s))
  {
    Text.UpperIdempotent(s);
  }

  /** Job names are written in upper-case letters and underscores only. */
  lemma NameLetters(j: Job)
    ensures forall k :: 0 <= k < |Name(j)| ==> ('A' <= Name(j)[k] <= 'Z') || Name(j)[k] == '_'
  {
  }

  /** Every job's name is accepted, in upper case and in lower case alike. */
  lemma IsValidLowerCase(j: Job)
    ensures IsValid(Some(Name(j)))
    ensures IsValid(Some(Text.ToLower(Name(j))))
  {
    NameLetters(j);
    Text.ToUpperFixed(Name(j));
    IsValidIgnoresCase(Name(j));
  }

  /**
   * A null name is rejected, and so is every name holding a space or a
   * digit anywhere: the check neither trims nor skips characters.
   */
  lemma IsValidRejects(s: string, i: int)
    requires 0 <= i < |s| && (s[i] == ' ' || Text.IsDigit(s[i]))
    ensures !IsValid(Some(s))
    ensures !IsValid(None)
  {
    if IsValid(Some(s)) {
      var j: Job :| Name(j) == Text.ToUpper(s);
      NameLetters(j);
    }
  }
}

=== FILE: merchant_buy.dfy ===
/**
 * MerchantBuyListener: reading a price out of an item's lore, taking the
 * emeralds, and the decision a click in a shop window leads to.
 */
module MerchantBuy {
  import opened Wrappers
  import opened Inventory
  import opened MerchantKeys
  import opened Text
  import JavaInt

  const SHOP_TITLE_PREFIX: string := "\U{A7}6상인"  // U+00A7 is the section sign
  const PRICE_WORD: string := "가격"

  /**
   * What `parseCost` reads from one lore line: nothing unless the
   * colour-stripped, trimmed line mentions "가격" and has digits; then all
   * its digits run together, parsed as an `int` (nothing on overflow).
   */
  function CostOfLine(line: string): (r: Option<int>)
    ensures r.Some? ==> 0 <= r.value <= JavaInt.INT_MAX
    ensures r.Some? ==> Contains(StripColor(line), PRICE_WORD)
  {
    var plain := Trim(StripColor(line));
    if !Contains(plain, PRICE_WORD) then None
    else
      ContainsTrimmed(StripColor(line), PRICE_WORD);
      var digits := KeepDigits(plain);
      if |digits| == 0 then None else ParseDigits(digits)
  }

  /** The loop of `parseCost`: the first line that yields a number. */
  function FirstCost(lore: seq<string>): (r: Option<int>)
    ensures r.None? <==> forall l :: l in lore ==> CostOfLine(l).None?
    ensures r.Some? ==> 0 <= r.value <= JavaInt.INT_MAX
  {
    if |lore| == 0 then None
    else if CostOfLine(lore[0]).Some? then CostOfLine(lore[0])
    else
      assert forall l :: l in lore ==> l == lore[0] || l in lore[1..];
      FirstCost(lore[1..])
  }

  /** The number found comes from the earliest line that yields one. */
  lemma {:induction false} FirstCostIsFirst(lore: seq<string>)
    requires FirstCost(lore).Some?
    ensures exists k :: 0 <= k < |lore| && FirstCostAt(lore, k)
    decreases |lore|
  {
    if CostOfLine(lore[0]).Some? {
      assert FirstCostAt(lore, 0);
    } else {
      var rest := lore[1..];
      FirstCostIsFirst(rest);
      var k :| 0 <= k < |rest| && FirstCostAt(rest, k);
      forall j | 0 <= j < k + 1
        ensures CostOfLine(lore[j]).None?
      {
        if j > 0 {
          assert lore[j] == rest[j - 1];
        }
      }
      assert lore[k + 1] == rest[k];
      assert FirstCostAt(lore, k + 1);
    }
  }

  /** Line `k` yields the number `FirstCost` reports, and no line before it yields one. */
  predicate FirstCostAt(lore: seq<string>, k: int)
    requires 0 <= k < |lore|
  {
    CostOfLine(lore[k]) == FirstCost(lore) && forall j :: 0 <= j < k ==> CostOfLine(lore[j]).None?
  }

  /** Lines that yield no number can be skipped. */
  lemma {:induction false} FirstCostSkips(a: seq<string>, b: seq<string>)
    requires forall l :: l in a ==> CostOfLine(l).None?
    ensures FirstCost(a + b) == FirstCost(b)
    decreases |a|
  {
    if |a| == 0 {
      assert a + b == b;
    } else {
      assert (a + b)[0] == a[0];
      assert (a + b)[1..] == a[1..] + b;
      assert forall l :: l in a[1..] ==> l in a;
      FirstCostSkips(a[1..], b);
    }
  }

  /** `parseCost`: the first number in the lore, or -1 when there is no meta, no lore, or no such line. */
  function ParseCost(item: Item): (c: int)
    ensures item.meta.None? || item.meta.value.lore.None? ==> c == -1
    ensures c >= -1
    ensures item.meta.Some? && item.meta.value.lore.Some? ==>
      (c == -1 <==> forall l :: l in item.meta.value.lore.value ==> CostOfLine(l).None?)
  {
    if item.meta.None? then -1
    else if item.meta.value.lore.None? then -1
    else FirstCost(item.meta.value.lore.value).GetOr(-1)
  }

  /** The characters of the fixed parts of the price line are not digits. */
  lemma NoDigits()
    ensures forall i :: 0 <= i < |"가격: "| ==> !IsDigit("가격: "[i])
    ensures forall i :: 0 <= i < |" 에메랄드"| ==> !IsDigit(" 에메랄드"[i])
  {
  }

  /** The text of the price line once its colour codes are gone. */
  function PlainTag(price: int): string {
    "가격: " + IntToString(price) + " 에메랄드"
  }

  lemma {:induction false} TagLinePlain(price: int)
    requires price >= 0
    ensures StripColor(TagLine(price)) == PlainTag(price)
  {
    var d := IntToString(price);
    assert TagLine(price) == TAG_HEAD + (d + TAG_TAIL);
    StripColorAppend(TAG_HEAD, d + TAG_TAIL);
    assert SECTION !in d by {
      assert forall i :: 0 <= i < |d| ==> IsDigit(d[i]);
    }
    StripPlainPrefix(d, TAG_TAIL);
    TagHeadStripped();
    TagTailStripped();
  }

  lemma {:induction false} PlainTagDigits(price: int)
    requires price >= 0
    ensures Trim(PlainTag(price)) == PlainTag(price)
    ensures Contains(PlainTag(price), PRICE_WORD)
    ensures KeepDigits(PlainTag(price)) == IntToString(price)
  {
    var d := IntToString(price);
    var plain := PlainTag(price);
    assert plain[0] == '가' && plain[|plain| - 1] == '드';
    TrimUnchanged(plain);
    assert plain[..2] == PRICE_WORD;
    NoDigits();
    KeepDigitsNone("가격: ");
    KeepDigitsNone(" 에메랄드");
    assert plain == "가격: " + (d + " 에메랄드");
    KeepDigitsAppend("가격: ", d + " 에메랄드");
    KeepDigitsAppend(d, " 에메랄드");
  }

  /** The price line of MerchantKeys yields exactly its price. */
  lemma TagLineCost(price: int)
    requires 0 <= price <= JavaInt.INT_MAX
    ensures CostOfLine(TagLine(price)) == Some(price)
  {
    TagLinePlain(price);
    PlainTagDigits(price);
  }

  /**
   * The price shown in the shop is the price the buyer pays: `parseCost`
   * of a stack tagged by `applyPriceTag` with a lore line is the tagged
   * price, provided no line the tag keeps already yields a number.
   */
  lemma ShopPriceRoundTrip(item: Item, price: int)
    requires item.material != Air
    requires 0 <= price <= JavaInt.INT_MAX
    requires item.meta.Some? && item.meta.value.lore.Some? ==>
      forall l :: l in item.meta.value.lore.value ==> CostOfLine(l).None? || IsTagLine(l)
    ensures ParseCost(ApplyPriceTag(Some(item), price, true).value) == price
  {
    var kept := WithoutTagLines(MetaOf(item).value.lore.GetOr([]));
    FirstCostSkips(kept, [TagLine(price)]);
    TagLineCost(price);
  }

  // ---------------------------------------------------------------
  // removePriceLore
  // ---------------------------------------------------------------

  /** A line `removePriceLore` drops: its colour-stripped text mentions "가격". */
  predicate MentionsPrice(line: string) {
    Contains(StripColor(line), PRICE_WORD)
  }

  predicate NoPriceMention(line: string) {
    !MentionsPrice(line)
  }

  /**
   * `removePriceLore`: drop every line mentioning "가격"; an emptied lore
   * becomes null. The stored price key is left as it is.
   */
  function RemovePriceLore(item: Item): (r: Item)
    ensures item.meta.None? || item.meta.value.lore.None? ==> r == item
    ensures item.meta.Some? && item.meta.value.lore.Some? ==>
      && r.material == item.material && r.amount == item.amount
      && r.meta.Some? && r.meta.value.price == item.meta.value.price
      && (r.meta.value.lore.None? <==> forall l :: l in item.meta.value.lore.value ==> MentionsPrice(l))
      && (r.meta.value.lore.Some? ==>
            && r.meta.value.lore.value == KeepLines(item.meta.value.lore.value, NoPriceMention)
            && forall l :: l in r.meta.value.lore.value ==> !MentionsPrice(l))
  {
    if item.meta.None? || item.meta.value.lore.None? then item
    else
      var meta := item.meta.value;
      var kept := KeepLines(meta.lore.value, NoPriceMention);
      assert |kept| == 0 <==> forall l :: l in meta.lore.value ==> MentionsPrice(l) by {
        if |kept| > 0 {
          assert kept[0] in kept;
        }
      }
      item.(meta := Some(meta.(lore := if |kept| == 0 then None else Some(kept))))
  }

  /** The stack handed to the buyer carries no line `parseCost` would read a price from. */
  lemma BoughtStackUnpriced(item: Item)
    ensures ParseCost(RemovePriceLore(item)) == -1
  {
  }

  // ---------------------------------------------------------------
  // The click
  // ---------------------------------------------------------------

  predicate IsShopTitle(title: Option<string>) {
    title.Some? && StartsWith(title.value, SHOP_TITLE_PREFIX)
  }

  datatype BuyOutcome =
    | Ignored             // not a shop window: the event is left alone
    | EmptySlot           // cancelled, nothing clicked
    | NoPrice             // cancelled, the stack has no positive price
    | TooPoor(cost: int)  // cancelled, not enough emeralds
    | Bought(cost: int, give: Item)

  /** `hasEmerald`: `containsAtLeast` on plain emeralds. */
  predicate HasEmerald(inv: Slots, amount: int) {
    CountItem(inv, Emerald) >= amount
  }

  /**
   * `onClick`: outside a shop window nothing happens; inside one every
   * click is cancelled, and a purchase goes through only for a positive
   * price the player can pay, taking exactly that many emeralds and
   * handing over the stack without its price lines. Adding the stack to
   * the player's inventory and dropping what does not fit is host work.
   */
  method OnClick(title: Option<string>, clicked: ItemSlot, inv: Slots) returns (out: BuyOutcome, r: Slots)
    ensures out.Ignored? <==> !IsShopTitle(title)
    ensures out.EmptySlot? <==> IsShopTitle(title) && IsAirOrNull(clicked)
    ensures out.NoPrice? <==> IsShopTitle(title) && !IsAirOrNull(clicked) && ParseCost(clicked.value) <= 0
    ensures out.TooPoor? ==> out.cost == ParseCost(clicked.value) > 0 && !HasEmerald(inv, out.cost)
    ensures out.Bought? ==>
      && IsShopTitle(title) && !IsAirOrNull(clicked)
      && out.cost == ParseCost(clicked.value) > 0 && HasEmerald(inv, out.cost)
      && out.give == RemovePriceLore(clicked.value)
    ensures out.Bought? && WellFormed(inv) ==>
      && WellFormed(r)
      && CountItem(r, Emerald) == CountItem(inv, Emerald) - out.cost
      && forall m :: m != Emerald ==> CountItem(r, m) == CountItem(inv, m)
    ensures !out.Bought? ==> r == inv
  {
    r := inv;
    if !IsShopTitle(title) {
      return Ignored, r;
    }
    if IsAirOrNull(clicked) {
      return EmptySlot, r;
    }
    var cost := ParseCost(clicked.value);
    if cost <= 0 {
      return NoPrice, r;
    }
    if !HasEmerald(inv, cost) {
      return TooPoor(cost), r;
    }
    r := RemoveItem(inv, Emerald, cost);
    out := Bought(cost, RemovePriceLore(clicked.value));
  }
}

=== FILE: merchant_edit.dfy ===
/**
 * MerchantEditListener: the shop editor. A shift-right click on a stack
 * records which slot the player wants to price; the next chat message is
 * read as the price and written onto that stack with `applyPriceTag`;
 * closing the editor saves its contents as the shop.
 */
module MerchantEdit {
  import opened Wrappers
  import opened Inventory
  import opened MerchantKeys
  import opened ShopStorage
  import opened Text
  import JavaInt
  import Store

  const CANCEL_WORD: string := "cancel"

  /** `isEditor`: the window title starts with "§d[편집]". */
  predicate IsEditor(title: Option<string>) {
    title.Some? && StartsWith(title.value, EDITOR_MARK)
  }

  /** Every title `MerchantService` gives an editor window is recognised as one. */
  lemma EditorTitleIsEditor(cfg: Config, npcId: int)
    ensures IsEditor(Some(EditorTitle(cfg, npcId)))
  {
    EditorPrefixMarks(GetTitle(cfg, npcId));
  }

  /** Whatever the shop title, the editor prefix puts the editor mark in front. */
  lemma EditorPrefixMarks(g: string)
    ensures StartsWith(EDITOR_TITLE_PREFIX + g, EDITOR_MARK)
  {
    assert EDITOR_TITLE_PREFIX + g == EDITOR_MARK + (" " + g);
    StartsWithSelf(EDITOR_MARK, " " + g);
  }

  /**
   * `extractNpcIdFromTitle`: after removing every "§x" pair, the text
   * after the last '#', trimmed and parsed as an `int`; -1 when there is
   * no '#' or the text is not a number.
   */
  function ExtractNpcIdFromTitle(title: string): (r: int)
    ensures LastIndexOf(StripAny(title), '#') < 0 ==> r == -1
    ensures JavaInt.IsInt(r)
  {
    var plain := StripAny(title);
    var idx := LastIndexOf(plain, '#');
    if idx < 0 then -1
    else ParseInt(Trim(plain[idx + 1..])).GetOr(-1)
  }

  /** The last occurrence of `c` is the one with no `c` after it. */
  lemma {:induction false} LastIndexOfMarker(a: string, c: char, b: string)
    requires c !in b
    ensures LastIndexOf(a + [c] + b, c) == |a|
    decreases |b|
  {
    var s := a + [c] + b;
    if |b| == 0 {
      assert s[|s| - 1] == c;
    } else {
      assert s[|s| - 1] == b[|b| - 1];
      assert s[..|s| - 1] == a + [c] + b[..|b| - 1];
      assert forall x :: x in b[..|b| - 1] ==> x in b;
      LastIndexOfMarker(a, c, b[..|b| - 1]);
    }
  }

  /** A rendered `int` holds neither '§' nor '#', and is its own trim. */
  lemma RenderedIntPlain(n: int)
    ensures SECTION !in IntToString(n) && '#' !in IntToString(n)
    ensures Trim(IntToString(n)) == IntToString(n)
  {
    var d := IntToString(n);
    if n < 0 {
      assert d == "-" + NatToString(-n);
      assert forall i :: 1 <= i < |d| ==> IsDigit(d[i]);
    } else {
      assert forall i :: 0 <= i < |d| ==> IsDigit(d[i]);
    }
    TrimUnchanged(d);
  }

  /**
   * A title ending in "#" and a number gives that number back, whatever
   * comes before the '#', as long as it does not end in a bare '§'.
   */
  lemma {:induction false} ExtractNpcIdRoundTrip(t: string, n: int)
    requires JavaInt.IsInt(n)
    requires |t| == 0 || t[|t| - 1] != SECTION
    ensures ExtractNpcIdFromTitle(t + "#" + IntToString(n)) == n
  {
    var d := IntToString(n);
    RenderedIntPlain(n);
    StripMarkedNumber(t, d);
    var plain := StripAny(t) + "#" + d;
    assert StripAny(t + "#" + d) == plain;
    var idx := LastIndexOf(plain, '#');
    assert idx == |StripAny(t)| by {
      LastIndexOfMarker(StripAny(t), '#', d);
    }
    assert plain[idx + 1..] == d;
    assert Trim(d) == d;
    IntToStringRoundTrip(n);
    assert ParseInt(Trim(plain[idx + 1..])) == Some(n);
  }

  lemma StripMarkedNumber(t: string, d: string)
    requires |t| == 0 || t[|t| - 1] != SECTION
    requires SECTION !in d
    ensures StripAny(t + "#" + d) == StripAny(t) + "#" + d
  {
    StripAnyPlainTail(t, "#");
    StripAnyPlainTail(t + "#", d);
  }

  /** Text without a '§' after a split point that does not cut a pair passes through unchanged. */
  lemma StripAnyPlainTail(a: string, b: string)
    requires |a| == 0 || a[|a| - 1] != SECTION
    requires SECTION !in b
    ensures StripAny(a + b) == StripAny(a) + b
  {
    StripAnyAppend(a, b);
  }

  /** The editor of a shop with the default title reads back its NPC id. */
  lemma DefaultEditorTitleId(n: int)
    requires JavaInt.IsInt(n)
    ensures ExtractNpcIdFromTitle(EditorTitle(map[], n)) == n
  {
    var d := IntToString(n);
    var t := EDITOR_TITLE_PREFIX + ([SECTION, '6'] + "상인 ");
    assert GetTitle(map[], n) == DEFAULT_TITLE_PREFIX + d;
    assert DEFAULT_TITLE_PREFIX == ([SECTION, '6'] + "상인 ") + "#";
    assert EditorTitle(map[], n) == t + "#" + d;
    assert t[|t| - 1] == ' ';
    ExtractNpcIdRoundTrip(t, n);
  }

  // ---------------------------------------------------------------
  // Pending price requests
  // ---------------------------------------------------------------

  /** Which shop and which editor slot the player's next chat message prices. */
  datatype PendingPrice = PendingPrice(npcId: int, slot: int)

  type Pending = map<Store.Uuid, PendingPrice>

  /** Requests are only recorded for a readable NPC id and a slot of the editor's top part. */
  predicate PendingValid(pd: Pending) {
    forall u :: u in pd ==> pd[u].npcId >= 0 && pd[u].slot >= 0
  }

  datatype Click = ShiftRight | OtherClick

  /**
   * `onEditorClick` of MerchantEditListener on its own: of the editor's
   * clicks, this listener cancels only a shift-right click on a stack, and
   * it records a request when the slot lies in the top part (`topSize`
   * slots) and the title yields an NPC id. The price-input listener,
   * registered before it, handles every top click, shift-right included
   * (see `PriceInput`): a shift-right on a stack therefore both opens the
   * anvil, when that listener reads an id from the title, and records a
   * chat request here. The result is whether the click was cancelled, and
   * the new requests.
   */
  function OnEditorClick(pd: Pending, p: Store.Uuid, title: Option<string>, click: Click,
                         current: ItemSlot, rawSlot: int, topSize: int): (r: (bool, Pending))
    ensures r.0 <==> IsEditor(title) && click == ShiftRight && !IsAirOrNull(current)
    ensures r.1 != pd ==> r.0 && 0 <= rawSlot < topSize && ExtractNpcIdFromTitle(title.value) >= 0
    ensures r.0 && 0 <= rawSlot < topSize && ExtractNpcIdFromTitle(title.value) >= 0 ==>
      r.1 == pd[p := PendingPrice(ExtractNpcIdFromTitle(title.value), rawSlot)]
    ensures PendingValid(pd) ==> PendingValid(r.1)
  {
    if !IsEditor(title) || click != ShiftRight || IsAirOrNull(current) then (false, pd)
    else if rawSlot < 0 || rawSlot >= topSize then (true, pd)
    else
      var npcId := ExtractNpcIdFromTitle(title.value);
      if npcId < 0 then (true, pd) else (true, pd[p := PendingPrice(npcId, rawSlot)])
  }

  /**
   * `onEditorClose`: closing an editor whose title yields an NPC id saves
   * the window's contents as that shop, under the title the shop already
   * has and the window's size, and drops the player's request. Any other
   * close changes nothing; in particular an unreadable id leaves the
   * request in place.
   */
  method OnEditorClose(cfg: Config, pd: Pending, p: Store.Uuid, title: Option<string>, contents: seq<ItemSlot>)
    returns (saved: bool, cfg': Config, pd': Pending)
    ensures saved <==> IsEditor(title) && ExtractNpcIdFromTitle(title.value) >= 0
    ensures !saved ==> cfg' == cfg && pd' == pd
    ensures saved ==>
      var id := ExtractNpcIdFromTitle(title.value);
      && cfg'.Keys == cfg.Keys + {id}
      && (forall other :: other in cfg && other != id ==> cfg'[other] == cfg[other])
      && GetTitle(cfg', id) == GetTitle(cfg, id)
      && cfg'[id].size == Some(|contents|)
      && cfg'[id].items == EditorEntries(contents, |contents|)
      && pd' == pd - {p}
    ensures saved ==>
      var shop := LoadItems(cfg', ExtractNpcIdFromTitle(title.value));
      forall k :: (k in shop <==> 0 <= k < MinInt(|contents|, MAX_SLOTS) && Saved(contents[k]))
    ensures saved ==>
      var shop := LoadItems(cfg', ExtractNpcIdFromTitle(title.value));
      forall k :: k in shop ==> shop[k] == ShopItem(contents[k].value, GetPrice(contents[k]))
  {
    if !IsEditor(title) {
      return false, cfg, pd;
    }
    var npcId := ExtractNpcIdFromTitle(title.value);
    if npcId < 0 {
      return false, cfg, pd;
    }
    var shopTitle := GetTitle(cfg, npcId);
    cfg' := SaveFromEditorInventory(cfg, npcId, |contents|, shopTitle, contents);
    saved := true;
    pd' := pd - {p};
    forall k
      ensures var shop := LoadItems(cfg', npcId);
        && (k in shop <==> 0 <= k < MinInt(|contents|, MAX_SLOTS) && Saved(contents[k]))
        && (k in shop ==> shop[k] == ShopItem(contents[k].value, GetPrice(contents[k])))
    {
      SaveThenLoad(contents, |contents|, k);
    }
  }

  // ---------------------------------------------------------------
  // The chat message
  // ---------------------------------------------------------------

  datatype ChatOutcome =
    | NotPending        // no request: the message goes to chat
    | Cancelled         // "cancel": the request is dropped
    | NotANumber        // the request stays
    | NotPositive       // the request stays
    | EditorClosed      // the player no longer looks at an editor: dropped
    | BadSlot           // the slot is outside the open window: dropped
    | EmptySlot         // nothing in the slot: the request stays
    | PriceSet(price: int)

  /** The trimmed message is the cancel word, in any letter case. */
  predicate IsCancel(message: string) {
    EqualsIgnoreCase(Trim(message), CANCEL_WORD)
  }

  /** `Integer.parseInt` of the trimmed message. */
  function ChatNumber(message: string): Option<int> {
    ParseInt(Trim(message))
  }

  /** A pending player's message that is not "cancel" and reads as a positive number. */
  predicate ChatPriced(pd: Pending, p: Store.Uuid, message: string) {
    p in pd && !IsCancel(message) && ChatNumber(message).Some? && ChatNumber(message).value > 0
  }

  /**
   * The callback `onChat` schedules once a positive `price` is read:
   * it runs against `openTitle` and `open`, the title and top contents
   * of the window the player has open by then, and tags the stack in the
   * requested slot with `applyPriceTag(…, true)`.
   */
  function PlaceChatPrice(pd: Pending, p: Store.Uuid, price: int, openTitle: Option<string>, open: seq<ItemSlot>)
    : (r: (ChatOutcome, Pending, seq<ItemSlot>))
    requires p in pd && price > 0
    ensures r.0.EditorClosed? <==> !IsEditor(openTitle)
    ensures r.0.BadSlot? <==> IsEditor(openTitle) && !(0 <= pd[p].slot < |open|)
    ensures r.0.EmptySlot? <==> IsEditor(openTitle) && 0 <= pd[p].slot < |open| && IsAirOrNull(open[pd[p].slot])
    ensures r.0.PriceSet? <==> IsEditor(openTitle) && 0 <= pd[p].slot < |open| && !IsAirOrNull(open[pd[p].slot])
    ensures r.0.EmptySlot? ==> r.1 == pd
    ensures !r.0.EmptySlot? ==> r.1 == pd - {p}
    ensures !r.0.PriceSet? ==> r.2 == open
    ensures r.0.PriceSet? ==>
      && r.0.price == price
      && r.2 == open[pd[p].slot := ApplyPriceTag(open[pd[p].slot], price, true)]
      && GetPrice(r.2[pd[p].slot]) == price
  {
    if !IsEditor(openTitle) then (EditorClosed, pd - {p}, open)
    else
      var slot := pd[p].slot;
      if slot < 0 || slot >= |open| then (BadSlot, pd - {p}, open)
      else if IsAirOrNull(open[slot]) then (EmptySlot, pd, open)
      else (PriceSet(price), pd - {p}, open[slot := ApplyPriceTag(open[slot], price, true)])
  }

  /**
   * `onChat`, with the callback it schedules as PlaceChatPrice. Every
   * message of a player with a request is kept out of chat.
   */
  function OnChat(pd: Pending, p: Store.Uuid, message: string, openTitle: Option<string>, open: seq<ItemSlot>)
    : (r: (ChatOutcome, Pending, seq<ItemSlot>))
    ensures !r.0.PriceSet? ==> r.2 == open
    ensures r.0.NotPending? <==> p !in pd
    ensures r.0.Cancelled? <==> p in pd && IsCancel(message)
    ensures r.0.NotANumber? <==>
      p in pd && !IsCancel(message) && ChatNumber(message).None?
    ensures r.0.NotPositive? <==>
      && p in pd && !IsCancel(message)
      && ChatNumber(message).Some? && ChatNumber(message).value <= 0
    ensures r.0.EditorClosed? <==> ChatPriced(pd, p, message) && !IsEditor(openTitle)
    ensures r.0.BadSlot? <==>
      ChatPriced(pd, p, message) && IsEditor(openTitle) && !(0 <= pd[p].slot < |open|)
    ensures r.0.EmptySlot? <==>
      ChatPriced(pd, p, message) && IsEditor(openTitle) && 0 <= pd[p].slot < |open| && IsAirOrNull(open[pd[p].slot])
    ensures r.0.PriceSet? <==>
      ChatPriced(pd, p, message) && IsEditor(openTitle) && 0 <= pd[p].slot < |open| && !IsAirOrNull(open[pd[p].slot])
    ensures r.0 in {NotPending, NotANumber, NotPositive, EmptySlot} ==> r.1 == pd
    ensures r.0 in {Cancelled, EditorClosed, BadSlot} || r.0.PriceSet? ==> r.1 == pd - {p}
    ensures r.0.EditorClosed? ==> !IsEditor(openTitle)
    ensures r.0.PriceSet? ==>
      && p in pd && IsEditor(openTitle) && 0 <= pd[p].slot < |open| && !IsAirOrNull(open[pd[p].slot])
      && Some(r.0.price) == ChatNumber(message) && r.0.price > 0
      && r.2 == open[pd[p].slot := ApplyPriceTag(open[pd[p].slot], r.0.price, true)]
      && GetPrice(r.2[pd[p].slot]) == r.0.price
  {
    if p !in pd then (NotPending, pd, open)
    else if IsCancel(message) then (Cancelled, pd - {p}, open)
    else
      var parsed := ChatNumber(message);
      if parsed.None? then (NotANumber, pd, open)
      else if parsed.value <= 0 then (NotPositive, pd, open)
      else PlaceChatPrice(pd, p, parsed.value, openTitle, open)
  }

  /** "cancel" written in any mix of letter cases is the cancel word. */
  lemma CancelAnyCase(s: string)
    requires |s| == 6
    requires forall i :: 0 <= i < 6 ==> s[i] == CANCEL_WORD[i] || s[i] == UpperChar(CANCEL_WORD[i])
    ensures EqualsIgnoreCase(s, CANCEL_WORD)
  {
    forall i | 0 <= i < 6
      ensures LowerChar(s[i]) == CANCEL_WORD[i]
    {
    }
  }

  /**
   * A price set by chat is what the shop sells the stack for once the
   * editor closes: the saved and reloaded shop has the stack at that slot
   * with that price.
   */
  lemma ChatPriceSurvivesSave(pd: Pending, p: Store.Uuid, message: string, openTitle: Option<string>, open: seq<ItemSlot>)
    requires OnChat(pd, p, message, openTitle, open).0.PriceSet?
    requires pd[p].slot < MAX_SLOTS
    ensures var r := OnChat(pd, p, message, openTitle, open);
      var shop := LoadEntries(EditorEntries(r.2, |r.2|));
      && pd[p].slot in shop
      && shop[pd[p].slot].price == r.0.price
      && shop[pd[p].slot].item == r.2[pd[p].slot].value
  {
    var r := OnChat(pd, p, message, openTitle, open);
    SaveThenLoad(r.2, |r.2|, pd[p].slot);
  }
}

=== FILE: merchant_keys.dfy ===
/**
 * Item stacks as the merchant code sees them, and MerchantKeys: the price
 * kept under the plugin's persistent `merchant_price` key, and the price
 * line in the lore that goes with it.
 */
module MerchantKeys {
  import opened Wrappers
  import opened Inventory
  import opened Text

  /** The parts of an item's meta the merchant code reads or writes: the persistent price and the lore. */
  datatype Meta = Meta(price: Option<int>, lore: Option<seq<string>>)

  const EMPTY_META: Meta := Meta(None, None)

  /** An item stack; `meta` is None when the stack carries no item meta. */
  datatype Item = Item(material: Material, amount: int, meta: Option<Meta>)

  /** A slot of a GUI inventory: empty (null) or a stack. */
  type ItemSlot = Option<Item>

  predicate IsAirOrNull(it: ItemSlot) {
    it.None? || it.value.material == Air
  }

  /** `getItemMeta()`: null for air, otherwise the stack's meta or a fresh empty one. */
  function MetaOf(it: Item): (m: Option<Meta>)
    ensures m.None? <==> it.material == Air
    ensures it.material != Air && it.meta.Some? ==> m == it.meta
    ensures it.meta.None? && m.Some? ==> m.value == EMPTY_META
  {
    if it.material == Air then None else Some(it.meta.GetOr(EMPTY_META))
  }

  // ---------------------------------------------------------------
  // Lore filtering
  // ---------------------------------------------------------------

  /** The lines of `lore` that satisfy `keep`, in their original order (`removeIf` with the negation). */
  function KeepLines(lore: seq<string>, keep: string -> bool): (r: seq<string>)
    ensures |r| <= |lore|
    ensures forall l :: l in r ==> l in lore && keep(l)
    ensures forall l :: l in lore && keep(l) ==> l in r
  {
    if |lore| == 0 then []
    else (if keep(lore[0]) then [lore[0]] else []) + KeepLines(lore[1..], keep)
  }

  /** Filtering distributes over concatenation, so the kept lines keep their relative order. */
  lemma {:induction false} KeepLinesAppend(a: seq<string>, b: seq<string>, keep: string -> bool)
    ensures KeepLines(a + b, keep) == KeepLines(a, keep) + KeepLines(b, keep)
    decreases |a|
  {
    if |a| == 0 {
      assert a + b == b;
    } else {
      assert (a + b)[1..] == a[1..] + b;
      KeepLinesAppend(a[1..], b, keep);
    }
  }

  /** A filter that every line passes changes nothing. */
  lemma {:induction false} KeepLinesAll(a: seq<string>, keep: string -> bool)
    requires forall l :: l in a ==> keep(l)
    ensures KeepLines(a, keep) == a
    decreases |a|
  {
    if |a| > 0 {
      assert forall l :: l in a[1..] ==> l in a;
      KeepLinesAll(a[1..], keep);
      assert [a[0]] + a[1..] == a;
    }
  }

  // ---------------------------------------------------------------
  // The price tag
  // ---------------------------------------------------------------

  const PRICE_LABEL: string := "가격:"

  const TAG_HEAD: string := [SECTION, '7'] + "가격: " + [SECTION, 'e']
  const TAG_TAIL: string := " " + [SECTION, '7'] + "에메랄드"

  /** The lore line `applyPriceTag` writes for `price`. */
  function TagLine(price: int): string {
    TAG_HEAD + IntToString(price) + TAG_TAIL
  }

  /** Both strippers turn the fixed parts of the price line into plain text. */
  lemma TagHeadStripped()
    ensures StripAny(TAG_HEAD) == "가격: " && StripColor(TAG_HEAD) == "가격: "
  {
    assert TAG_HEAD == [SECTION, '7'] + ("가격: " + [SECTION, 'e']);
    StripAnyCode('7', "가격: " + [SECTION, 'e']);
    StripColorCode('7', "가격: " + [SECTION, 'e']);
    StripPlainPrefix("가격: ", [SECTION, 'e']);
    StripAnyCode('e', []);
    StripColorCode('e', []);
    assert [SECTION, 'e'] + [] == [SECTION, 'e'];
  }

  lemma TagTailStripped()
    ensures StripColor(TAG_TAIL) == " 에메랄드"
  {
    CodedWordStripped('7', "에메랄드");
    assert " " + "에메랄드" == " 에메랄드";
  }

  /** A space and a colour code before plain text leave just the space and the text. */
  lemma CodedWordStripped(c: char, w: string)
    requires IsColorCode(c) && SECTION !in w
    ensures StripColor(" " + [SECTION, c] + w) == " " + w
  {
    assert " " + [SECTION, c] + w == " " + ([SECTION, c] + w);
    StripPlainPrefix(" ", [SECTION, c] + w);
    StripColorCode(c, w);
  }

  /** A line the tag code treats as a price line: with its "§x" pairs removed, it starts with "가격:". */
  predicate IsTagLine(line: string) {
    StartsWith(StripAny(line), PRICE_LABEL)
  }

  predicate NotTagLine(line: string) {
    !IsTagLine(line)
  }

  /** `lore.removeIf(s -> strip(s).startsWith("가격:"))`. */
  function WithoutTagLines(lore: seq<string>): (r: seq<string>)
    ensures forall l :: l in r ==> l in lore && !IsTagLine(l)
    ensures forall l :: l in lore && !IsTagLine(l) ==> l in r
  {
    KeepLines(lore, NotTagLine)
  }

  /** Filtering again after appending a fresh price line gives back the filtered lines. */
  lemma RetagLore(lore: seq<string>, price: int)
    ensures WithoutTagLines(WithoutTagLines(lore) + [TagLine(price)]) == WithoutTagLines(lore)
  {
    var once := WithoutTagLines(lore);
    TagLineIsTagLine(price);
    KeepLinesAppend(once, [TagLine(price)], NotTagLine);
    KeepLinesAll(once, NotTagLine);
    assert KeepLines([TagLine(price)], NotTagLine) == [];
  }

  /** The written line is itself a price line. */
  lemma TagLineIsTagLine(price: int)
    ensures IsTagLine(TagLine(price))
  {
    var rest := IntToString(price) + TAG_TAIL;
    assert TagLine(price) == TAG_HEAD + rest;
    StripAnyAppend(TAG_HEAD, rest);
    TagHeadStripped();
    StartsWithAppend("가격: ", StripAny(rest), PRICE_LABEL);
  }

  /** `getPrice`: the stored price, or -1 for null, air, a stack without meta, or a missing key. */
  function GetPrice(item: ItemSlot): (p: int)
    ensures IsAirOrNull(item) || item.value.meta.None? ==> p == -1
    ensures !IsAirOrNull(item) && item.value.meta.Some? && item.value.meta.value.price.None? ==> p == -1
    ensures !IsAirOrNull(item) && item.value.meta.Some? && item.value.meta.value.price.Some? ==> p == item.value.meta.value.price.value
  {
    if IsAirOrNull(item) then -1
    else if item.value.meta.None? then -1
    else item.value.meta.value.price.GetOr(-1)
  }

  /**
   * `applyPriceTag`: null and air pass through untouched; any other stack
   * gets the price under the key and, with `addLoreLine`, its old price
   * lines replaced by one new price line at the end.
   */
  function ApplyPriceTag(item: ItemSlot, price: int, addLoreLine: bool): (r: ItemSlot)
    ensures IsAirOrNull(item) ==> r == item
    ensures !IsAirOrNull(item) ==>
      && r.Some? && r.value.material == item.value.material && r.value.amount == item.value.amount
      && r.value.meta.Some? && r.value.meta.value.price == Some(price)
    ensures !IsAirOrNull(item) && !addLoreLine ==> r.value.meta.value.lore == MetaOf(item.value).value.lore
    ensures !IsAirOrNull(item) && addLoreLine ==>
      var old_ := MetaOf(item.value).value.lore.GetOr([]);
      && r.value.meta.value.lore.Some?
      && var lore := r.value.meta.value.lore.value;
      && |lore| > 0 && lore[|lore| - 1] == TagLine(price)
      && lore[..|lore| - 1] == WithoutTagLines(old_)
      && forall i :: 0 <= i < |lore| ==> (IsTagLine(lore[i]) <==> i == |lore| - 1)
  {
    if IsAirOrNull(item) then item
    else
      var meta := MetaOf(item.value).value;
      var lore := if addLoreLine then Some(WithoutTagLines(meta.lore.GetOr([])) + [TagLine(price)]) else meta.lore;
      TagLineIsTagLine(price);
      Some(item.value.(meta := Some(Meta(Some(price), lore))))
  }

  /** Reading the price back after tagging gives the price written, whatever the lore flag. */
  lemma PriceTagRoundTrip(item: Item, price: int, addLoreLine: bool)
    requires item.material != Air
    ensures GetPrice(ApplyPriceTag(Some(item), price, addLoreLine)) == price
  {
  }

  /** Tagging twice with the same price is the same as tagging once. */
  lemma ApplyPriceTagIdempotent(item: ItemSlot, price: int, addLoreLine: bool)
    ensures ApplyPriceTag(ApplyPriceTag(item, price, addLoreLine), price, addLoreLine)
         == ApplyPriceTag(item, price, addLoreLine)
  {
    if !IsAirOrNull(item) && addLoreLine {
      RetagLore(MetaOf(item.value).value.lore.GetOr([]), price);
    }
  }

  /**
   * `stripPriceTag`: on a stack with meta, drop the key and every price
   * line, and an emptied lore becomes null; anything else is untouched.
   */
  function StripPriceTag(item: ItemSlot): (r: ItemSlot)
    ensures GetPrice(r) == -1
    ensures IsAirOrNull(item) || item.value.meta.None? ==> r == item
    ensures !IsAirOrNull(item) && item.value.meta.Some? ==>
      && r.Some? && r.value.material == item.value.material && r.value.amount == item.value.amount
      && r.value.meta.Some?
      && (item.value.meta.value.lore.None? ==> r.value.meta.value.lore.None?)
      && (r.value.meta.value.lore.Some? ==>
            var lore := r.value.meta.value.lore.value;
            && |lore| > 0
            && lore == WithoutTagLines(item.value.meta.value.lore.value))
      && (item.value.meta.value.lore.Some? && r.value.meta.value.lore.None? ==>
            WithoutTagLines(item.value.meta.value.lore.value) == [])
  {
    if IsAirOrNull(item) || item.value.meta.None? then item
    else
      var meta := item.value.meta.value;
      var lore :=
        if meta.lore.None? then None
        else
          var kept := WithoutTagLines(meta.lore.value);
          if |kept| == 0 then None else Some(kept);
      Some(item.value.(meta := Some(meta.(price := None, lore := lore))))
  }

  /** Stripping undoes tagging: a stack with meta, tagged then stripped, is the stack stripped. */
  lemma StripUndoesApply(item: Item, price: int)
    requires item.meta.Some?
    ensures StripPriceTag(ApplyPriceTag(Some(item), price, true)) == StripPriceTag(Some(item))
  {
    if item.material != Air {
      var old_ := item.meta.value.lore.GetOr([]);
      RetagLore(old_, price);
      assert item.meta.value.lore.None? ==> WithoutTagLines(old_) == [];
    }
  }
}

=== FILE: npc_trait.dfy ===
/**
 * The persisted per-NPC settings (FeudalNPCTrait): a role stored by name,
 * the owning family, the tax-collector parameters and the farmer timer.
 * Every numeric field is a nullable box that reads as its default when
 * null.
 */
module NpcTrait {
  import opened Wrappers

  /** The NPC roles the command layer offers. */
  datatype NpcRole = TaxCollector | FarmerRole | GuardRole | MinerRole

  function RoleName(r: NpcRole): string {
    match r
    case TaxCollector => "TAX_COLLECTOR"
    case FarmerRole => "FARMER"
    case GuardRole => "GUARD"
    case MinerRole => "MINER"
  }

  /** `NPCRole.valueOf`: only an exact constant name parses. */
  function RoleValueOf(s: string): (r: Option<NpcRole>)
    ensures r.Some? ==> RoleName(r.value) == s
    ensures r.None? ==> forall x :: RoleName(x) != s
  {
    if s == "TAX_COLLECTOR" then Some(TaxCollector)
    else if s == "FARMER" then Some(FarmerRole)
    else if s == "GUARD" then Some(GuardRole)
    else if s == "MINER" then Some(MinerRole)
    else None
  }

  const DEFAULT_TAX_AMOUNT: int := 0
  const DEFAULT_INTERVAL_MS: int := 300000
  const DEFAULT_FARM_INTERVAL_MS: int := 5000

  datatype Trait = Trait(
    role: Option<string>,
    familyId: Option<int>,
    taxAmount: Option<int>,
    intervalMs: Option<int>,
    nextCollectAtMs: Option<int>,
    farmIntervalMs: Option<int>,
    nextFarmAtMs: Option<int>)

  /** The field initialisers of a freshly attached trait. */
  const NewTrait: Trait := Trait(None, None, Some(0), Some(300000), Some(0), Some(5000), Some(0))

  /** `setRole`: the role is stored by its name, or cleared for null; no other field changes. */
  function SetRole(t: Trait, r: Option<NpcRole>): (t2: Trait)
    ensures t2.(role := t.role) == t
    ensures t2.role.Some? <==> r.Some?
  {
    t.(role := if r.Some? then Some(RoleName(r.value)) else None)
  }

  /** `getRole`: null when unset or when the stored name does not parse. */
  function GetRole(t: Trait): (r: Option<NpcRole>)
    ensures r.Some? ==> t.role == Some(RoleName(r.value))
    ensures t.role.None? ==> r.None?
  {
    if t.role.None? then None else RoleValueOf(t.role.value)
  }

  /** Setting a role and reading it back gives the same role, or null back for null. */
  lemma RoleRoundTrip(t: Trait, r: Option<NpcRole>)
    ensures GetRole(SetRole(t, r)) == r
  {
    if r.Some? {
      match r.value
      case TaxCollector =>
      case FarmerRole =>
      case GuardRole =>
      case MinerRole =>
    }
  }

  function GetTaxAmount(t: Trait): int { t.taxAmount.GetOr(DEFAULT_TAX_AMOUNT) }
  function GetIntervalMs(t: Trait): int { t.intervalMs.GetOr(DEFAULT_INTERVAL_MS) }
  function GetNextCollectAtMs(t: Trait): int { t.nextCollectAtMs.GetOr(0) }
  function GetFarmIntervalMs(t: Trait): int { t.farmIntervalMs.GetOr(DEFAULT_FARM_INTERVAL_MS) }
  function GetNextFarmAtMs(t: Trait): int { t.nextFarmAtMs.GetOr(0) }

  /** Null fields read as the defaults, and so do the initialisers of a new trait. */
  lemma NullFieldsReadAsDefaults(t: Trait)
    requires t.taxAmount.None? && t.intervalMs.None? && t.nextCollectAtMs.None?
    requires t.farmIntervalMs.None? && t.nextFarmAtMs.None? && t.role.None?
    ensures GetTaxAmount(t) == 0 && GetIntervalMs(t) == 300000 && GetNextCollectAtMs(t) == 0
    ensures GetFarmIntervalMs(t) == 5000 && GetNextFarmAtMs(t) == 0 && GetRole(t).None?
    ensures GetTaxAmount(NewTrait) == GetTaxAmount(t) && GetIntervalMs(NewTrait) == GetIntervalMs(t)
    ensures GetFarmIntervalMs(NewTrait) == GetFarmIntervalMs(t) && GetNextFarmAtMs(NewTrait) == GetNextFarmAtMs(t)
  {
  }

  /** `initNextIfNeeded`: arm the collection deadline one interval ahead if it is not positive. */
  function InitNextIfNeeded(t: Trait, now: int): (r: Trait)
    ensures GetNextCollectAtMs(t) <= 0 ==> GetNextCollectAtMs(r) == now + GetIntervalMs(t)
    ensures GetNextCollectAtMs(t) > 0 ==> r == t
    ensures r.(nextCollectAtMs := t.nextCollectAtMs) == t
  {
    if GetNextCollectAtMs(t) <= 0 then t.(nextCollectAtMs := Some(now + GetIntervalMs(t))) else t
  }

  /** Arming twice at the same time is arming once. */
  lemma InitNextIdempotent(t: Trait, now: int)
    ensures InitNextIfNeeded(InitNextIfNeeded(t, now), now) == InitNextIfNeeded(t, now)
  {
  }

  /** `initFarmNextIfNeeded`: a non-positive farm deadline becomes now, so the first run is immediate. */
  function InitFarmNextIfNeeded(t: Trait, now: int): (r: Trait)
    ensures GetNextFarmAtMs(t) <= 0 ==> GetNextFarmAtMs(r) == now
    ensures GetNextFarmAtMs(t) > 0 ==> r == t
    ensures r.(nextFarmAtMs := t.nextFarmAtMs) == t
  {
    if GetNextFarmAtMs(t) <= 0 then t.(nextFarmAtMs := Some(now)) else t
  }

  lemma InitFarmNextIdempotent(t: Trait, now: int)
    ensures InitFarmNextIfNeeded(InitFarmNextIfNeeded(t, now), now) == InitFarmNextIfNeeded(t, now)
  {
  }
}

=== FILE: price_input.dfy ===
/**
 * MerchantPriceInputListener: a click on an item in the shop editor opens
 * an anvil in which the player types a price; confirming writes a price
 * line into the item's lore. Each player's editing context lives in a map
 * from the click until the anvil is closed.
 *
 * The lore edit appears twice: as the source writes it (lore only), and
 * with the price key set as well, which is what the shop's save reads;
 * the event handlers use the latter.
 */
module PriceInput {
  import opened Wrappers
  import opened Inventory
  import opened MerchantKeys
  import opened MerchantBuy
  import opened ShopStorage
  import opened Text
  import JavaInt
  import Store

  const ANVIL_TITLE: string := "§e가격 입력"
  /** The raw slot of the anvil's result. */
  const RESULT_SLOT: int := 2

  const EDIT_WORD: string := "편집"
  const MERCHANT_WORD: string := "상인"

  /** `isEditorTitle`: the colour-stripped title mentions both "편집" and "상인". */
  predicate IsEditorTitle(title: Option<string>) {
    title.Some? && Contains(StripColor(title.value), EDIT_WORD) && Contains(StripColor(title.value), MERCHANT_WORD)
  }

  /**
   * The shared "digits only, then `Integer.parseInt`" idiom: -1 when there
   * are no digits or they overflow an `int`, else their value.
   */
  function DigitsNumber(s: string): (r: int)
    ensures r >= -1
    ensures |KeepDigits(s)| == 0 ==> r == -1
    ensures |KeepDigits(s)| > 0 ==>
      r == (if DigitsValue(KeepDigits(s)) <= JavaInt.INT_MAX then DigitsValue(KeepDigits(s)) else -1)
  {
    var digits := KeepDigits(s);
    if |digits| == 0 then -1
    else
      var v := ParseDigits(digits);
      if v.Some? then v.value else -1
  }

  /** `parseNpcIdFromTitle`: every digit of the colour-stripped, trimmed title, read as one number. */
  function ParseNpcIdFromTitle(title: string): (r: int)
    ensures r >= -1
  {
    DigitsNumber(Trim(StripColor(title)))
  }

  /** `safeParseInt`: -1 for null, else the digits of the text as one number; a sign is ignored. */
  function SafeParseInt(s: Option<string>): (r: int)
    ensures s.None? ==> r == -1
    ensures s.Some? ==> r == DigitsNumber(s.value)
  {
    if s.None? then -1 else DigitsNumber(s.value)
  }

  /**
   * A sign is not a digit: any text reads the same with a '-' or a '+' in
   * front, so "-5" is the price 5 and passes the positivity check.
   */
  lemma SafeParseDropsSign(s: string)
    ensures SafeParseInt(Some("-" + s)) == SafeParseInt(Some(s))
    ensures SafeParseInt(Some("+" + s)) == SafeParseInt(Some(s))
  {
    KeepDigitsAppend("-", s);
    KeepDigitsAppend("+", s);
    KeepDigitsNone("-");
    KeepDigitsNone("+");
  }

  /** The stripped default editor title. */
  lemma {:induction false} DefaultEditorTitleStripped(n: int)
    requires n >= 0
    ensures StripColor(EDITOR_TITLE_PREFIX + DEFAULT_TITLE_PREFIX + IntToString(n)) == "[편집] " + ("상인 #" + IntToString(n))
  {
    var d := IntToString(n);
    assert SECTION !in d by {
      assert forall i :: 0 <= i < |d| ==> IsDigit(d[i]);
    }
    var tail := [SECTION, '6'] + ("상인 #" + d);
    assert EDITOR_TITLE_PREFIX + DEFAULT_TITLE_PREFIX + d == [SECTION, 'd'] + ("[편집] " + tail);
    assert StripColor(tail) == "상인 #" + d by {
      StripColorCode('6', "상인 #" + d);
      StripPlainPrefix("상인 #", d);
      assert StripColor(d) == d;
    }
    StripColorCode('d', "[편집] " + tail);
    StripPlainPrefix("[편집] ", tail);
  }

  /** The stripped default editor title mentions both words. */
  lemma {:induction false} DefaultEditorTitleWords(d: string)
    ensures Contains("[편집] " + ("상인 #" + d), EDIT_WORD)
    ensures Contains("[편집] " + ("상인 #" + d), MERCHANT_WORD)
  {
    var plain := "[편집] " + ("상인 #" + d);
    assert plain[1..][..2] == EDIT_WORD;
    ContainsInSuffix(plain, 1, EDIT_WORD);
    assert plain[5..][..2] == MERCHANT_WORD;
    ContainsInSuffix(plain, 5, MERCHANT_WORD);
  }

  /** Reading the digits of the stripped default editor title gives the number's digits. */
  lemma {:induction false} DefaultEditorTitleDigits(n: int)
    requires n >= 0
    ensures KeepDigits(Trim("[편집] " + ("상인 #" + IntToString(n)))) == IntToString(n)
  {
    var d := IntToString(n);
    var plain := "[편집] " + ("상인 #" + d);
    assert plain[0] == '[' && plain[|plain| - 1] == d[|d| - 1];
    TrimUnchanged(plain);
    assert forall i :: 0 <= i < |"[편집] 상인 #"| ==> !IsDigit("[편집] 상인 #"[i]);
    assert plain == "[편집] 상인 #" + d;
    KeepDigitsNone("[편집] 상인 #");
    KeepDigitsAppend("[편집] 상인 #", d);
  }

  /**
   * The editor of an NPC whose shop has the default title is recognised,
   * and the NPC's id is read back from its title.
   */
  lemma DefaultEditorTitleRoundTrip(n: int)
    requires 0 <= n <= JavaInt.INT_MAX
    ensures IsEditorTitle(Some(EditorTitle(map[], n)))
    ensures ParseNpcIdFromTitle(EditorTitle(map[], n)) == n
  {
    assert EditorTitle(map[], n) == EDITOR_TITLE_PREFIX + DEFAULT_TITLE_PREFIX + IntToString(n);
    DefaultEditorTitleStripped(n);
    DefaultEditorTitleWords(IntToString(n));
    DefaultEditorTitleDigits(n);
  }

  /** A shop window with the default title is not taken for an editor. */
  lemma DefaultShopTitleIsNoEditor(n: int)
    requires n >= 0
    ensures !IsEditorTitle(Some(GetTitle(map[], n)))
  {
    var d := IntToString(n);
    assert GetTitle(map[], n) == [SECTION, '6'] + ("상인 #" + d);
    StripColorCode('6', "상인 #" + d);
    assert SECTION !in d by {
      assert forall i :: 0 <= i < |d| ==> IsDigit(d[i]);
    }
    StripPlainPrefix("상인 #", d);
    var plain := "상인 #" + d;
    assert StripColor(d) == d;
    assert '편' !in plain by {
      assert forall i :: 0 <= i < |d| ==> IsDigit(d[i]);
    }
    if Contains(plain, EDIT_WORD) {
      ContainsFirstChar(plain, EDIT_WORD);
    }
  }

  // ---------------------------------------------------------------
  // applyPriceLore
  // ---------------------------------------------------------------

  /** The lore line the anvil writes for `price`. */
  function AnvilLine(price: int): string {
    "§a가격: §e" + IntToString(price) + " §a에메랄드"
  }

  /**
   * `applyPriceLore` as written: drop every line mentioning "가격" and
   * append the new price line. The price key is not touched.
   */
  function ApplyPriceLore(item: Item, price: int): (r: Item)
    ensures item.material == Air ==> r == item
    ensures item.material != Air ==>
      && r.material == item.material && r.amount == item.amount
      && r.meta.Some? && r.meta.value.price == MetaOf(item).value.price
      && r.meta.value.lore.Some?
      && var lore := r.meta.value.lore.value;
      && |lore| > 0 && lore[|lore| - 1] == AnvilLine(price)
      && lore[..|lore| - 1] == KeepLines(MetaOf(item).value.lore.GetOr([]), NoPriceMention)
      && forall i :: 0 <= i < |lore| - 1 ==> !MentionsPrice(lore[i])
  {
    if item.material == Air then item
    else
      var meta := MetaOf(item).value;
      var kept := KeepLines(meta.lore.GetOr([]), NoPriceMention);
      var lore := kept + [AnvilLine(price)];
      assert forall i :: 0 <= i < |lore| - 1 ==> lore[i] in kept;
      item.(meta := Some(meta.(lore := Some(lore))))
  }

  /** As written, the anvil leaves the stored price as it was. */
  lemma AnvilKeepsStoredPrice(item: Item, price: int)
    requires item.material != Air
    ensures GetPrice(Some(ApplyPriceLore(item, price))) == GetPrice(Some(item))
  {
  }

  /**
   * The consequence: the save that runs when the editor closes reads the
   * price key, so a stack priced at 12 in the anvil and never priced
   * before is not saved at all, and one that was priced 5 stays at 5.
   */
  lemma AnvilPriceLostOnSave()
    ensures var unpriced := ApplyPriceLore(Item(Other("diamond"), 1, None), 12);
      EditorEntries([Some(unpriced)], 1) == []
    ensures var stack := Item(Other("diamond"), 1, Some(Meta(Some(5), None)));
      var repriced := ApplyPriceLore(stack, 12);
      EditorEntries([Some(repriced)], 1) == [RawEntry(Some(0), Some(5), Some(repriced))]
  {
    var unpriced := ApplyPriceLore(Item(Other("diamond"), 1, None), 12);
    assert GetPrice(Some(unpriced)) == -1;
    assert EditorEntries([Some(unpriced)], 0) == [];
  }

  /** The lore edit together with the price key the shop's save reads. */
  function ApplyPriceLoreAndKey(item: Item, price: int): (r: Item)
    ensures item.material == Air ==> r == item
    ensures item.material != Air ==>
      && r.meta.Some? && r.meta.value.lore == ApplyPriceLore(item, price).meta.value.lore
      && r.meta.value.price == Some(price)
      && r.material == item.material && r.amount == item.amount
  {
    var r := ApplyPriceLore(item, price);
    if item.material == Air then r else r.(meta := Some(r.meta.value.(price := Some(price))))
  }

  /**
   * With the key set, the price entered in the anvil is the price stored,
   * and a positive one survives the editor's save and the shop's load.
   */
  lemma AnvilPriceSaved(contents: seq<ItemSlot>, k: nat, item: Item, price: int)
    requires k < |contents| && k < MAX_SLOTS && item.material != Air && price > 0
    ensures GetPrice(Some(ApplyPriceLoreAndKey(item, price))) == price
    ensures var edited := contents[k := Some(ApplyPriceLoreAndKey(item, price))];
      var shop := LoadEntries(EditorEntries(edited, |edited|));
      k in shop && shop[k] == ShopItem(ApplyPriceLoreAndKey(item, price), price)
  {
    var edited := contents[k := Some(ApplyPriceLoreAndKey(item, price))];
    SaveThenLoad(edited, |edited|, k);
  }

  // ---------------------------------------------------------------
  // The editing context
  // ---------------------------------------------------------------

  /** What the player is pricing: which shop, which editor slot, and the clicked stack. */
  datatype EditContext = EditContext(npcId: int, slot: int, baseItem: Item)

  type Editing = map<Store.Uuid, EditContext>

  /** Every context holds a real stack: the click handler never records an empty one. */
  predicate ContextsHoldStacks(ed: Editing) {
    forall u :: u in ed ==> ed[u].baseItem.material != Air
  }

  /** Where a click landed: outside any inventory, in the window's top part, or in the player's own. */
  datatype ClickArea = Outside | Top | Bottom

  /**
   * `onEditorClick`: a click in the top part of an editor is cancelled;
   * if it hits a stack and the title yields an id, the player's context
   * is (re)set and the anvil opens.
   */
  function OnEditorClick(ed: Editing, p: Store.Uuid, title: Option<string>, area: ClickArea, clicked: ItemSlot, slot: int): (r: (Editing, bool))
    ensures r.1 <==> IsEditorTitle(title) && area == Top
    ensures r.0 != ed ==> r.1 && !IsAirOrNull(clicked) && ParseNpcIdFromTitle(title.value) >= 0
    ensures r.1 && !IsAirOrNull(clicked) && ParseNpcIdFromTitle(title.value) >= 0 ==>
      r.0 == ed[p := EditContext(ParseNpcIdFromTitle(title.value), slot, clicked.value)]
    ensures ContextsHoldStacks(ed) ==> ContextsHoldStacks(r.0)
  {
    if !IsEditorTitle(title) || area != Top then (ed, false)
    else if IsAirOrNull(clicked) then (ed, true)
    else
      var npcId := ParseNpcIdFromTitle(title.value);
      if npcId < 0 then (ed, true) else (ed[p := EditContext(npcId, slot, clicked.value)], true)
  }

  /** What the anvil's result slot shows while the player types. */
  datatype Preview = Untouched | Cleared | Refused | Shows(price: int)

  /**
   * `onPrepareAnvil`: only for a player with a context in the price
   * anvil; `text` is None when the rename text cannot be read.
   */
  function OnPrepareAnvil(ed: Editing, p: Store.Uuid, title: Option<string>, text: Option<Option<string>>): (r: Preview)
    ensures p !in ed || title != Some(ANVIL_TITLE) <==> r.Untouched?
    ensures r.Cleared? <==> p in ed && title == Some(ANVIL_TITLE) && text.None?
    ensures r.Shows? ==> r.price > 0 && r.price == SafeParseInt(text.value)
    ensures r.Refused? ==> SafeParseInt(text.value) <= 0
  {
    if p !in ed || title != Some(ANVIL_TITLE) then Untouched
    else if text.None? then Cleared
    else
      var price := SafeParseInt(text.value);
      if price <= 0 then Refused else Shows(price)
  }

  datatype AnvilOutcome = NotOurs | OtherSlot | Unreadable | NotPositive | PriceSet(price: int)

  /** `onClose`: leaving the price anvil ends the player's context; other windows change nothing. */
  function OnClose(ed: Editing, p: Store.Uuid, title: Option<string>): (r: Editing)
    ensures title == Some(ANVIL_TITLE) ==> p !in r && forall q :: q in ed && q != p ==> q in r && r[q] == ed[q]
    ensures title == Some(ANVIL_TITLE) ==> r.Keys == ed.Keys - {p}
    ensures title != Some(ANVIL_TITLE) ==> r == ed
  {
    if title == Some(ANVIL_TITLE) then ed - {p} else ed
  }

  /**
   * `onAnvilClick`: in the price anvil every click is cancelled, and only
   * the result slot with a positive price confirms. Confirming writes
   * the priced stack into the editor slot and closes the anvil, whose
   * close handler drops the context. `editor` is the editor window's
   * contents; the stack is written with its price key (see
   * `ApplyPriceLoreAndKey`).
   */
  function OnAnvilClick(ed: Editing, p: Store.Uuid, title: Option<string>, rawSlot: int, isAnvil: bool,
                        text: Option<Option<string>>, editor: seq<ItemSlot>): (r: (AnvilOutcome, Editing, seq<ItemSlot>))
    ensures !r.0.PriceSet? ==> r.1 == ed && r.2 == editor
    ensures r.0.NotOurs? <==> p !in ed || title != Some(ANVIL_TITLE)
    ensures r.0.PriceSet? ==>
      && p in ed && title == Some(ANVIL_TITLE) && rawSlot == RESULT_SLOT && isAnvil && text.Some?
      && r.0.price > 0 && r.0.price == SafeParseInt(text.value)
      && r.1 == OnClose(ed, p, Some(ANVIL_TITLE))
      && |r.2| == |editor|
      && (0 <= ed[p].slot < |editor| ==> r.2[ed[p].slot] == Some(ApplyPriceLoreAndKey(ed[p].baseItem, r.0.price)))
      && (0 <= ed[p].slot < |editor| && ed[p].baseItem.material != Air ==> GetPrice(r.2[ed[p].slot]) == r.0.price)
      && forall i :: 0 <= i < |editor| && i != ed[p].slot ==> r.2[i] == editor[i]
    ensures p in ed && title == Some(ANVIL_TITLE) && rawSlot != RESULT_SLOT ==> r.0.OtherSlot?
    ensures r.0.OtherSlot? <==> p in ed && title == Some(ANVIL_TITLE) && (rawSlot != RESULT_SLOT || !isAnvil)
    ensures r.0.Unreadable? <==>
      p in ed && title == Some(ANVIL_TITLE) && rawSlot == RESULT_SLOT && isAnvil && text.None?
    ensures r.0.NotPositive? <==>
      && p in ed && title == Some(ANVIL_TITLE) && rawSlot == RESULT_SLOT && isAnvil
      && text.Some? && SafeParseInt(text.value) <= 0
    ensures r.0.PriceSet? <==>
      && p in ed && title == Some(ANVIL_TITLE) && rawSlot == RESULT_SLOT && isAnvil
      && text.Some? && SafeParseInt(text.value) > 0
  {
    if p !in ed || title != Some(ANVIL_TITLE) then (NotOurs, ed, editor)
    else if rawSlot != RESULT_SLOT || !isAnvil then (OtherSlot, ed, editor)
    else if text.None? then (Unreadable, ed, editor)
    else
      var price := SafeParseInt(text.value);
      if price <= 0 then (NotPositive, ed, editor)
      else
        var ctx := ed[p];
        var stack := ApplyPriceLoreAndKey(ctx.baseItem, price);
        var editor' := if 0 <= ctx.slot < |editor| then editor[ctx.slot := Some(stack)] else editor;
        (PriceSet(price), OnClose(ed, p, Some(ANVIL_TITLE)), editor')
  }
}

=== FILE: ranks.dfy ===
/** The seven-level rank order and its saturating promote/demote steps. */
module Ranks {
  import opened Wrappers

  /** Declared highest first, as in the source enum. */
  datatype Rank = King | GrandDuke | Duke | Count | Baron | Knight | Peasant

  /** Position in declaration order: KING is 0 and PEASANT is 6. */
  function Ordinal(r: Rank): nat {
    match r
    case King => 0
    case GrandDuke => 1
    case Duke => 2
    case Count => 3
    case Baron => 4
    case Knight => 5
    case Peasant => 6
  }

  lemma OrdinalInjective(a: Rank, b: Rank)
    ensures Ordinal(a) == Ordinal(b) ==> a == b
    ensures Ordinal(a) <= 6
  {
  }

  /** One step toward KING; KING stays KING and a null rank reads as PEASANT. */
  function Promote(cur: Option<Rank>): (r: Rank)
    ensures cur.None? ==> r == Peasant
    ensures cur == Some(King) ==> r == King
    ensures cur.Some? && cur.value != King ==> Ordinal(r) + 1 == Ordinal(cur.value)
  {
    match cur
    case None => Peasant
    case Some(c) =>
      match c
      case Peasant => Knight
      case Knight => Baron
      case Baron => Count
      case Count => Duke
      case Duke => GrandDuke
      case GrandDuke => King
      case King => King
  }

  /** One step toward PEASANT; PEASANT stays PEASANT and a null rank reads as PEASANT. */
  function Demote(cur: Option<Rank>): (r: Rank)
    ensures cur.None? ==> r == Peasant
    ensures cur == Some(Peasant) ==> r == Peasant
    ensures cur.Some? && cur.value != Peasant ==> Ordinal(r) == Ordinal(cur.value) + 1
  {
    match cur
    case None => Peasant
    case Some(c) =>
      match c
      case King => GrandDuke
      case GrandDuke => Duke
      case Duke => Count
      case Count => Baron
      case Baron => Knight
      case Knight => Peasant
      case Peasant => Peasant
  }

  /** Promote never lowers a rank, demote never raises one; both move iff not at their bound. */
  lemma PromoteDemoteMonotone(r: Rank)
    ensures Ordinal(Promote(Some(r))) <= Ordinal(r)
    ensures Ordinal(Demote(Some(r))) >= Ordinal(r)
    ensures Promote(Some(r)) == r <==> r == King
    ensures Demote(Some(r)) == r <==> r == Peasant
  {
  }

  /** The two steps undo each other away from the bounds. */
  lemma PromoteDemoteInverse(r: Rank)
    ensures r != King ==> Demote(Some(Promote(Some(r)))) == r
    ensures r != Peasant ==> Promote(Some(Demote(Some(r)))) == r
  {
    if r != King {
      OrdinalInjective(Demote(Some(Promote(Some(r)))), r);
    }
    if r != Peasant {
      OrdinalInjective(Promote(Some(Demote(Some(r)))), r);
    }
  }

  /** Korean display name of a rank. */
  function DisplayNameKo(r: Rank): (s: string)
    ensures |s| > 0
  {
    match r
    case King => "왕"
    case GrandDuke => "대공"
    case Duke => "공작"
    case Count => "백작"
    case Baron => "남작"
    case Knight => "기사"
    case Peasant => "평민"
  }

  lemma DisplayNameKoInjective(a: Rank, b: Rank)
    ensures DisplayNameKo(a) == DisplayNameKo(b) <==> a == b
  {
  }

  /** `Enum.name()`: the constant's identifier, as stored in the member table. */
  function Name(r: Rank): string {
    match r
    case King => "KING"
    case GrandDuke => "GRAND_DUKE"
    case Duke => "DUKE"
    case Count => "COUNT"
    case Baron => "BARON"
    case Knight => "KNIGHT"
    case Peasant => "PEASANT"
  }

  /** `Rank.valueOf(s)`: exact, case-sensitive match of a constant's name; None when it throws. */
  function ValueOf(s: Option<string>): (r: Option<Rank>)
    ensures r.Some? ==> s == Some(Name(r.value))
    ensures r.None? ==> forall k: Rank :: s != Some(Name(k))
  {
    match s
    case None => None
    case Some(t) =>
      if t == "KING" then Some(King)
      else if t == "GRAND_DUKE" then Some(GrandDuke)
      else if t == "DUKE" then Some(Duke)
      else if t == "COUNT" then Some(Count)
      else if t == "BARON" then Some(Baron)
      else if t == "KNIGHT" then Some(Knight)
      else if t == "PEASANT" then Some(Peasant)
      else None
  }

  /** Storing a rank by name and reading it back yields the same rank. */
  lemma ValueOfName(r: Rank)
    ensures ValueOf(Some(Name(r))) == Some(r)
  {
  }
}

=== FILE: shop_storage.dfy ===
/**
 * MerchantShopStorage over an abstract configuration: per NPC a title, a
 * size and an ordered list of item entries, as the YAML file holds them
 * under "npc-<id>". Reading applies the defaults and filters; saving an
 * editor inventory replaces the NPC's entries with the priced items.
 */
module ShopStorage {
  import opened Wrappers
  import opened Inventory
  import opened MerchantKeys
  import opened Text

  /** Slots of a shop inventory are numbered below this. */
  const MAX_SLOTS: int := 54
  const DEFAULT_SIZE: int := 54
  const DEFAULT_TITLE_PREFIX: string := "\U{A7}6상인 #"  // U+00A7 is the section sign

  /**
   * One entry under "npc-<id>.items": the `slot` and `price` integers and
   * the item, each None when absent or unreadable (a non-number, or an
   * item section that does not deserialize).
   */
  datatype RawEntry = RawEntry(slot: Option<int>, price: Option<int>, item: Option<Item>)

  /** The section "npc-<id>": title, size and the item entries in key order. */
  datatype ShopSection = ShopSection(title: Option<string>, size: Option<int>, items: seq<RawEntry>)

  type Config = map<int, ShopSection>

  /** A loaded shop entry. */
  datatype ShopItem = ShopItem(item: Item, price: int)

  /** The mark an editor window's title starts with. */
  const EDITOR_MARK: string := [SECTION, 'd'] + "[편집]"
  const EDITOR_TITLE_PREFIX: string := EDITOR_MARK + " "

  /** The title the shop editor is opened with (MerchantService.openEditor). */
  function EditorTitle(cfg: Config, npcId: int): string {
    EDITOR_TITLE_PREFIX + GetTitle(cfg, npcId)
  }

  /** `getTitle`: the stored title, else "상인 #" in gold (colour code 6) followed by the id. */
  function GetTitle(cfg: Config, npcId: int): (t: string)
    ensures npcId in cfg && cfg[npcId].title.Some? ==> t == cfg[npcId].title.value
    ensures npcId !in cfg || cfg[npcId].title.None? ==> StartsWith(t, DEFAULT_TITLE_PREFIX)
  {
    if npcId in cfg && cfg[npcId].title.Some? then cfg[npcId].title.value
    else
      assert (DEFAULT_TITLE_PREFIX + IntToString(npcId))[..|DEFAULT_TITLE_PREFIX|] == DEFAULT_TITLE_PREFIX;
      DEFAULT_TITLE_PREFIX + IntToString(npcId)
  }

  function Clamp(v: int, lo: int, hi: int): int
    requires lo <= hi
  {
    if v < lo then lo else if v > hi then hi else v
  }

  /**
   * `getSize`: the stored size (54 when absent), clamped to [9, 54] and
   * rounded up to a multiple of 9: the smallest multiple of 9 not below
   * the clamped value.
   */
  function GetSize(cfg: Config, npcId: int): (n: int)
    ensures n % 9 == 0 && 9 <= n <= 54
    ensures var c := Clamp(if npcId in cfg then cfg[npcId].size.GetOr(DEFAULT_SIZE) else DEFAULT_SIZE, 9, 54);
      c <= n < c + 9
  {
    var raw := if npcId in cfg then cfg[npcId].size.GetOr(DEFAULT_SIZE) else DEFAULT_SIZE;
    var size := Clamp(raw, 9, 54);
    (size + 8) / 9 * 9
  }

  /** The size a configuration would hold for the NPC. */
  function StoredSize(cfg: Config, npcId: int): int {
    if npcId in cfg then cfg[npcId].size.GetOr(DEFAULT_SIZE) else DEFAULT_SIZE
  }

  /** Every legal chest size reads back as itself, and a missing size reads as 54. */
  lemma GetSizeKeepsChestSizes(cfg: Config, npcId: int)
    ensures StoredSize(cfg, npcId) in {9, 18, 27, 36, 45, 54} ==> GetSize(cfg, npcId) == StoredSize(cfg, npcId)
    ensures npcId !in cfg || cfg[npcId].size.None? ==> GetSize(cfg, npcId) == 54
  {
  }

  /** Reading a larger stored size never yields a smaller shop. */
  lemma {:induction false} GetSizeMonotone(cfg: Config, npcId: int, size1: int, size2: int)
    requires npcId in cfg && size1 <= size2
    ensures GetSize(cfg[npcId := cfg[npcId].(size := Some(size1))], npcId)
         <= GetSize(cfg[npcId := cfg[npcId].(size := Some(size2))], npcId)
  {
    var c1 := Clamp(size1, 9, 54);
    var c2 := Clamp(size2, 9, 54);
    assert c1 <= c2;
    DivMonotone(c1 + 8, c2 + 8);
  }

  lemma DivMonotone(a: int, b: int)
    requires 0 <= a <= b
    ensures a / 9 * 9 <= b / 9 * 9
  {
    assert a / 9 <= b / 9;
  }

  // ---------------------------------------------------------------
  // loadItems
  // ---------------------------------------------------------------

  /** `loadItems` keeps an entry iff its slot is in [0, 54), its price positive, and its item real. */
  predicate Kept(e: RawEntry) {
    && 0 <= e.slot.GetOr(-1) < MAX_SLOTS
    && e.price.GetOr(-1) > 0
    && !IsAirOrNull(e.item)
  }

  /** All shop items are well placed and priced. */
  predicate ShopValid(m: map<int, ShopItem>) {
    forall k :: k in m ==> 0 <= k < MAX_SLOTS && m[k].price > 0 && m[k].item.material != Air
  }

  /** The loop of `loadItems` over entries in key order; a later entry for the same slot overwrites an earlier one. */
  function LoadEntries(es: seq<RawEntry>): (m: map<int, ShopItem>)
    ensures ShopValid(m)
    ensures forall k :: k in m <==> exists i :: 0 <= i < |es| && Kept(es[i]) && es[i].slot.value == k
    decreases |es|
  {
    if |es| == 0 then map[]
    else
      var m := LoadEntries(es[..|es| - 1]);
      var e := es[|es| - 1];
      assert forall i :: 0 <= i < |es| - 1 ==> es[..|es| - 1][i] == es[i];
      if Kept(e) then m[e.slot.value := ShopItem(e.item.value, e.price.value)] else m
  }

  /** `loadItems(npcId)`: empty when the NPC has no section. */
  function LoadItems(cfg: Config, npcId: int): (m: map<int, ShopItem>)
    ensures ShopValid(m)
    ensures npcId !in cfg ==> m == map[]
  {
    if npcId in cfg then LoadEntries(cfg[npcId].items) else map[]
  }

  /** The value loaded for a slot comes from the last kept entry naming that slot. */
  lemma {:induction false} LoadedIsLastKept(es: seq<RawEntry>, k: int)
    requires k in LoadEntries(es)
    ensures exists i ::
      && 0 <= i < |es| && Kept(es[i]) && es[i].slot.value == k
      && LoadEntries(es)[k] == ShopItem(es[i].item.value, es[i].price.value)
      && forall j :: i < j < |es| ==> !(Kept(es[j]) && es[j].slot.value == k)
    decreases |es|
  {
    var init := es[..|es| - 1];
    var e := es[|es| - 1];
    if Kept(e) && e.slot.value == k {
      var i := |es| - 1;
      assert LoadEntries(es)[k] == ShopItem(es[i].item.value, es[i].price.value);
    } else {
      assert LoadEntries(es) == if Kept(e) then LoadEntries(init)[e.slot.value := ShopItem(e.item.value, e.price.value)] else LoadEntries(init);
      assert k in LoadEntries(init) && LoadEntries(es)[k] == LoadEntries(init)[k];
      LoadedIsLastKept(init, k);
      var i :| 0 <= i < |init| && Kept(init[i]) && init[i].slot.value == k
        && LoadEntries(init)[k] == ShopItem(init[i].item.value, init[i].price.value)
        && forall j :: i < j < |init| ==> !(Kept(init[j]) && init[j].slot.value == k);
      assert es[i] == init[i];
      forall j | i < j < |es|
        ensures !(Kept(es[j]) && es[j].slot.value == k)
      {
        if j < |es| - 1 {
          assert es[j] == init[j];
        }
      }
    }
  }

  // ---------------------------------------------------------------
  // saveFromEditorInventory
  // ---------------------------------------------------------------

  /** An editor slot is saved iff it holds a real item whose stored price is positive. */
  predicate Saved(it: ItemSlot) {
    !IsAirOrNull(it) && GetPrice(it) > 0
  }

  /** `e` was written for a saved slot of `contents`, with that slot's item and stored price. */
  predicate EntryFor(contents: seq<ItemSlot>, e: RawEntry) {
    && e.slot.Some? && 0 <= e.slot.value < |contents|
    && e.item == contents[e.slot.value]
    && e.price == Some(GetPrice(contents[e.slot.value]))
    && Saved(contents[e.slot.value])
  }

  /** The entries' slots strictly increase. */
  predicate SlotsIncrease(es: seq<RawEntry>) {
    forall i, j :: 0 <= i < j < |es| && es[i].slot.Some? && es[j].slot.Some? ==> es[i].slot.value < es[j].slot.value
  }

  /**
   * The entries written for the first `n` slots of `contents`, under
   * consecutive indices: one per saved slot, in slot order.
   */
  function EditorEntries(contents: seq<ItemSlot>, n: nat): (es: seq<RawEntry>)
    requires n <= |contents|
    ensures |es| <= n
    ensures forall i :: 0 <= i < |es| ==> EntryFor(contents, es[i]) && es[i].slot.value < n
  {
    if n == 0 then []
    else
      var es := EditorEntries(contents, n - 1);
      var it := contents[n - 1];
      if Saved(it) then es + [RawEntry(Some(n - 1), Some(GetPrice(it)), it)] else es
  }

  /** The entries come in slot order. */
  lemma {:induction false} EditorEntriesIncrease(contents: seq<ItemSlot>, n: nat)
    requires n <= |contents|
    ensures SlotsIncrease(EditorEntries(contents, n))
  {
    if n > 0 {
      EditorEntriesIncrease(contents, n - 1);
    }
  }

  /** Every saved slot below `n` has an entry. */
  lemma {:induction false} EditorEntriesCover(contents: seq<ItemSlot>, n: nat, s: int)
    requires n <= |contents| && 0 <= s < n && Saved(contents[s])
    ensures exists i :: 0 <= i < |EditorEntries(contents, n)| && EditorEntries(contents, n)[i].slot == Some(s)
  {
    var es := EditorEntries(contents, n - 1);
    var all := EditorEntries(contents, n);
    assert Saved(contents[n - 1]) ==> all == es + [RawEntry(Some(n - 1), Some(GetPrice(contents[n - 1])), contents[n - 1])];
    assert !Saved(contents[n - 1]) ==> all == es;
    if s == n - 1 {
      assert all[|es|].slot == Some(s);
    } else {
      EditorEntriesCover(contents, n - 1, s);
      var i :| 0 <= i < |es| && es[i].slot == Some(s);
      assert all[i] == es[i];
    }
  }

  function MinInt(a: int, b: int): int {
    if a <= b then a else b
  }

  /**
   * `saveFromEditorInventory`: write the title and size, clear the old
   * entries, then walk the first `min(|contents|, size)` slots and append
   * an entry for each slot holding a real item with a positive price.
   */
  method SaveFromEditorInventory(cfg: Config, npcId: int, size: int, title: string, contents: seq<ItemSlot>)
    returns (r: Config)
    ensures r.Keys == cfg.Keys + {npcId}
    ensures forall id :: id in cfg && id != npcId ==> r[id] == cfg[id]
    ensures r[npcId].title == Some(title) && r[npcId].size == Some(size)
    ensures var n := if size < 0 then 0 else MinInt(|contents|, size);
      r[npcId].items == EditorEntries(contents, n)
  {
    var items: seq<RawEntry> := [];
    var n := if size < 0 then 0 else MinInt(|contents|, size);
    var slot := 0;
    while slot < n
      invariant 0 <= slot <= n <= |contents|
      invariant items == EditorEntries(contents, slot)
    {
      var it := contents[slot];
      if IsAirOrNull(it) {
        slot := slot + 1;
        continue;
      }
      var price := GetPrice(it);
      if price <= 0 {
        slot := slot + 1;
        continue;
      }
      items := items + [RawEntry(Some(slot), Some(price), it)];
      slot := slot + 1;
    }
    r := cfg[npcId := ShopSection(Some(title), Some(size), items)];
  }

  /**
   * Saving then loading: the shop holds exactly the saved slots below 54
   * (and below the editor size), each with its item and stored price;
   * nothing of the NPC's previous entries survives.
   */
  lemma {:induction false} SaveThenLoad(contents: seq<ItemSlot>, n: nat, k: int)
    requires n <= |contents|
    ensures var m := LoadEntries(EditorEntries(contents, n));
      && (k in m <==> 0 <= k < MinInt(n, MAX_SLOTS) && Saved(contents[k]))
      && (k in m ==> m[k] == ShopItem(contents[k].value, GetPrice(contents[k])))
  {
    var es := EditorEntries(contents, n);
    var m := LoadEntries(es);
    if 0 <= k < MinInt(n, MAX_SLOTS) && Saved(contents[k]) {
      EditorEntriesCover(contents, n, k);
      var i :| 0 <= i < |es| && es[i].slot == Some(k);
      assert Kept(es[i]);
    }
    if k in m {
      LoadedIsLastKept(es, k);
      var i :| 0 <= i < |es| && Kept(es[i]) && es[i].slot.value == k
        && m[k] == ShopItem(es[i].item.value, es[i].price.value);
    }
  }
}

=== FILE: store.dfy ===
/**
 * The membership / territory / serf-meta store behind FeudalService, as
 * tables of rows. A missing row reads as the documented default; some
 * setters insert a row when it is missing (upserts), the others are
 * UPDATE statements that do nothing when the row is absent.
 */
module Store {
  import opened Wrappers
  import opened Ranks
  import opened Jobs

  /** A player's UUID in its string form (the key of every per-player table). */
  type Uuid = string

  /** feudal_member: rank and job are stored by name and may be null or unparsable. */
  datatype MemberRow = MemberRow(familyId: int, rank: Option<string>, job: Option<string>, serf: bool)

  /** feudal_npc: the family column is nullable. */
  datatype NpcRow = NpcRow(familyId: Option<int>, serf: bool, job: Option<string>)

  /** feudal_land: one claim per family. */
  datatype FamilyLand = FamilyLand(familyId: int, world: string, x: int, y: int, z: int, radius: int, enabled: bool)

  /** feudal_serf_meta: five numeric columns, a new row starts all zero. */
  datatype SerfMeta = SerfMeta(nextDueAt: int, missCount: int, discountUntil: int, deliverPoints: int, lastWarnAt: int)

  datatype MetaColumn = NextDueAt | MissCount | DiscountUntil | DeliverPoints | LastWarnAt

  /**
   * The tables. `families[i]` is the name of the family whose generated id
   * is i + 1; `lands` is in storage order, which is the order the land
   * listing returns.
   */
  datatype Store = Store(
    families: seq<string>,
    members: map<Uuid, MemberRow>,
    npcs: map<int, NpcRow>,
    lands: seq<FamilyLand>,
    serfMeta: map<Uuid, SerfMeta>)

  const EmptyStore: Store := Store([], map[], map[], [], map[])

  // ---------------------------------------------------------------
  // Families and player members
  // ---------------------------------------------------------------

  function FamilyIdOf(s: Store, u: Uuid): Option<int> {
    if u in s.members then Some(s.members[u].familyId) else None
  }

  /** `getFamilyIdByName`: the first family with that name. */
  function FamilyIdByName(s: Store, name: string): (r: Option<int>)
    ensures r.None? <==> name !in s.families
    ensures r.Some? ==> 1 <= r.value <= |s.families| && s.families[r.value - 1] == name
    ensures r.Some? ==> forall j :: 0 <= j < r.value - 1 ==> s.families[j] != name
    decreases |s.families|
  {
    FirstIndex(s.families, name, 0)
  }

  function FirstIndex(names: seq<string>, name: string, from: nat): (r: Option<int>)
    requires from <= |names|
    requires forall j :: 0 <= j < from ==> names[j] != name
    ensures r.None? <==> name !in names
    ensures r.Some? ==> from + 1 <= r.value <= |names| && names[r.value - 1] == name
    ensures r.Some? ==> forall j :: 0 <= j < r.value - 1 ==> names[j] != name
    decreases |names| - from
  {
    if from == |names| then None
    else if names[from] == name then Some(from + 1)
    else FirstIndex(names, name, from + 1)
  }

  function FamilyNameById(s: Store, id: int): (name: string)
    ensures 1 <= id <= |s.families| ==> name == s.families[id - 1]
    ensures name in s.families || name == "UNKNOWN"
  {
    if 1 <= id <= |s.families| then s.families[id - 1] else "UNKNOWN"
  }

  /** `getRank`: PEASANT for a missing row or an unparsable stored name. */
  function GetRank(s: Store, u: Uuid): Rank {
    if u !in s.members then Peasant else Ranks.ValueOf(s.members[u].rank).GetOr(Peasant)
  }

  /** `getJob`: NONE for a missing row or an unparsable stored name. */
  function GetJob(s: Store, u: Uuid): Job {
    if u !in s.members then NoJob else Jobs.ValueOf(s.members[u].job).GetOr(NoJob)
  }

  function IsSerf(s: Store, u: Uuid): bool {
    u in s.members && s.members[u].serf
  }

  /** Reads of an absent member give the unaffiliated defaults. */
  lemma AbsentMemberDefaults(s: Store, u: Uuid)
    requires u !in s.members
    ensures FamilyIdOf(s, u).None? && GetRank(s, u) == Peasant && GetJob(s, u) == NoJob && !IsSerf(s, u)
  {
  }

  /** A stored name that does not parse reads as the default. */
  lemma UnparsableReadsAsDefault(s: Store, u: Uuid)
    requires u in s.members
    requires forall r: Rank :: s.members[u].rank != Some(Ranks.Name(r))
    requires forall j: Job :: s.members[u].job != Some(Jobs.Name(j))
    ensures GetRank(s, u) == Peasant && GetJob(s, u) == NoJob
  {
  }

  /**
   * `setMember`: insert a row, or overwrite only family and rank of an
   * existing one. A new row has a null job (read as NONE) and serf off.
   */
  function SetMember(s: Store, u: Uuid, familyId: int, rank: Rank): (r: Store)
    ensures FamilyIdOf(r, u) == Some(familyId) && GetRank(r, u) == rank
    ensures u in s.members ==> r.members[u].job == s.members[u].job && r.members[u].serf == s.members[u].serf
    ensures u !in s.members ==> GetJob(r, u) == NoJob && !IsSerf(r, u)
    ensures r.members.Keys == s.members.Keys + {u}
    ensures forall v :: v in s.members && v != u ==> r.members[v] == s.members[v]
    ensures r.(members := s.members) == s
  {
    Ranks.ValueOfName(rank);
    var row :=
      if u in s.members then s.members[u].(familyId := familyId, rank := Some(Ranks.Name(rank)))
      else MemberRow(familyId, Some(Ranks.Name(rank)), None, false);
    s.(members := s.members[u := row])
  }

  /** `setJob`: an UPDATE; nothing happens when the member row is absent. */
  function SetJob(s: Store, u: Uuid, job: Job): (r: Store)
    ensures u !in s.members ==> r == s
    ensures u in s.members ==> GetJob(r, u) == job && IsSerf(r, u) == IsSerf(s, u)
    ensures u in s.members ==> FamilyIdOf(r, u) == FamilyIdOf(s, u) && GetRank(r, u) == GetRank(s, u)
    ensures r.members.Keys == s.members.Keys
    ensures forall v :: v in s.members && v != u ==> r.members[v] == s.members[v]
    ensures r.(members := s.members) == s
  {
    Jobs.ValueOfName(job);
    if u in s.members then s.(members := s.members[u := s.members[u].(job := Some(Jobs.Name(job)))])
    else s
  }

  /** `setSerf`: an UPDATE of the serf flag alone; the job is left as it was. */
  function SetSerf(s: Store, u: Uuid, serf: bool): (r: Store)
    ensures u !in s.members ==> r == s
    ensures u in s.members ==> IsSerf(r, u) == serf && GetJob(r, u) == GetJob(s, u)
    ensures u in s.members ==> FamilyIdOf(r, u) == FamilyIdOf(s, u) && GetRank(r, u) == GetRank(s, u)
    ensures r.members.Keys == s.members.Keys
    ensures forall v :: v in s.members && v != u ==> r.members[v] == s.members[v]
    ensures r.(members := s.members) == s
  {
    if u in s.members then s.(members := s.members[u := s.members[u].(serf := serf)]) else s
  }

  /**
   * `createFamily`: append the family (its id is the next generated one),
   * then make the owner its KING with job NONE and serf off.
   */
  function CreateFamily(s: Store, name: string, owner: Uuid): (r: Store)
    ensures r.families == s.families + [name]
    ensures FamilyIdOf(r, owner) == Some(|r.families|)
    ensures FamilyNameById(r, |r.families|) == name
    ensures GetRank(r, owner) == King && GetJob(r, owner) == NoJob && !IsSerf(r, owner)
    ensures forall v :: v in s.members && v != owner ==> v in r.members && r.members[v] == s.members[v]
    ensures r.npcs == s.npcs && r.lands == s.lands && r.serfMeta == s.serfMeta
  {
    var id := |s.families| + 1;
    var s1 := s.(families := s.families + [name]);
    var s2 := SetMember(s1, owner, id, King);
    var s3 := SetJob(s2, owner, NoJob);
    SetSerf(s3, owner, false)
  }

  /** `getMembersOfFamily`: the members whose family column is `familyId`. */
  function MembersOfFamily(s: Store, familyId: int): (r: set<Uuid>)
    ensures forall u :: u in r <==> FamilyIdOf(s, u) == Some(familyId)
  {
    set u | u in s.members && s.members[u].familyId == familyId
  }

  // ---------------------------------------------------------------
  // NPC members
  // ---------------------------------------------------------------

  /** `getNpcFamilyId`: empty for a missing row and for a null family column. */
  function GetNpcFamilyId(s: Store, npcId: int): Option<int> {
    if npcId in s.npcs then s.npcs[npcId].familyId else None
  }

  /** `setNpcMember`: upsert of the family column only. */
  function SetNpcMember(s: Store, npcId: int, familyId: int): (r: Store)
    ensures GetNpcFamilyId(r, npcId) == Some(familyId)
    ensures npcId in s.npcs ==> r.npcs[npcId].serf == s.npcs[npcId].serf && r.npcs[npcId].job == s.npcs[npcId].job
    ensures npcId !in s.npcs ==> !IsNpcSerf(r, npcId) && GetNpcJob(r, npcId) == NoJob
    ensures forall n :: n in s.npcs && n != npcId ==> n in r.npcs && r.npcs[n] == s.npcs[n]
    ensures r.(npcs := s.npcs) == s
  {
    var row := if npcId in s.npcs then s.npcs[npcId].(familyId := Some(familyId)) else NpcRow(Some(familyId), false, None);
    s.(npcs := s.npcs[npcId := row])
  }

  function IsNpcSerf(s: Store, npcId: int): bool {
    npcId in s.npcs && s.npcs[npcId].serf
  }

  function GetNpcJob(s: Store, npcId: int): Job {
    if npcId in s.npcs then Jobs.ValueOf(s.npcs[npcId].job).GetOr(NoJob) else NoJob
  }

  /** `setNpcSerf`: update-only. */
  function SetNpcSerf(s: Store, npcId: int, serf: bool): (r: Store)
    ensures npcId !in s.npcs ==> r == s
    ensures npcId in s.npcs ==> IsNpcSerf(r, npcId) == serf && GetNpcJob(r, npcId) == GetNpcJob(s, npcId)
    ensures npcId in s.npcs ==> GetNpcFamilyId(r, npcId) == GetNpcFamilyId(s, npcId)
    ensures r.npcs.Keys == s.npcs.Keys
    ensures forall n :: n in s.npcs && n != npcId ==> r.npcs[n] == s.npcs[n]
    ensures r.(npcs := s.npcs) == s
  {
    if npcId in s.npcs then s.(npcs := s.npcs[npcId := s.npcs[npcId].(serf := serf)]) else s
  }

  /** `setNpcJob`: update-only. */
  function SetNpcJob(s: Store, npcId: int, job: Job): (r: Store)
    ensures npcId !in s.npcs ==> r == s
    ensures npcId in s.npcs ==> GetNpcJob(r, npcId) == job && IsNpcSerf(r, npcId) == IsNpcSerf(s, npcId)
    ensures npcId in s.npcs ==> GetNpcFamilyId(r, npcId) == GetNpcFamilyId(s, npcId)
    ensures r.npcs.Keys == s.npcs.Keys
    ensures forall n :: n in s.npcs && n != npcId ==> r.npcs[n] == s.npcs[n]
    ensures r.(npcs := s.npcs) == s
  {
    Jobs.ValueOfName(job);
    if npcId in s.npcs then s.(npcs := s.npcs[npcId := s.npcs[npcId].(job := Some(Jobs.Name(job)))]) else s
  }

  // ---------------------------------------------------------------
  // Family lands
  // ---------------------------------------------------------------

  /** At most one land row per family (the table's key). */
  predicate LandsKeyed(lands: seq<FamilyLand>) {
    forall i, j :: 0 <= i < j < |lands| ==> lands[i].familyId != lands[j].familyId
  }

  function GetFamilyLand(s: Store, familyId: int): (r: Option<FamilyLand>)
    ensures r.Some? ==> r.value in s.lands && r.value.familyId == familyId
    ensures r.None? ==> forall l :: l in s.lands ==> l.familyId != familyId
  {
    FindLand(s.lands, familyId)
  }

  function FindLand(lands: seq<FamilyLand>, familyId: int): (r: Option<FamilyLand>)
    ensures r.Some? ==> r.value in lands && r.value.familyId == familyId
    ensures r.None? ==> forall l :: l in lands ==> l.familyId != familyId
  {
    if |lands| == 0 then None
    else if lands[0].familyId == familyId then Some(lands[0])
    else FindLand(lands[1..], familyId)
  }

  /** Replace the family's row in place, or append one if it has none. */
  function UpsertLand(lands: seq<FamilyLand>, land: FamilyLand): (r: seq<FamilyLand>)
    requires LandsKeyed(lands)
    ensures LandsKeyed(r)
    ensures land in r
    ensures forall l :: l in r ==> l == land || (l in lands && l.familyId != land.familyId)
    ensures forall l :: l in lands && l.familyId != land.familyId ==> l in r
  {
    if |lands| == 0 then [land]
    else if lands[0].familyId == land.familyId then
      assert forall l :: l in lands[1..] ==> l.familyId != land.familyId by {
        forall l | l in lands[1..] ensures l.familyId != land.familyId {
          var k :| 0 <= k < |lands[1..]| && lands[1..][k] == l;
          assert lands[k + 1] == l;
        }
      }
      [land] + lands[1..]
    else
      var rest := UpsertLand(lands[1..], land);
      assert forall l :: l in rest ==> l.familyId != lands[0].familyId;
      [lands[0]] + rest
  }

  /** `upsertFamilyLand`: afterwards the family has exactly this land, others are kept. */
  function UpsertFamilyLand(s: Store, land: FamilyLand): (r: Store)
    requires LandsKeyed(s.lands)
    ensures LandsKeyed(r.lands)
    ensures GetFamilyLand(r, land.familyId) == Some(land)
    ensures forall f :: f != land.familyId ==> GetFamilyLand(r, f) == GetFamilyLand(s, f)
    ensures r.(lands := s.lands) == s
  {
    var lands := UpsertLand(s.lands, land);
    var r := s.(lands := lands);
    KeyedLookup(lands, land);
    forall f | f != land.familyId ensures GetFamilyLand(r, f) == GetFamilyLand(s, f) {
      LookupAgrees(s.lands, lands, f);
    }
    r
  }

  lemma KeyedLookup(lands: seq<FamilyLand>, land: FamilyLand)
    requires LandsKeyed(lands) && land in lands
    ensures FindLand(lands, land.familyId) == Some(land)
  {
    if lands[0] != land {
      assert land in lands[1..];
      KeyedLookup(lands[1..], land);
    }
  }

  lemma LookupAgrees(a: seq<FamilyLand>, b: seq<FamilyLand>, f: int)
    requires LandsKeyed(a) && LandsKeyed(b)
    requires forall l: FamilyLand :: l.familyId == f ==> (l in a <==> l in b)
    ensures FindLand(a, f) == FindLand(b, f)
  {
    var ra := FindLand(a, f);
    var rb := FindLand(b, f);
    if ra.Some? {
      KeyedLookup(b, ra.value);
    }
  }

  /** Update one land row in place; no row, no change. */
  function UpdateLand(lands: seq<FamilyLand>, familyId: int, radius: Option<int>, enabled: Option<bool>): (r: seq<FamilyLand>)
    ensures |r| == |lands|
    ensures forall i :: 0 <= i < |lands| && lands[i].familyId != familyId ==> r[i] == lands[i]
    ensures forall i :: 0 <= i < |lands| && lands[i].familyId == familyId ==>
      r[i] == lands[i].(radius := radius.GetOr(lands[i].radius), enabled := enabled.GetOr(lands[i].enabled))
  {
    if |lands| == 0 then []
    else
      var head := if lands[0].familyId == familyId
        then lands[0].(radius := radius.GetOr(lands[0].radius), enabled := enabled.GetOr(lands[0].enabled))
        else lands[0];
      [head] + UpdateLand(lands[1..], familyId, radius, enabled)
  }

  /** `setFamilyLandRadius`: update-only, no land row means no change. */
  function SetFamilyLandRadius(s: Store, familyId: int, radius: int): (r: Store)
    requires LandsKeyed(s.lands)
    ensures LandsKeyed(r.lands)
    ensures GetFamilyLand(s, familyId).None? ==> r == s
    ensures GetFamilyLand(s, familyId).Some? ==> GetFamilyLand(r, familyId) == Some(GetFamilyLand(s, familyId).value.(radius := radius))
    ensures forall g :: g != familyId ==> GetFamilyLand(r, g) == GetFamilyLand(s, g)
    ensures r.(lands := s.lands) == s
  {
    var lands := UpdateLand(s.lands, familyId, Some(radius), None);
    UpdateLandFacts(s.lands, lands, familyId);
    forall g | g != familyId ensures FindLand(lands, g) == FindLand(s.lands, g) {
      UpdateLandOthers(s.lands, lands, familyId, g);
    }
    s.(lands := lands)
  }

  /** `setFamilyLandEnabled`: update-only, no land row means no change. */
  function SetFamilyLandEnabled(s: Store, familyId: int, enabled: bool): (r: Store)
    requires LandsKeyed(s.lands)
    ensures LandsKeyed(r.lands)
    ensures GetFamilyLand(s, familyId).None? ==> r == s
    ensures GetFamilyLand(s, familyId).Some? ==> GetFamilyLand(r, familyId) == Some(GetFamilyLand(s, familyId).value.(enabled := enabled))
    ensures forall g :: g != familyId ==> GetFamilyLand(r, g) == GetFamilyLand(s, g)
    ensures r.(lands := s.lands) == s
  {
    var lands := UpdateLand(s.lands, familyId, None, Some(enabled));
    UpdateLandFacts(s.lands, lands, familyId);
    forall g | g != familyId ensures FindLand(lands, g) == FindLand(s.lands, g) {
      UpdateLandOthers(s.lands, lands, familyId, g);
    }
    s.(lands := lands)
  }

  lemma UpdateLandFacts(a: seq<FamilyLand>, b: seq<FamilyLand>, f: int)
    requires LandsKeyed(a) && |a| == |b|
    requires forall i :: 0 <= i < |a| ==> b[i].familyId == a[i].familyId
    requires forall i :: 0 <= i < |a| && a[i].familyId != f ==> b[i] == a[i]
    ensures LandsKeyed(b)
    ensures FindLand(a, f).None? ==> b == a
    ensures FindLand(a, f).Some? ==> exists i :: 0 <= i < |a| && a[i] == FindLand(a, f).value && FindLand(b, f) == Some(b[i])
  {
    if FindLand(a, f).None? {
      assert forall i :: 0 <= i < |a| ==> a[i].familyId != f by {
        forall i | 0 <= i < |a| ensures a[i].familyId != f { assert a[i] in a; }
      }
    } else {
      var l := FindLand(a, f).value;
      var i :| 0 <= i < |a| && a[i] == l;
      assert b[i] in b;
      KeyedLookup(b, b[i]);
    }
  }

  /** An in-place update of family `f`'s row leaves every other family's lookup as it was. */
  lemma UpdateLandOthers(a: seq<FamilyLand>, b: seq<FamilyLand>, f: int, g: int)
    requires LandsKeyed(a) && |a| == |b| && g != f
    requires forall i :: 0 <= i < |a| ==> b[i].familyId == a[i].familyId
    requires forall i :: 0 <= i < |a| && a[i].familyId != f ==> b[i] == a[i]
    ensures FindLand(b, g) == FindLand(a, g)
  {
    UpdateLandFacts(a, b, f);
    forall l: FamilyLand | l.familyId == g ensures l in a <==> l in b {
      if l in a {
        var i :| 0 <= i < |a| && a[i] == l;
        assert b[i] == l;
      }
      if l in b {
        var i :| 0 <= i < |b| && b[i] == l;
        assert a[i] == l;
      }
    }
    LookupAgrees(a, b, g);
  }

  /** `listEnabledFamilyLands`: the enabled rows, in storage order. */
  function ListEnabledFamilyLands(s: Store): (r: seq<FamilyLand>)
    ensures forall l :: l in r <==> l in s.lands && l.enabled
    ensures |r| <= |s.lands|
  {
    EnabledOf(s.lands)
  }

  function EnabledOf(lands: seq<FamilyLand>): (r: seq<FamilyLand>)
    ensures forall l :: l in r <==> l in lands && l.enabled
    ensures |r| <= |lands|
  {
    if |lands| == 0 then []
    else if lands[0].enabled then [lands[0]] + EnabledOf(lands[1..])
    else EnabledOf(lands[1..])
  }

  // ---------------------------------------------------------------
  // Serf meta
  // ---------------------------------------------------------------

  function Column(m: SerfMeta, c: MetaColumn): int {
    match c
    case NextDueAt => m.nextDueAt
    case MissCount => m.missCount
    case DiscountUntil => m.discountUntil
    case DeliverPoints => m.deliverPoints
    case LastWarnAt => m.lastWarnAt
  }

  function WithColumn(m: SerfMeta, c: MetaColumn, v: int): SerfMeta {
    match c
    case NextDueAt => m.(nextDueAt := v)
    case MissCount => m.(missCount := v)
    case DiscountUntil => m.(discountUntil := v)
    case DeliverPoints => m.(deliverPoints := v)
    case LastWarnAt => m.(lastWarnAt := v)
  }

  const ZeroMeta: SerfMeta := SerfMeta(0, 0, 0, 0, 0)

  /** `getSerfMetaLong`: 0 when the row is absent. */
  function GetMeta(s: Store, u: Uuid, c: MetaColumn): int {
    if u in s.serfMeta then Column(s.serfMeta[u], c) else 0
  }

  /** `upsertSerfMetaLong`: create an all-zero row if missing, then set only column `c`. */
  function UpsertMeta(s: Store, u: Uuid, c: MetaColumn, v: int): (r: Store)
    ensures GetMeta(r, u, c) == v
    ensures forall c' :: c' != c ==> GetMeta(r, u, c') == GetMeta(s, u, c')
    ensures forall u', c' :: u' != u ==> GetMeta(r, u', c') == GetMeta(s, u', c')
    ensures u in r.serfMeta
    ensures r.(serfMeta := s.serfMeta) == s
  {
    var row := if u in s.serfMeta then s.serfMeta[u] else ZeroMeta;
    s.(serfMeta := s.serfMeta[u := WithColumn(row, c, v)])
  }

  /** `addSerfMissCount`: read-modify-write of the miss counter. */
  function AddSerfMissCount(s: Store, u: Uuid, add: int): (r: Store)
    ensures GetMeta(r, u, MissCount) == GetMeta(s, u, MissCount) + add
    ensures forall c' :: c' != MissCount ==> GetMeta(r, u, c') == GetMeta(s, u, c')
    ensures forall u', c' :: u' != u ==> GetMeta(r, u', c') == GetMeta(s, u', c')
    ensures r.(serfMeta := s.serfMeta) == s
  {
    UpsertMeta(s, u, MissCount, GetMeta(s, u, MissCount) + add)
  }
}

=== FILE: tax.dfy ===
/**
 * The serf taxation engine of TaxService: due balances, the family bank,
 * the tax ledger, the per-serf due cycle, delivery-point rewards and the
 * warning cooldown. The serf meta and membership live in `Store`; the
 * due, bank and ledger tables live in `TaxState`.
 */
module Tax {
  import opened Wrappers
  import opened Jobs
  import opened Store
  import JavaInt

  const SERF_DUE_INTERVAL_MS: int := 600000
  const SERF_PUNISH_THRESHOLD: int := 3
  const SERF_WARN_COOLDOWN_MS: int := 60000
  const SERF_POINTS_PER_REWARD: int := 100
  const SERF_DUE_REDUCE_PER_REWARD: int := 10
  const SERF_DISCOUNT_DURATION_MS: int := 600000

  datatype LedgerEntry = LedgerEntry(familyId: int, npcId: int, amount: int, reason: string, createdAt: int)

  /** tax_due (per player), family_bank (per family) and the append-only tax_ledger. */
  datatype TaxState = TaxState(due: map<Uuid, int>, bank: map<int, int>, ledger: seq<LedgerEntry>)

  /** Both stores together, as the serf operations read and write both. */
  datatype World = World(store: Store, tax: TaxState)

  /** Dues and balances are never negative. */
  predicate Valid(t: TaxState) {
    (forall u :: u in t.due ==> t.due[u] >= 0) && (forall f :: f in t.bank ==> t.bank[f] >= 0)
  }

  function Max(a: int, b: int): int {
    if a >= b then a else b
  }

  // ---------------------------------------------------------------
  // Dues
  // ---------------------------------------------------------------

  /** `getDue`: 0 when the player has no row. */
  function GetDue(t: TaxState, u: Uuid): (d: int)
    ensures Valid(t) ==> d >= 0
    ensures u !in t.due ==> d == 0
  {
    if u in t.due then t.due[u] else 0
  }

  /** `addDue`: a negative amount is clamped to 0 before it is added. */
  function AddDue(t: TaxState, u: Uuid, amount: int): (r: TaxState)
    ensures GetDue(r, u) == GetDue(t, u) + Max(0, amount)
    ensures GetDue(r, u) >= GetDue(t, u)
    ensures forall v :: v != u ==> GetDue(r, v) == GetDue(t, v)
    ensures Valid(t) ==> Valid(r)
    ensures r.bank == t.bank && r.ledger == t.ledger
  {
    t.(due := t.due[u := GetDue(t, u) + Max(0, amount)])
  }

  /** `setDue`: the stored due is clamped at 0. */
  function SetDue(t: TaxState, u: Uuid, due: int): (r: TaxState)
    ensures GetDue(r, u) == Max(0, due) && GetDue(r, u) >= 0
    ensures forall v :: v != u ==> GetDue(r, v) == GetDue(t, v)
    ensures Valid(t) ==> Valid(r)
    ensures r.bank == t.bank && r.ledger == t.ledger
  {
    t.(due := t.due[u := Max(0, due)])
  }

  /** `reduceDue`: subtract a payment (a negative one counts as 0), flooring at 0. */
  function ReduceDue(t: TaxState, u: Uuid, paid: int): (r: TaxState)
    ensures GetDue(t, u) >= 0 ==> 0 <= GetDue(r, u) <= GetDue(t, u)
    ensures GetDue(r, u) == Max(0, GetDue(t, u) - Max(0, paid))
    ensures paid >= 0 && paid <= GetDue(t, u) ==> GetDue(r, u) == GetDue(t, u) - paid
    ensures forall v :: v != u ==> GetDue(r, v) == GetDue(t, v)
    ensures Valid(t) ==> Valid(r)
    ensures r.bank == t.bank && r.ledger == t.ledger
  {
    SetDue(t, u, GetDue(t, u) - Max(0, paid))
  }

  // ---------------------------------------------------------------
  // Family bank and ledger
  // ---------------------------------------------------------------

  function Balance(t: TaxState, f: int): int {
    if f in t.bank then t.bank[f] else 0
  }

  /** `ensureBankRow`: insert a zero balance if the family has none. */
  function EnsureBankRow(t: TaxState, f: int): (r: TaxState)
    ensures f in r.bank && Balance(r, f) == Balance(t, f)
    ensures f in t.bank ==> r == t
    ensures forall g :: g != f ==> (g in r.bank <==> g in t.bank) && Balance(r, g) == Balance(t, g)
    ensures Valid(t) ==> Valid(r)
    ensures r.due == t.due && r.ledger == t.ledger
  {
    if f in t.bank then t else t.(bank := t.bank[f := 0])
  }

  /** `addToBank`. */
  function AddToBank(t: TaxState, f: int, amount: int): (r: TaxState)
    ensures Balance(r, f) == Balance(t, f) + amount
    ensures forall g :: g != f ==> Balance(r, g) == Balance(t, g)
    ensures Valid(t) && amount >= 0 ==> Valid(r)
    ensures r.due == t.due && r.ledger == t.ledger
  {
    var t1 := EnsureBankRow(t, f);
    t1.(bank := t1.bank[f := t1.bank[f] + amount])
  }

  /** `getBankBalance`: reading also creates the row, so the state is returned too. */
  function GetBankBalance(t: TaxState, f: int): (r: (TaxState, int))
    ensures r.1 == Balance(t, f)
    ensures f in r.0.bank && forall g :: Balance(r.0, g) == Balance(t, g)
    ensures Valid(t) ==> Valid(r.0)
  {
    var t1 := EnsureBankRow(t, f);
    (t1, t1.bank[f])
  }

  /**
   * `withdrawFromBank`: fails, with the balance untouched, for a
   * non-positive amount or an insufficient balance; otherwise debits it.
   */
  function WithdrawFromBank(t: TaxState, f: int, amount: int): (r: (TaxState, bool))
    ensures r.1 <==> amount > 0 && Balance(t, f) >= amount
    ensures r.1 ==> Balance(r.0, f) == Balance(t, f) - amount
    ensures !r.1 ==> Balance(r.0, f) == Balance(t, f)
    ensures amount <= 0 ==> r.0 == t
    ensures forall g :: g != f ==> Balance(r.0, g) == Balance(t, g)
    ensures Valid(t) ==> Valid(r.0)
    ensures r.0.due == t.due && r.0.ledger == t.ledger
  {
    if amount <= 0 then (t, false)
    else
      var t1 := EnsureBankRow(t, f);
      var (t2, bal) := GetBankBalance(t1, f);
      if bal < amount then (t2, false)
      else (t2.(bank := t2.bank[f := t2.bank[f] - amount]), true)
  }

  /** `recordLedger`: an append. */
  function RecordLedger(t: TaxState, e: LedgerEntry): (r: TaxState)
    ensures r.ledger == t.ledger + [e]
    ensures r.due == t.due && r.bank == t.bank
  {
    t.(ledger := t.ledger + [e])
  }

  /** Total of the ledger amounts. */
  function LedgerSum(l: seq<LedgerEntry>): int {
    if |l| == 0 then 0 else LedgerSum(l[..|l| - 1]) + l[|l| - 1].amount
  }

  lemma LedgerSumAppend(l: seq<LedgerEntry>, e: LedgerEntry)
    ensures LedgerSum(l + [e]) == LedgerSum(l) + e.amount
  {
    assert (l + [e])[..|l|] == l;
  }

  // ---------------------------------------------------------------
  // Serf due cycle
  // ---------------------------------------------------------------

  /** `computeBaseSerfTax`. */
  function BaseSerfTax(job: Job): (r: int)
    ensures 3 <= r <= 6
    ensures r == 3 <==> job !in {Farmer, Miner, Guard}
  {
    match job
    case Farmer => 4
    case Miner => 6
    case Guard => 5
    case _ => 3
  }

  /** Every serf job pays a distinct base; every other job pays the minimum. */
  lemma BaseSerfTaxTable()
    ensures BaseSerfTax(Farmer) == 4 && BaseSerfTax(Miner) == 6 && BaseSerfTax(Guard) == 5
    ensures forall j :: j !in {Farmer, Miner, Guard} ==> BaseSerfTax(j) == 3
  {
  }

  /** A serf whose due cycle has started and whose deadline has been reached. */
  predicate Fires(w: World, u: Uuid, now: int) {
    IsSerf(w.store, u) && GetMeta(w.store, u, NextDueAt) != 0 && now >= GetMeta(w.store, u, NextDueAt)
  }

  /**
   * `tickSerfDueIfNeeded`: arm the timer on first sight, otherwise at the
   * deadline count a miss if a due is still open, charge the base tax
   * (doubled for a harsh serf, then halved with floor 1 in a discount
   * window), and move the deadline one interval past now.
   */
  function TickSerfDue(w: World, u: Uuid, now: int): (r: (World, int))
    ensures !IsSerf(w.store, u) ==> r == (w, 0)
    ensures IsSerf(w.store, u) && GetMeta(w.store, u, NextDueAt) == 0 ==>
      && r.1 == 0 && r.0.tax == w.tax
      && GetMeta(r.0.store, u, NextDueAt) == now + SERF_DUE_INTERVAL_MS
      && (forall c :: c != NextDueAt ==> GetMeta(r.0.store, u, c) == GetMeta(w.store, u, c))
    ensures IsSerf(w.store, u) && GetMeta(w.store, u, NextDueAt) != 0 && now < GetMeta(w.store, u, NextDueAt) ==>
      r == (w, 0)
    ensures Fires(w, u, now) ==>
      && 1 <= r.1 <= 12
      && GetDue(r.0.tax, u) == GetDue(w.tax, u) + r.1
      && GetMeta(r.0.store, u, NextDueAt) == now + SERF_DUE_INTERVAL_MS
      && GetMeta(r.0.store, u, MissCount) == GetMeta(w.store, u, MissCount) + (if GetDue(w.tax, u) > 0 then 1 else 0)
      && GetMeta(r.0.store, u, DiscountUntil) == GetMeta(w.store, u, DiscountUntil)
      && GetMeta(r.0.store, u, DeliverPoints) == GetMeta(w.store, u, DeliverPoints)
      && GetMeta(r.0.store, u, LastWarnAt) == GetMeta(w.store, u, LastWarnAt)
    ensures Fires(w, u, now) ==>
      var base := BaseSerfTax(GetJob(w.store, u));
      var harsh := GetMeta(r.0.store, u, MissCount) >= SERF_PUNISH_THRESHOLD;
      var discounted := GetMeta(w.store, u, DiscountUntil) > now;
      && (!harsh && !discounted ==> r.1 == base)
      && (harsh && !discounted ==> r.1 == 2 * base)
      && (!harsh && discounted ==> r.1 == base / 2)
      && (harsh && discounted ==> r.1 == base)
    ensures forall v :: v != u ==> GetDue(r.0.tax, v) == GetDue(w.tax, v)
    ensures forall v, c :: v != u ==> GetMeta(r.0.store, v, c) == GetMeta(w.store, v, c)
    ensures r.0.store.members == w.store.members
    ensures r.0.tax.bank == w.tax.bank && r.0.tax.ledger == w.tax.ledger
    ensures Valid(w.tax) ==> Valid(r.0.tax)
  {
    if !IsSerf(w.store, u) then (w, 0)
    else
      var nextDue := GetMeta(w.store, u, NextDueAt);
      if nextDue == 0 then
        (w.(store := UpsertMeta(w.store, u, NextDueAt, now + SERF_DUE_INTERVAL_MS)), 0)
      else if now < nextDue then (w, 0)
      else
        var s1 := if GetDue(w.tax, u) > 0 then AddSerfMissCount(w.store, u, 1) else w.store;
        var miss := GetMeta(s1, u, MissCount);
        var base := BaseSerfTax(GetJob(s1, u));
        var tax1 := if miss >= SERF_PUNISH_THRESHOLD then base * 2 else base;
        var tax2 := if GetMeta(s1, u, DiscountUntil) > now then Max(1, JavaInt.Quot(tax1, 2)) else tax1;
        var t1 := AddDue(w.tax, u, tax2);
        var s2 := UpsertMeta(s1, u, NextDueAt, now + SERF_DUE_INTERVAL_MS);
        (World(s2, t1), tax2)
  }

  /** Once a tick has run at `now`, another tick at the same `now` charges nothing and changes nothing. */
  lemma TickIdempotent(w: World, u: Uuid, now: int)
    ensures var (w1, _) := TickSerfDue(w, u, now);
      TickSerfDue(w1, u, now) == (w1, 0)
  {
    var (w1, _) := TickSerfDue(w, u, now);
    if IsSerf(w1.store, u) && GetMeta(w1.store, u, NextDueAt) == 0 {
      // only reachable when now + interval == 0: re-arming writes the value already there
      assert GetMeta(w.store, u, NextDueAt) == 0 || Fires(w, u, now);
      var s2 := UpsertMeta(w1.store, u, NextDueAt, now + SERF_DUE_INTERVAL_MS);
      assert u in w1.store.serfMeta;
      assert s2.serfMeta[u] == w1.store.serfMeta[u];
      assert s2 == w1.store;
    }
  }

  /** The cycle neither lowers a due nor resets the miss counter. */
  lemma TickMonotone(w: World, u: Uuid, now: int)
    ensures GetDue(TickSerfDue(w, u, now).0.tax, u) >= GetDue(w.tax, u)
    ensures GetMeta(TickSerfDue(w, u, now).0.store, u, MissCount) >= GetMeta(w.store, u, MissCount)
  {
  }

  /**
   * The punishment, for every job: once the misses counted at this
   * deadline reach three, the charge without a discount is twice the
   * job's base, and below three it is the base.
   */
  lemma PunishmentDoublesCharge(w: World, u: Uuid, now: int)
    requires Fires(w, u, now) && GetMeta(w.store, u, DiscountUntil) <= now
    ensures var misses := GetMeta(w.store, u, MissCount) + (if GetDue(w.tax, u) > 0 then 1 else 0);
      TickSerfDue(w, u, now).1 == (if misses >= SERF_PUNISH_THRESHOLD then 2 else 1) * BaseSerfTax(GetJob(w.store, u))
  {
  }

  // ---------------------------------------------------------------
  // Delivery points and rewards
  // ---------------------------------------------------------------

  /**
   * `addSerfDeliverAndApplyRewards` as written: add the points in 32-bit
   * `int` arithmetic, store the sum, and turn every full hundred into a
   * reward (see `ApplyDelivery`). Without overflow no point is lost; once
   * the sum passes `int`'s maximum it wraps to a negative count, which is
   * stored, and no reward is given.
   */
  function AddSerfDeliver(w: World, u: Uuid, addPoints: int, now: int): (r: (World, int))
    ensures addPoints <= 0 ==> r == (w, 0)
    ensures r.1 >= 0
    ensures addPoints > 0 && JavaInt.IsInt(GetMeta(w.store, u, DeliverPoints) + addPoints) ==>
      GetMeta(w.store, u, DeliverPoints) + addPoints == SERF_POINTS_PER_REWARD * r.1 + GetMeta(r.0.store, u, DeliverPoints)
    ensures addPoints > 0 && JavaInt.IsInt(GetMeta(w.store, u, DeliverPoints)) && JavaInt.IsInt(addPoints)
            && !JavaInt.IsInt(GetMeta(w.store, u, DeliverPoints) + addPoints) ==>
      && r.1 == 0 && r.0.tax == w.tax
      && GetMeta(r.0.store, u, DeliverPoints) == GetMeta(w.store, u, DeliverPoints) + addPoints - JavaInt.MODULUS < 0
    ensures r.1 > 0 ==>
      && 0 <= GetMeta(r.0.store, u, DeliverPoints) < SERF_POINTS_PER_REWARD
      && GetDue(r.0.tax, u) == Max(0, GetDue(w.tax, u) - SERF_DUE_REDUCE_PER_REWARD * r.1)
      && GetMeta(r.0.store, u, DiscountUntil)
         == Max(GetMeta(w.store, u, DiscountUntil), now) + r.1 * SERF_DISCOUNT_DURATION_MS
    ensures r.1 == 0 ==> r.0.tax == w.tax && GetMeta(r.0.store, u, DiscountUntil) == GetMeta(w.store, u, DiscountUntil)
    ensures GetMeta(r.0.store, u, NextDueAt) == GetMeta(w.store, u, NextDueAt)
    ensures GetMeta(r.0.store, u, MissCount) == GetMeta(w.store, u, MissCount)
    ensures GetMeta(r.0.store, u, LastWarnAt) == GetMeta(w.store, u, LastWarnAt)
    ensures forall v :: v != u ==> GetDue(r.0.tax, v) == GetDue(w.tax, v)
    ensures forall v, c :: v != u ==> GetMeta(r.0.store, v, c) == GetMeta(w.store, v, c)
    ensures r.0.store.members == w.store.members
    ensures r.0.tax.bank == w.tax.bank && r.0.tax.ledger == w.tax.ledger
    ensures Valid(w.tax) ==> Valid(r.0.tax)
  {
    if addPoints <= 0 then (w, 0)
    else
      var before := GetMeta(w.store, u, DeliverPoints);
      ApplyDelivery(w, u, JavaInt.Wrap(before + addPoints), now)
  }

  /**
   * The same rewards with the sum taken in `long`, as the meta column
   * stores it: the sum of two `int`s never overflows there.
   */
  function AddSerfDeliverLong(w: World, u: Uuid, addPoints: int, now: int): (r: (World, int))
    ensures addPoints <= 0 ==> r == (w, 0)
    ensures r.1 >= 0
    ensures addPoints > 0 ==>
      GetMeta(w.store, u, DeliverPoints) + addPoints == SERF_POINTS_PER_REWARD * r.1 + GetMeta(r.0.store, u, DeliverPoints)
    ensures r.1 > 0 ==>
      && 0 <= GetMeta(r.0.store, u, DeliverPoints) < SERF_POINTS_PER_REWARD
      && GetDue(r.0.tax, u) == Max(0, GetDue(w.tax, u) - SERF_DUE_REDUCE_PER_REWARD * r.1)
    ensures r.1 == 0 ==> r.0.tax == w.tax
  {
    if addPoints <= 0 then (w, 0)
    else ApplyDelivery(w, u, GetMeta(w.store, u, DeliverPoints) + addPoints, now)
  }

  /**
   * Store the new point count `after`; every full hundred in it is a
   * reward that is taken off the points, takes 10 off the due and extends
   * the discount window by ten minutes from the later of its end and now.
   */
  function ApplyDelivery(w: World, u: Uuid, after: int, now: int): (r: (World, int))
    ensures r.1 == (if after >= SERF_POINTS_PER_REWARD then after / SERF_POINTS_PER_REWARD else 0)
    ensures after == SERF_POINTS_PER_REWARD * r.1 + GetMeta(r.0.store, u, DeliverPoints)
    ensures r.1 == 0 ==> r.0.tax == w.tax && GetMeta(r.0.store, u, DiscountUntil) == GetMeta(w.store, u, DiscountUntil)
    ensures r.1 > 0 ==>
      && 0 <= GetMeta(r.0.store, u, DeliverPoints) < SERF_POINTS_PER_REWARD
      && GetDue(r.0.tax, u) == Max(0, GetDue(w.tax, u) - SERF_DUE_REDUCE_PER_REWARD * r.1)
      && GetMeta(r.0.store, u, DiscountUntil)
         == Max(GetMeta(w.store, u, DiscountUntil), now) + r.1 * SERF_DISCOUNT_DURATION_MS
    ensures GetMeta(r.0.store, u, NextDueAt) == GetMeta(w.store, u, NextDueAt)
    ensures GetMeta(r.0.store, u, MissCount) == GetMeta(w.store, u, MissCount)
    ensures GetMeta(r.0.store, u, LastWarnAt) == GetMeta(w.store, u, LastWarnAt)
    ensures forall v :: v != u ==> GetDue(r.0.tax, v) == GetDue(w.tax, v)
    ensures forall v, c :: v != u ==> GetMeta(r.0.store, v, c) == GetMeta(w.store, v, c)
    ensures r.0.store.members == w.store.members
    ensures r.0.tax.bank == w.tax.bank && r.0.tax.ledger == w.tax.ledger
    ensures Valid(w.tax) ==> Valid(r.0.tax)
  {
    var s1 := UpsertMeta(w.store, u, DeliverPoints, after);
    var rewards := JavaInt.Quot(after, SERF_POINTS_PER_REWARD);
    if rewards <= 0 then (World(s1, w.tax), 0)
    else
      var s2 := UpsertMeta(s1, u, DeliverPoints, after % SERF_POINTS_PER_REWARD);
      var t1 := ReduceDue(w.tax, u, rewards * SERF_DUE_REDUCE_PER_REWARD);
      var curUntil := GetMeta(s2, u, DiscountUntil);
      var s3 := UpsertMeta(s2, u, DiscountUntil, Max(curUntil, now) + rewards * SERF_DISCOUNT_DURATION_MS);
      (World(s3, t1), rewards)
  }

  /** While the sum fits in an `int`, the code as written and the `long` sum agree exactly. */
  lemma DeliverAgreesWithoutOverflow(w: World, u: Uuid, addPoints: int, now: int)
    requires JavaInt.IsInt(GetMeta(w.store, u, DeliverPoints) + addPoints)
    ensures AddSerfDeliver(w, u, addPoints, now) == AddSerfDeliverLong(w, u, addPoints, now)
  {
  }

  /**
   * The overflow: 99 points and a delivery of `int`'s maximum store a
   * negative count and give no reward, where the `long` sum gives
   * 21474837 rewards and keeps 46 points.
   */
  lemma DeliverOverflowStoresNegative(w: World, u: Uuid, now: int)
    requires GetMeta(w.store, u, DeliverPoints) == 99
    ensures var (w1, rewards) := AddSerfDeliver(w, u, JavaInt.INT_MAX, now);
      rewards == 0 && GetMeta(w1.store, u, DeliverPoints) == -2147483550
    ensures var (w2, rewards) := AddSerfDeliverLong(w, u, JavaInt.INT_MAX, now);
      rewards == 21474837 && GetMeta(w2.store, u, DeliverPoints) == 46
  {
    assert JavaInt.Wrap(99 + JavaInt.INT_MAX) == -2147483550;
  }

  /**
   * Starting from a point count in [0, 100), a delivery with the `long`
   * sum leaves the count in [0, 100); the code as written does so as long
   * as the sum fits in an `int`.
   */
  lemma DeliverKeepsPointsBelowHundred(w: World, u: Uuid, addPoints: int, now: int)
    requires 0 <= GetMeta(w.store, u, DeliverPoints) < SERF_POINTS_PER_REWARD
    ensures 0 <= GetMeta(AddSerfDeliverLong(w, u, addPoints, now).0.store, u, DeliverPoints) < SERF_POINTS_PER_REWARD
    ensures JavaInt.IsInt(GetMeta(w.store, u, DeliverPoints) + addPoints) ==>
      0 <= GetMeta(AddSerfDeliver(w, u, addPoints, now).0.store, u, DeliverPoints) < SERF_POINTS_PER_REWARD
  {
    if JavaInt.IsInt(GetMeta(w.store, u, DeliverPoints) + addPoints) {
      DeliverAgreesWithoutOverflow(w, u, addPoints, now);
    }
  }

  /**
   * No point is lost: old points plus the delivery equal 100 per reward
   * plus what remains, with the `long` sum always and as written while
   * the sum fits in an `int`.
   */
  lemma DeliverConservesPoints(w: World, u: Uuid, addPoints: int, now: int)
    requires addPoints > 0
    ensures var (w1, rewards) := AddSerfDeliverLong(w, u, addPoints, now);
      GetMeta(w.store, u, DeliverPoints) + addPoints
        == SERF_POINTS_PER_REWARD * rewards + GetMeta(w1.store, u, DeliverPoints)
    ensures JavaInt.IsInt(GetMeta(w.store, u, DeliverPoints) + addPoints) ==>
      var (w1, rewards) := AddSerfDeliver(w, u, addPoints, now);
      GetMeta(w.store, u, DeliverPoints) + addPoints
        == SERF_POINTS_PER_REWARD * rewards + GetMeta(w1.store, u, DeliverPoints)
  {
  }

  // ---------------------------------------------------------------
  // Warning cooldown
  // ---------------------------------------------------------------

  /** `canWarnSerf`: allowed, and stamped, once a minute has passed since the last stamp. */
  function CanWarnSerf(w: World, u: Uuid, now: int): (r: (World, bool))
    ensures r.1 <==> now - GetMeta(w.store, u, LastWarnAt) >= SERF_WARN_COOLDOWN_MS
    ensures !r.1 ==> r.0 == w
    ensures r.1 ==> GetMeta(r.0.store, u, LastWarnAt) == now
    ensures forall c :: c != LastWarnAt ==> GetMeta(r.0.store, u, c) == GetMeta(w.store, u, c)
    ensures forall v, c :: v != u ==> GetMeta(r.0.store, v, c) == GetMeta(w.store, v, c)
    ensures r.0.tax == w.tax && r.0.store.members == w.store.members
  {
    var last := GetMeta(w.store, u, LastWarnAt);
    if now - last < SERF_WARN_COOLDOWN_MS then (w, false)
    else (w.(store := UpsertMeta(w.store, u, LastWarnAt, now)), true)
  }

  /** After a granted warning, every check within the next minute is refused. */
  lemma WarnCooldownHolds(w: World, u: Uuid, now: int, later: int)
    requires CanWarnSerf(w, u, now).1
    requires later < now + SERF_WARN_COOLDOWN_MS
    ensures !CanWarnSerf(CanWarnSerf(w, u, now).0, u, later).1
  {
  }
}

=== FILE: tax_collector.dfy ===
/**
 * One tax-collector NPC's turn in TaxCollectorLoop: gating on the trait,
 * lazy arming of the deadline, charging every family member, settling
 * online members' dues from their emeralds, and the back-off after a
 * failure. Which players are online is the map of their inventories; the
 * storage call that throws, if any, is an input.
 */
module TaxCollector {
  import opened Wrappers
  import opened Store
  import opened Tax
  import opened Inventory
  import opened NpcTrait

  const RETRY_AFTER_FAILURE_MS: int := 10000
  const AUTO_TAX_REASON: string := "AUTO_TAX(EMERALD)"

  /** Inventories of the players that are online. */
  type Online = map<Uuid, Slots>

  predicate InventoriesWellFormed(on: Online) {
    forall u :: u in on ==> WellFormed(on[u])
  }

  /**
   * One member, after the charge has been added to their due: if they are
   * online with an open due, take as many emeralds as the due and the
   * purse allow into the family bank, with a ledger line.
   */
  function CollectMember(t: TaxState, on: Online, u: Uuid, familyId: int, npcId: int, now: int): (r: (TaxState, Online))
    ensures var paid := GetDue(t, u) - GetDue(r.0, u);
      && 0 <= paid
      && Balance(r.0, familyId) == Balance(t, familyId) + paid
      && LedgerSum(r.0.ledger) == LedgerSum(t.ledger) + paid
      && (paid == 0 ==> r == (t, on))
      && (paid > 0 ==> r.0.ledger == t.ledger + [LedgerEntry(familyId, npcId, paid, AUTO_TAX_REASON, now)])
    ensures u !in on ==> r == (t, on)
    ensures r.1.Keys == on.Keys && forall v :: v in on && v != u ==> r.1[v] == on[v]
    ensures forall v :: v != u ==> GetDue(r.0, v) == GetDue(t, v)
    ensures forall g :: g != familyId ==> Balance(r.0, g) == Balance(t, g)
    ensures Valid(t) ==> Valid(r.0)
  {
    var pay := Payable(t, on, u);
    if pay == 0 then (t, on) else Settle(t, on, u, familyId, npcId, pay, now)
  }

  /** What an online member with an open due can pay now: the smaller of the due and the emeralds held. */
  function Payable(t: TaxState, on: Online, u: Uuid): (pay: nat)
    ensures pay > 0 ==> u in on && pay <= CountItem(on[u], Emerald) && pay <= GetDue(t, u)
    ensures u in on && WellFormed(on[u]) && GetDue(t, u) > 0 ==>
      pay == Min(CountItem(on[u], Emerald), GetDue(t, u))
  {
    if u !in on || GetDue(t, u) <= 0 then 0
    else
      PurseNonNegative(on[u]);
      var pay := Min(CountItem(on[u], Emerald), GetDue(t, u));
      if pay <= 0 then 0 else pay
  }

  /**
   * An online member pays out of their purse exactly what leaves the due,
   * and afterwards either owes nothing or has no emeralds left.
   */
  lemma CollectMemberPurse(t: TaxState, on: Online, u: Uuid, familyId: int, npcId: int, now: int)
    requires u in on && WellFormed(on[u])
    ensures var r := CollectMember(t, on, u, familyId, npcId, now);
      var paid := GetDue(t, u) - GetDue(r.0, u);
      && u in r.1 && WellFormed(r.1[u])
      && CountItem(r.1[u], Emerald) == CountItem(on[u], Emerald) - paid
      && (GetDue(t, u) >= 0 ==> GetDue(r.0, u) == 0 || CountItem(r.1[u], Emerald) == 0)
  {
    PurseNonNegative(on[u]);
  }

  lemma CollectMemberKeepsPurses(t: TaxState, on: Online, u: Uuid, familyId: int, npcId: int, now: int)
    ensures InventoriesWellFormed(on) ==> InventoriesWellFormed(CollectMember(t, on, u, familyId, npcId, now).1)
  {
    if u in on && WellFormed(on[u]) {
      CollectMemberPurse(t, on, u, familyId, npcId, now);
    }
  }

  /**
   * Moving `pay` emeralds of `u`'s open due into the family bank: the due
   * drops, the bank and the ledger grow, and the purse shrinks, each by
   * exactly `pay`.
   */
  function Settle(t: TaxState, on: Online, u: Uuid, familyId: int, npcId: int, pay: int, now: int): (r: (TaxState, Online))
    requires u in on && 0 < pay <= CountItem(on[u], Emerald) && pay <= GetDue(t, u)
    ensures GetDue(r.0, u) == GetDue(t, u) - pay
    ensures Balance(r.0, familyId) == Balance(t, familyId) + pay
    ensures r.0.ledger == t.ledger + [LedgerEntry(familyId, npcId, pay, AUTO_TAX_REASON, now)]
    ensures LedgerSum(r.0.ledger) == LedgerSum(t.ledger) + pay
    ensures u in r.1 && (WellFormed(on[u]) ==> WellFormed(r.1[u]) && CountItem(r.1[u], Emerald) == CountItem(on[u], Emerald) - pay)
    ensures r.1.Keys == on.Keys && forall v :: v in on && v != u ==> r.1[v] == on[v]
    ensures forall v :: v != u ==> GetDue(r.0, v) == GetDue(t, v)
    ensures forall g :: g != familyId ==> Balance(r.0, g) == Balance(t, g)
    ensures Valid(t) ==> Valid(r.0)
  {
    SettleUpTo(t, on, u, familyId, npcId, pay, now, 3)
  }

  /**
   * The payment cut short: the emeralds are taken, then only the first
   * `done` of the three writes (reduceDue, addToBank, recordLedger) take
   * effect before a storage call throws. Nothing undoes the earlier ones.
   */
  function SettleUpTo(t: TaxState, on: Online, u: Uuid, familyId: int, npcId: int, pay: int, now: int, done: nat): (r: (TaxState, Online))
    requires u in on && 0 < pay <= CountItem(on[u], Emerald) && pay <= GetDue(t, u)
    requires done <= 3
    ensures GetDue(r.0, u) == GetDue(t, u) - (if done >= 1 then pay else 0)
    ensures Balance(r.0, familyId) == Balance(t, familyId) + (if done >= 2 then pay else 0)
    ensures r.0.ledger == t.ledger + (if done >= 3 then [LedgerEntry(familyId, npcId, pay, AUTO_TAX_REASON, now)] else [])
    ensures LedgerSum(r.0.ledger) == LedgerSum(t.ledger) + (if done >= 3 then pay else 0)
    ensures u in r.1 && (WellFormed(on[u]) ==> WellFormed(r.1[u]) && CountItem(r.1[u], Emerald) == CountItem(on[u], Emerald) - pay)
    ensures r.1.Keys == on.Keys && forall v :: v in on && v != u ==> r.1[v] == on[v]
    ensures forall v :: v != u ==> GetDue(r.0, v) == GetDue(t, v)
    ensures forall g :: g != familyId ==> Balance(r.0, g) == Balance(t, g)
    ensures Valid(t) ==> Valid(r.0)
  {
    var inv := RemoveFrom(on[u], Emerald, 0, pay);
    RemoveEmeralds(on[u], pay);
    var t2 := if done >= 1 then ReduceDue(t, u, pay) else t;
    var t3 := if done >= 2 then AddToBank(t2, familyId, pay) else t2;
    var e := LedgerEntry(familyId, npcId, pay, AUTO_TAX_REASON, now);
    LedgerSumAppend(t3.ledger, e);
    assert t3.ledger + [] == t3.ledger;
    (if done >= 3 then RecordLedger(t3, e) else t3, on[u := inv])
  }

  /** Taking `n` emeralds out of a purse holding at least `n` takes exactly `n`. */
  lemma RemoveEmeralds(s: Slots, n: int)
    requires n > 0 && n <= CountItem(s, Emerald)
    ensures WellFormed(s) ==>
      && WellFormed(RemoveFrom(s, Emerald, 0, n))
      && CountItem(RemoveFrom(s, Emerald, 0, n), Emerald) == CountItem(s, Emerald) - n
  {
    if WellFormed(s) {
      assert s[0..] == s;
      RemoveFromCount(s, Emerald, 0, n);
      RemoveFromFrame(s, Emerald, 0, n, Air);
    }
  }

  lemma PurseNonNegative(s: Slots)
    ensures WellFormed(s) ==> CountItem(s, Emerald) >= 0
  {
    if WellFormed(s) {
      CountNonNegative(s, Emerald);
    }
  }

  /** An offline member is charged the full amount and nothing else happens to them. */
  lemma OfflineMemberCharged(t: TaxState, on: Online, u: Uuid, familyId: int, npcId: int, amount: int, now: int)
    requires amount > 0 && u !in on
    ensures var r := CollectMember(AddDue(t, u, amount), on, u, familyId, npcId, now);
      GetDue(r.0, u) == GetDue(t, u) + amount && r.1 == on && r.0.bank == t.bank
  {
  }

  /**
   * The storage calls one member's turn makes, in order. A throw at one
   * of them leaves the writes before it in place: the loop runs without a
   * transaction.
   */
  datatype Step =
    | AtAddDue        // addDue: nothing is written for this member
    | AtReadDue       // the first getDue, made only for an online member: the charge is written
    | AtReduceDue     // reduceDue: the emeralds are already taken
    | AtAddToBank     // addToBank: the due is already lowered
    | AtRecordLedger  // recordLedger: the bank is already credited
    | AtReadBack      // the getDue after a payment or before the warning: every write is done

  /** Which storage call throws: the member query itself, or one call of the member at `index`. */
  datatype Fault = MemberQuery | AtMember(index: nat, step: Step)

  /** The member loop's result: the tables, the purses, and whether a call threw. */
  datatype Run = Run(tax: TaxState, online: Online, failed: bool)

  /** The member's turn gets as far as the call at `s`. */
  predicate Reaches(t: TaxState, on: Online, u: Uuid, amount: int, s: Step) {
    match s
    case AtAddDue => true
    case AtReadDue => u in on
    case AtReadBack => u in on && GetDue(t, u) + amount > 0
    case _ => Payable(AddDue(t, u, amount), on, u) > 0
  }

  /** How many of the three payment writes come before the call at `s`. */
  function WritesBefore(s: Step): nat {
    match s
    case AtReduceDue => 0
    case AtAddToBank => 1
    case _ => 2
  }

  /**
   * One member's turn, charge included, when the call at `step` throws if
   * the member reaches it. A call the member does not reach does not throw,
   * and the member is processed in full.
   */
  function CollectMemberAt(t: TaxState, on: Online, u: Uuid, familyId: int, npcId: int, amount: int, now: int, step: Option<Step>): (r: Run)
    requires amount > 0
    ensures !r.failed ==>
      var full := CollectMember(AddDue(t, u, amount), on, u, familyId, npcId, now);
      r.tax == full.0 && r.online == full.1
    ensures r.failed <==> step.Some? && Reaches(t, on, u, amount, step.value)
    ensures step == Some(AtAddDue) ==> r == Run(t, on, true)
    ensures var paidIn := Balance(r.tax, familyId) - Balance(t, familyId);
      var logged := LedgerSum(r.tax.ledger) - LedgerSum(t.ledger);
      && 0 <= logged <= paidIn
      && (step != Some(AtRecordLedger) ==> logged == paidIn)
    ensures r.online.Keys == on.Keys && forall v :: v in on && v != u ==> r.online[v] == on[v]
    ensures InventoriesWellFormed(on) ==> InventoriesWellFormed(r.online)
    ensures forall v :: v != u ==> GetDue(r.tax, v) == GetDue(t, v)
    ensures forall g :: g != familyId ==> Balance(r.tax, g) == Balance(t, g)
    ensures Valid(t) ==> Valid(r.tax)
  {
    var t1 := AddDue(t, u, amount);
    if step.None? then Completed(t, on, u, familyId, npcId, amount, now, false)
    else
      match step.value
      case AtAddDue => Run(t, on, true)
      case AtReadDue => if u in on then Run(t1, on, true) else Completed(t, on, u, familyId, npcId, amount, now, false)
      case AtReadBack => Completed(t, on, u, familyId, npcId, amount, now, u in on && GetDue(t1, u) > 0)
      case _ =>
        if Payable(t1, on, u) > 0 then PayInterrupted(t, on, u, familyId, npcId, amount, now, step.value)
        else Completed(t, on, u, familyId, npcId, amount, now, false)
  }

  /** The member processed in full, charge included; `failed` says whether a later read threw. */
  function Completed(t: TaxState, on: Online, u: Uuid, familyId: int, npcId: int, amount: int, now: int, failed: bool): (r: Run)
    requires amount > 0
    ensures r.failed == failed
    ensures var full := CollectMember(AddDue(t, u, amount), on, u, familyId, npcId, now);
      r.tax == full.0 && r.online == full.1
    ensures Balance(r.tax, familyId) - Balance(t, familyId) == LedgerSum(r.tax.ledger) - LedgerSum(t.ledger) >= 0
    ensures r.online.Keys == on.Keys && forall v :: v in on && v != u ==> r.online[v] == on[v]
    ensures InventoriesWellFormed(on) ==> InventoriesWellFormed(r.online)
    ensures forall v :: v != u ==> GetDue(r.tax, v) == GetDue(t, v)
    ensures forall g :: g != familyId ==> Balance(r.tax, g) == Balance(t, g)
    ensures Valid(t) ==> Valid(r.tax)
  {
    var t1 := AddDue(t, u, amount);
    var full := CollectMember(t1, on, u, familyId, npcId, now);
    CollectMemberKeepsPurses(t1, on, u, familyId, npcId, now);
    Run(full.0, full.1, failed)
  }

  /** A throw at one of the three payment writes, the emeralds already taken. */
  function PayInterrupted(t: TaxState, on: Online, u: Uuid, familyId: int, npcId: int, amount: int, now: int, s: Step): (r: Run)
    requires amount > 0 && Payable(AddDue(t, u, amount), on, u) > 0
    requires s == AtReduceDue || s == AtAddToBank || s == AtRecordLedger
    ensures r.failed
    ensures var paidIn := Balance(r.tax, familyId) - Balance(t, familyId);
      var logged := LedgerSum(r.tax.ledger) - LedgerSum(t.ledger);
      && logged == 0 && (paidIn == 0 || s == AtRecordLedger) && paidIn >= 0
    ensures r.online.Keys == on.Keys && forall v :: v in on && v != u ==> r.online[v] == on[v]
    ensures InventoriesWellFormed(on) ==> InventoriesWellFormed(r.online)
    ensures forall v :: v != u ==> GetDue(r.tax, v) == GetDue(t, v)
    ensures forall g :: g != familyId ==> Balance(r.tax, g) == Balance(t, g)
    ensures Valid(t) ==> Valid(r.tax)
  {
    var t1 := AddDue(t, u, amount);
    var pay := Payable(t1, on, u);
    var part := SettleUpTo(t1, on, u, familyId, npcId, pay, now, WritesBefore(s));
    assert InventoriesWellFormed(on) ==> InventoriesWellFormed(part.1);
    Run(part.0, part.1, true)
  }

  /**
   * A throw inside a payment: the purse has already lost the payment,
   * and the due, the bank and the ledger hold only the writes made before
   * the throw. A throw at recordLedger leaves the bank credited with no
   * ledger line; one at reduceDue takes the emeralds and lowers no due.
   */
  lemma InterruptedPayment(t: TaxState, on: Online, u: Uuid, familyId: int, npcId: int, amount: int, now: int, s: Step)
    requires amount > 0 && u in on && WellFormed(on[u])
    requires s == AtReduceDue || s == AtAddToBank || s == AtRecordLedger
    requires Payable(AddDue(t, u, amount), on, u) > 0
    ensures var pay := Payable(AddDue(t, u, amount), on, u);
      var r := CollectMemberAt(t, on, u, familyId, npcId, amount, now, Some(s));
      && r.failed
      && u in r.online && CountItem(r.online[u], Emerald) == CountItem(on[u], Emerald) - pay
      && GetDue(r.tax, u) == GetDue(t, u) + amount - (if s == AtReduceDue then 0 else pay)
      && Balance(r.tax, familyId) == Balance(t, familyId) + (if s == AtRecordLedger then pay else 0)
      && r.tax.ledger == t.ledger
  {
    var t1 := AddDue(t, u, amount);
    var pay := Payable(t1, on, u);
    var part := SettleUpTo(t1, on, u, familyId, npcId, pay, now, WritesBefore(s));
    assert CollectMemberAt(t, on, u, familyId, npcId, amount, now, Some(s)) == PayInterrupted(t, on, u, familyId, npcId, amount, now, s);
  }

  /** The fault as seen by the rest of the list once the first member is done. */
  function Shift(fault: Option<Fault>): Option<Fault> {
    if fault.Some? && fault.value.AtMember? && fault.value.index > 0 then Some(AtMember(fault.value.index - 1, fault.value.step))
    else None
  }

  /** The step of the first member at which the fault strikes, if it is aimed at that member. */
  function StepHere(fault: Option<Fault>): Option<Step> {
    if fault.Some? && fault.value.AtMember? && fault.value.index == 0 then Some(fault.value.step) else None
  }

  /** A fault that cannot turn the books: anything but a throw at recordLedger. */
  predicate KeepsLedger(fault: Option<Fault>) {
    fault.None? || fault.value.MemberQuery? || fault.value.step != AtRecordLedger
  }

  /**
   * The member loop inside the one `try` of the collector: a throw at any
   * storage call ends the loop, and the writes made so far stay.
   */
  function CollectMembers(t: TaxState, on: Online, members: seq<Uuid>, familyId: int, npcId: int, amount: int, now: int, fault: Option<Fault>): (r: Run)
    requires amount > 0
    ensures fault == Some(MemberQuery) ==> r == Run(t, on, true)
    ensures fault == Some(AtMember(0, AtAddDue)) && |members| > 0 ==> r == Run(t, on, true)
    ensures r.failed ==> fault.Some? && (fault.value.MemberQuery? || fault.value.index < |members|)
    decreases |members|
  {
    if fault == Some(MemberQuery) then Run(t, on, true)
    else if |members| == 0 then Run(t, on, false)
    else
      var r1 := CollectMemberAt(t, on, members[0], familyId, npcId, amount, now, StepHere(fault));
      if r1.failed then r1
      else CollectMembers(r1.tax, r1.online, members[1..], familyId, npcId, amount, now, Shift(fault))
  }

  /**
   * The books of the member loop: the ledger never records more than the
   * family's bank received, the two agree unless the throw hit
   * recordLedger, the bank never shrinks, and no other family's balance
   * moves.
   */
  lemma {:induction false} CollectMembersBooks(t: TaxState, on: Online, members: seq<Uuid>, familyId: int, npcId: int, amount: int, now: int, fault: Option<Fault>)
    requires amount > 0
    ensures var r := CollectMembers(t, on, members, familyId, npcId, amount, now, fault);
      var paidIn := Balance(r.tax, familyId) - Balance(t, familyId);
      var logged := LedgerSum(r.tax.ledger) - LedgerSum(t.ledger);
      && 0 <= logged <= paidIn
      && (KeepsLedger(fault) ==> logged == paidIn)
      && forall g :: g != familyId ==> Balance(r.tax, g) == Balance(t, g)
    decreases |members|
  {
    if fault != Some(MemberQuery) && |members| > 0 {
      var r1 := CollectMemberAt(t, on, members[0], familyId, npcId, amount, now, StepHere(fault));
      if !r1.failed {
        CollectMembersBooks(r1.tax, r1.online, members[1..], familyId, npcId, amount, now, Shift(fault));
      }
    }
  }

  /**
   * The member loop keeps dues and balances non-negative and purses well
   * formed, and touches only the purses of listed members.
   */
  lemma {:induction false} CollectMembersKeeps(t: TaxState, on: Online, members: seq<Uuid>, familyId: int, npcId: int, amount: int, now: int, fault: Option<Fault>)
    requires amount > 0
    ensures var r := CollectMembers(t, on, members, familyId, npcId, amount, now, fault);
      && r.online.Keys == on.Keys && (forall v :: v in on && v !in members ==> r.online[v] == on[v])
      && (InventoriesWellFormed(on) ==> InventoriesWellFormed(r.online))
      && (Valid(t) ==> Valid(r.tax))
    decreases |members|
  {
    if fault != Some(MemberQuery) && |members| > 0 {
      var r1 := CollectMemberAt(t, on, members[0], familyId, npcId, amount, now, StepHere(fault));
      if !r1.failed {
        CollectMembersKeeps(r1.tax, r1.online, members[1..], familyId, npcId, amount, now, Shift(fault));
        assert forall v :: v in members[1..] ==> v in members;
      }
    }
  }

  /** A player who is not on the member list owes what they owed before. */
  lemma {:induction false} CollectMembersLeavesOthers(t: TaxState, on: Online, members: seq<Uuid>, familyId: int, npcId: int, amount: int, now: int, fault: Option<Fault>)
    requires amount > 0
    ensures var r := CollectMembers(t, on, members, familyId, npcId, amount, now, fault);
      forall v :: v !in members ==> GetDue(r.tax, v) == GetDue(t, v)
    decreases |members|
  {
    if fault != Some(MemberQuery) && |members| > 0 {
      var r1 := CollectMemberAt(t, on, members[0], familyId, npcId, amount, now, StepHere(fault));
      if !r1.failed {
        CollectMembersLeavesOthers(r1.tax, r1.online, members[1..], familyId, npcId, amount, now, Shift(fault));
        assert forall v :: v in members[1..] ==> v in members;
      }
    }
  }

  /**
   * With no failure, every offline member of the list (listed once) ends
   * up owing exactly the charge more than before.
   */
  lemma {:induction false} OfflineMembersCharged(t: TaxState, on: Online, members: seq<Uuid>, familyId: int, npcId: int, amount: int, now: int, u: Uuid)
    requires amount > 0 && u !in on
    requires forall i, j :: 0 <= i < j < |members| ==> members[i] != members[j]
    requires u in members
    ensures GetDue(CollectMembers(t, on, members, familyId, npcId, amount, now, None).tax, u) == GetDue(t, u) + amount
    decreases |members|
  {
    var r1 := CollectMemberAt(t, on, members[0], familyId, npcId, amount, now, None);
    if members[0] == u {
      OfflineMemberCharged(t, on, u, familyId, npcId, amount, now);
      assert u !in members[1..];
      CollectMembersLeavesOthers(r1.tax, r1.online, members[1..], familyId, npcId, amount, now, None);
    } else {
      assert u in members[1..];
      OfflineMembersCharged(r1.tax, r1.online, members[1..], familyId, npcId, amount, now, u);
    }
  }

  /** What one tax collector's turn leaves behind. */
  datatype Turn = Turn(settings: Trait, tax: TaxState, online: Online)

  /** The trait would make this NPC collect: the role, a family and a positive amount. */
  predicate Collects(tr: Trait) {
    GetRole(tr) == Some(TaxCollector) && tr.familyId.Some? && GetTaxAmount(tr) > 0
  }

  /**
   * The body of the collector loop for one NPC. `members` is the family's
   * member list as the store returns it, and `fault` the storage call
   * that throws, if one does.
   */
  function CollectorTurn(tr: Trait, t: TaxState, on: Online, npcId: int, members: seq<Uuid>, fault: Option<Fault>, now: int): (r: Turn)
    ensures !Collects(tr) ==> r == Turn(tr, t, on)
    ensures Collects(tr) && now < GetNextCollectAtMs(InitNextIfNeeded(tr, now)) ==>
      r == Turn(InitNextIfNeeded(tr, now), t, on)
    ensures Collects(tr) && now >= GetNextCollectAtMs(InitNextIfNeeded(tr, now)) ==>
      var run := CollectMembers(t, on, members, tr.familyId.value, npcId, GetTaxAmount(tr), now, fault);
      && r.tax == run.tax && r.online == run.online
      && GetNextCollectAtMs(r.settings) == (if run.failed then now + RETRY_AFTER_FAILURE_MS else now + GetIntervalMs(tr))
      && r.settings.(nextCollectAtMs := tr.nextCollectAtMs) == tr
    ensures var f := tr.familyId.GetOr(0);
      var paidIn := Balance(r.tax, f) - Balance(t, f);
      var logged := LedgerSum(r.tax.ledger) - LedgerSum(t.ledger);
      && 0 <= logged <= paidIn
      && (KeepsLedger(fault) ==> logged == paidIn)
      && forall g :: g != f ==> Balance(r.tax, g) == Balance(t, g)
    ensures forall v :: v !in members ==> GetDue(r.tax, v) == GetDue(t, v)
    ensures Valid(t) ==> Valid(r.tax)
    ensures InventoriesWellFormed(on) ==> InventoriesWellFormed(r.online)
  {
    if !Collects(tr) then Turn(tr, t, on)
    else
      var familyId := tr.familyId.value;
      var amount := GetTaxAmount(tr);
      var tr1 := InitNextIfNeeded(tr, now);
      if now < GetNextCollectAtMs(tr1) then Turn(tr1, t, on)
      else
        var run := CollectMembers(t, on, members, familyId, npcId, amount, now, fault);
        CollectMembersLeavesOthers(t, on, members, familyId, npcId, amount, now, fault);
        CollectMembersBooks(t, on, members, familyId, npcId, amount, now, fault);
        CollectMembersKeeps(t, on, members, familyId, npcId, amount, now, fault);
        var next := if run.failed then now + RETRY_AFTER_FAILURE_MS else now + GetIntervalMs(tr1);
        Turn(tr1.(nextCollectAtMs := Some(next)), run.tax, run.online)
  }

  /**
   * A collecting run over the family's member list as the store returns it
   * (each member once): every offline member of the family owes the charge
   * more, and no player outside the family owes anything new.
   */
  lemma FamilyTurnCharges(tr: Trait, t: TaxState, on: Online, npcId: int, s: Store, members: seq<Uuid>, now: int, u: Uuid)
    requires Collects(tr) && now >= GetNextCollectAtMs(InitNextIfNeeded(tr, now))
    requires forall i, j :: 0 <= i < j < |members| ==> members[i] != members[j]
    requires forall v :: v in members <==> v in MembersOfFamily(s, tr.familyId.value)
    ensures var r := CollectorTurn(tr, t, on, npcId, members, None, now);
      && (FamilyIdOf(s, u) != tr.familyId ==> GetDue(r.tax, u) == GetDue(t, u))
      && (FamilyIdOf(s, u) == tr.familyId && u !in on ==> GetDue(r.tax, u) == GetDue(t, u) + GetTaxAmount(tr))
  {
    if FamilyIdOf(s, u) == tr.familyId && u !in on {
      OfflineMembersCharged(t, on, members, tr.familyId.value, npcId, GetTaxAmount(tr), now, u);
    }
  }

  /** A turn whose deadline is still ahead changes no due and no bank balance. */
  lemma WaitingTurnIsQuiet(tr: Trait, t: TaxState, on: Online, npcId: int, members: seq<Uuid>, fault: Option<Fault>, now: int)
    requires GetNextCollectAtMs(tr) > 0 && GetNextCollectAtMs(tr) > now
    ensures CollectorTurn(tr, t, on, npcId, members, fault, now).tax == t
    ensures CollectorTurn(tr, t, on, npcId, members, fault, now).settings == tr
  {
  }
}

=== FILE: territory.dfy ===
/**
 * Family territory: the circular containment test on block x/z, the
 * build-permission rule of FamilyLandProtectListener, and its fail-closed
 * event handlers. The containment test appears twice: as the source
 * computes it in 32-bit `int` arithmetic, and as intended on unbounded
 * integers; the rest of the model uses the intended one.
 */
module Territory {
  import opened Wrappers
  import opened Store
  import JavaInt

  /** A block position; the world is absent when the location has no world. */
  datatype BlockPos = BlockPos(world: Option<string>, x: int, y: int, z: int)

  // ---------------------------------------------------------------
  // Containment
  // ---------------------------------------------------------------

  /** The squared horizontal distance test, exactly: dx² + dz² ≤ r², boundary included. */
  predicate WithinRadius(px: int, pz: int, land: FamilyLand) {
    (px - land.x) * (px - land.x) + (pz - land.z) * (pz - land.z) <= land.radius * land.radius
  }

  /** Offsets and radius small enough that no product or sum of the test overflows an `int`. */
  predicate NoOverflow(px: int, pz: int, land: FamilyLand) {
    -32767 <= px - land.x <= 32767 && -32767 <= pz - land.z <= 32767 && -46340 <= land.radius <= 46340
  }

  /**
   * The same test as the Java code evaluates it: every subtraction, product
   * and sum wraps at 32 bits. Without overflow it is the exact test.
   */
  function WithinRadiusAsWritten(px: int, pz: int, land: FamilyLand): (b: bool)
    ensures NoOverflow(px, pz, land) ==> (b <==> WithinRadius(px, pz, land))
  {
    var dx := JavaInt.Wrap(px - land.x);
    var dz := JavaInt.Wrap(pz - land.z);
    var r := land.radius;
    if NoOverflow(px, pz, land) then
      AsWrittenAgreesWhenSmall(px, pz, land);
      JavaInt.Wrap(JavaInt.Wrap(dx * dx) + JavaInt.Wrap(dz * dz)) <= JavaInt.Wrap(r * r)
    else
      JavaInt.Wrap(JavaInt.Wrap(dx * dx) + JavaInt.Wrap(dz * dz)) <= JavaInt.Wrap(r * r)
  }

  /**
   * `isInside`: same world, and within the radius on x/z; y plays no part.
   * The centre column is always inside, and without overflow the verdict
   * is the one the 32-bit code reaches.
   */
  function IsInside(pos: BlockPos, land: FamilyLand): (b: bool)
    ensures b ==> pos.world == Some(land.world)
    ensures pos.world == Some(land.world) && pos.x == land.x && pos.z == land.z ==> b
    ensures NoOverflow(pos.x, pos.z, land) ==> (b <==> IsInsideAsWritten(pos, land))
  {
    SquareNonNegative(land.radius);
    pos.world == Some(land.world) && WithinRadius(pos.x, pos.z, land)
  }

  /** `isInside` as the Java code evaluates it, with the 32-bit test. */
  predicate IsInsideAsWritten(pos: BlockPos, land: FamilyLand) {
    pos.world == Some(land.world) && WithinRadiusAsWritten(pos.x, pos.z, land)
  }

  /**
   * The overflow: a block 65536 blocks east of the centre of a radius-10
   * land counts as inside, because 65536 * 65536 wraps to 0.
   */
  lemma WrapAroundCountsFarBlockInside()
    ensures var land := FamilyLand(1, "world", 0, 64, 0, 10, true);
      WithinRadiusAsWritten(65536, 0, land) && !WithinRadius(65536, 0, land)
  {
    var land := FamilyLand(1, "world", 0, 64, 0, 10, true);
    assert JavaInt.Wrap(65536) == 65536;
    assert JavaInt.Wrap(65536 * 65536) == 0;
    assert JavaInt.Wrap(0) == 0;
    assert JavaInt.Wrap(100) == 100;
  }

  /** A land radius of 65536 wraps r*r to 0, so only the centre column counts as inside. */
  lemma WrapAroundShrinksHugeRadius()
    ensures var land := FamilyLand(1, "world", 0, 64, 0, 65536, true);
      !WithinRadiusAsWritten(1, 0, land) && WithinRadius(1, 0, land)
  {
    assert JavaInt.Wrap(65536 * 65536) == 0;
    assert JavaInt.Wrap(1) == 1;
  }

  lemma SquareBound(a: int, b: int)
    requires -b <= a <= b
    ensures 0 <= a * a <= b * b
  {
    if a >= 0 {
      assert a * a <= a * b <= b * b;
    } else {
      assert a * a == (-a) * (-a);
      assert (-a) * (-a) <= (-a) * b <= b * b;
    }
  }

  /**
   * Within the range where nothing overflows (offsets below 32768, radius
   * at most 46340) the 32-bit test and the exact test agree.
   */
  lemma AsWrittenAgreesWhenSmall(px: int, pz: int, land: FamilyLand)
    requires NoOverflow(px, pz, land)
    ensures JavaInt.Wrap(JavaInt.Wrap(JavaInt.Wrap(px - land.x) * JavaInt.Wrap(px - land.x))
                         + JavaInt.Wrap(JavaInt.Wrap(pz - land.z) * JavaInt.Wrap(pz - land.z)))
              <= JavaInt.Wrap(land.radius * land.radius)
            <==> WithinRadius(px, pz, land)
  {
    var dx := px - land.x;
    var dz := pz - land.z;
    var r := land.radius;
    SquareBound(dx, 32767);
    SquareBound(dz, 32767);
    SquareBound(r, 46340);
    assert JavaInt.Wrap(dx) == dx && JavaInt.Wrap(dz) == dz;
    assert JavaInt.Wrap(dx * dx) == dx * dx;
    assert JavaInt.Wrap(dz * dz) == dz * dz;
    assert JavaInt.Wrap(dx * dx + dz * dz) == dx * dx + dz * dz;
    assert JavaInt.Wrap(r * r) == r * r;
  }

  /**
   * What the test is for: every block counted inside lies within the
   * bounding square of the circle, |dx| <= |r| and |dz| <= |r|. The 32-bit
   * evaluation breaks exactly this (see `WrapAroundCountsFarBlockInside`).
   */
  lemma {:induction false} InsideWithinBoundingSquare(px: int, pz: int, land: FamilyLand)
    requires WithinRadius(px, pz, land)
    ensures var r := if land.radius >= 0 then land.radius else -land.radius;
      -r <= px - land.x <= r && -r <= pz - land.z <= r
  {
    var r := if land.radius >= 0 then land.radius else -land.radius;
    var dx := px - land.x;
    var dz := pz - land.z;
    assert r * r == land.radius * land.radius;
    SquareNonNegative(dx);
    SquareNonNegative(dz);
    if dx > r || dx < -r {
      BeyondSquare(dx, r);
    }
    if dz > r || dz < -r {
      BeyondSquare(dz, r);
    }
  }

  lemma SquareNonNegative(a: int)
    ensures a * a >= 0
  {
    if a < 0 {
      assert a * a == (-a) * (-a);
    }
  }

  lemma BeyondSquare(a: int, r: int)
    requires r >= 0 && (a > r || a < -r)
    ensures a * a > r * r
  {
    var b := if a >= 0 then a else -a;
    assert a * a == b * b;
    var k := b - (r + 1);
    assert b * b == r * r + (2 * r + 1) + k * (2 * (r + 1) + k);
    ProductNonNegative(k, 2 * (r + 1) + k);
  }

  lemma ProductNonNegative(x: int, y: int)
    requires x >= 0 && y >= 0
    ensures x * y >= 0
  {
  }

  /** The radius enters only squared: a negative radius behaves like its absolute value. */
  lemma NegatedRadiusSame(pos: BlockPos, land: FamilyLand)
    ensures IsInside(pos, land) == IsInside(pos, land.(radius := -land.radius))
  {
    assert (-land.radius) * (-land.radius) == land.radius * land.radius;
  }

  /** The boundary is inclusive, the height is ignored, and another world never matches. */
  lemma ContainmentShape(pos: BlockPos, land: FamilyLand, y: int)
    ensures pos.world == Some(land.world) && pos.x == land.x + land.radius && pos.z == land.z ==> IsInside(pos, land)
    ensures IsInside(pos, land) == IsInside(pos.(y := y), land)
    ensures pos.world != Some(land.world) ==> !IsInside(pos, land)
  {
  }

  // ---------------------------------------------------------------
  // Build permission
  // ---------------------------------------------------------------

  /** The index of the first land that contains `pos`, or -1. */
  function FirstContaining(lands: seq<FamilyLand>, pos: BlockPos): (k: int)
    ensures -1 <= k < |lands|
    ensures k >= 0 ==> IsInside(pos, lands[k])
    ensures forall j :: 0 <= j < |lands| && (k < 0 || j < k) ==> !IsInside(pos, lands[j])
  {
    if |lands| == 0 then -1
    else if IsInside(pos, lands[0]) then 0
    else
      var k := FirstContaining(lands[1..], pos);
      if k < 0 then -1 else k + 1
  }

  /**
   * `canBuild`: admins and unaffiliated players always may; otherwise the
   * first listed land that contains the block decides, allowing only its
   * own family; outside every land anyone may.
   */
  function CanBuild(isAdmin: bool, myFamily: Option<int>, lands: seq<FamilyLand>, pos: BlockPos): (b: bool)
    ensures isAdmin || myFamily.None? ==> b
    ensures !isAdmin && myFamily.Some? ==>
      (b <==> (forall l :: l in lands ==> !IsInside(pos, l))
              || exists k :: 0 <= k < |lands| && IsInside(pos, lands[k])
                   && (forall j :: 0 <= j < k ==> !IsInside(pos, lands[j]))
                   && lands[k].familyId == myFamily.value)
  {
    if isAdmin then true
    else if myFamily.None? then true
    else
      var k := FirstContaining(lands, pos);
      if k < 0 then true else myFamily.value == lands[k].familyId
  }

  /** With one-land-per-family listings, a non-admin of another family can never build inside a family's land. */
  lemma ForeignerBlockedInsideLand(myFamily: int, lands: seq<FamilyLand>, pos: BlockPos, k: int)
    requires 0 <= k < |lands| && IsInside(pos, lands[k])
    requires forall j :: 0 <= j < |lands| && IsInside(pos, lands[j]) ==> lands[j].familyId != myFamily
    ensures !CanBuild(false, Some(myFamily), lands, pos)
  {
  }

  /** A member of the family owning the only land containing the block may build there. */
  lemma OwnerMayBuildInOwnLand(myFamily: int, lands: seq<FamilyLand>, pos: BlockPos)
    requires forall j :: 0 <= j < |lands| && IsInside(pos, lands[j]) ==> lands[j].familyId == myFamily
    ensures CanBuild(false, Some(myFamily), lands, pos)
  {
  }

  /** Only enabled lands are consulted, so a disabled land protects nothing. */
  lemma DisabledLandsIgnored(s: Store, isAdmin: bool, myFamily: Option<int>, pos: BlockPos)
    requires forall l :: l in s.lands && IsInside(pos, l) ==> !l.enabled
    ensures CanBuild(isAdmin, myFamily, ListEnabledFamilyLands(s), pos)
  {
  }

  // ---------------------------------------------------------------
  // Event handlers
  // ---------------------------------------------------------------

  /**
   * The break and place handlers: whether the event ends up cancelled.
   * The lookups may fail, and a failure cancels the event (fail closed).
   * Admins are decided before any lookup.
   */
  function CancelBuild(isAdmin: bool, myFamily: Lookup<Option<int>>, lands: Lookup<seq<FamilyLand>>, pos: BlockPos): (cancel: bool)
    ensures isAdmin ==> !cancel
    ensures !isAdmin && myFamily.Failed? ==> cancel
    ensures !isAdmin && myFamily.Found? && myFamily.value.Some? && lands.Failed? ==> cancel
    ensures myFamily.Found? && lands.Found? ==> (cancel <==> !CanBuild(isAdmin, myFamily.value, lands.value, pos))
  {
    if isAdmin then false
    else if myFamily.Failed? then true
    else if myFamily.value.None? then false
    else if lands.Failed? then true
    else !CanBuild(isAdmin, myFamily.value, lands.value, pos)
  }

  /** `onInteract`: a click on no block is ignored; otherwise as for break and place. */
  function CancelInteract(clicked: Option<BlockPos>, isAdmin: bool, myFamily: Lookup<Option<int>>, lands: Lookup<seq<FamilyLand>>): (cancel: bool)
    ensures clicked.None? ==> !cancel
    ensures clicked.Some? ==> cancel == CancelBuild(isAdmin, myFamily, lands, clicked.value)
  {
    if clicked.None? then false else CancelBuild(isAdmin, myFamily, lands, clicked.value)
  }
}

=== FILE: text.dfy ===
/**
 * The Java string operations the plugin's text handling relies on:
 * colour-code stripping with its two regular expressions, the
 * "keep only the digits" idiom, `Integer.parseInt`, `String.trim`,
 * `lastIndexOf`, `toUpperCase` and `equalsIgnoreCase`.
 * A Dafny `char` is a Unicode scalar value, where Java counts UTF-16
 * code units: the two differ for characters outside the Basic
 * Multilingual Plane, which Java stores as two units.
 */
module Text {
  import opened Wrappers
  import JavaInt

  /** The section sign that introduces a Minecraft formatting code. */
  const SECTION: char := '§'

  predicate IsDigit(c: char) {
    '0' <= c <= '9'
  }

  predicate AllDigits(s: string) {
    forall i :: 0 <= i < |s| ==> IsDigit(s[i])
  }

  /** The character class `[0-9a-fk-orA-FK-OR]` of the colour-code pattern. */
  predicate IsColorCode(c: char) {
    || IsDigit(c)
    || ('a' <= c <= 'f') || ('k' <= c <= 'o') || c == 'r'
    || ('A' <= c <= 'F') || ('K' <= c <= 'O') || c == 'R'
  }

  /** The characters Java's regular-expression `.` refuses to match. */
  predicate IsLineTerminator(c: char) {
    c == '\n' || c == '\r' || c == '\U{0085}' || c == '\U{2028}' || c == '\U{2029}'
  }

  predicate StartsWith(s: string, prefix: string) {
    |prefix| <= |s| && s[..|prefix|] == prefix
  }

  /** `s.contains(p)`: `p` occurs at some position of `s`. */
  predicate Contains(s: string, p: string)
    decreases |s|
  {
    StartsWith(s, p) || (|s| > 0 && Contains(s[1..], p))
  }

  lemma StartsWithSelf(a: string, b: string)
    ensures StartsWith(a + b, a)
  {
    assert (a + b)[..|a|] == a;
  }

  lemma StartsWithAppend(a: string, b: string, p: string)
    requires StartsWith(a, p)
    ensures StartsWith(a + b, p)
  {
    assert (a + b)[..|p|] == a[..|p|];
  }

  /** A string that occurs in `s` has its first character in `s`. */
  lemma {:induction false} ContainsFirstChar(s: string, p: string)
    requires |p| > 0 && Contains(s, p)
    ensures p[0] in s
    decreases |s|
  {
    if StartsWith(s, p) {
      assert s[0] == p[0];
    } else {
      ContainsFirstChar(s[1..], p);
      assert forall c :: c in s[1..] ==> c in s;
    }
  }

  /** An occurrence in a suffix is an occurrence in the whole. */
  lemma {:induction false} ContainsInSuffix(s: string, k: nat, p: string)
    requires k <= |s| && Contains(s[k..], p)
    ensures Contains(s, p)
    decreases k
  {
    if k > 0 {
      assert s[1..][k - 1..] == s[k..];
      ContainsInSuffix(s[1..], k - 1, p);
    }
  }

  /** An occurrence in a prefix is an occurrence in the whole. */
  lemma {:induction false} ContainsInPrefix(s: string, m: nat, p: string)
    requires m <= |s| && Contains(s[..m], p)
    ensures Contains(s, p)
    decreases m
  {
    if StartsWith(s[..m], p) {
      assert s[..m][..|p|] == s[..|p|];
    } else {
      assert m > 0;
      assert s[..m][1..] == s[1..][..m - 1];
      ContainsInPrefix(s[1..], m - 1, p);
    }
  }

  // ---------------------------------------------------------------
  // Colour stripping
  // ---------------------------------------------------------------

  /**
   * `s.replaceAll("§[0-9a-fk-orA-FK-OR]", "")`: the scan runs left to right
   * and removes non-overlapping matches, so a '§' before a non-code
   * character survives.
   */
  function StripColor(s: string): (r: string)
    ensures |r| <= |s|
    ensures SECTION !in s ==> r == s
  {
    if |s| == 0 then ""
    else if s[0] == SECTION && |s| >= 2 && IsColorCode(s[1]) then StripColor(s[2..])
    else [s[0]] + StripColor(s[1..])
  }

  /** `s.replaceAll("§.", "")`: '§' and the next character, unless that is a line terminator. */
  function StripAny(s: string): (r: string)
    ensures |r| <= |s|
    ensures SECTION !in s ==> r == s
  {
    if |s| == 0 then ""
    else if s[0] == SECTION && |s| >= 2 && !IsLineTerminator(s[1]) then StripAny(s[2..])
    else [s[0]] + StripAny(s[1..])
  }

  /** Stripping distributes over a split point that does not cut a '§' from its code. */
  lemma {:induction false} StripColorAppend(a: string, b: string)
    requires |a| == 0 || a[|a| - 1] != SECTION
    ensures StripColor(a + b) == StripColor(a) + StripColor(b)
    decreases |a|
  {
    var ab := a + b;
    if |a| == 0 {
      assert ab == b;
    } else if a[0] == SECTION && |a| >= 2 && IsColorCode(a[1]) {
      assert ab[0] == a[0] && ab[1] == a[1];
      assert ab[2..] == a[2..] + b;
      StripColorAppend(a[2..], b);
      assert StripColor(ab) == StripColor(ab[2..]);
    } else {
      assert ab[0] == a[0];
      assert |a| >= 2 ==> ab[1] == a[1];
      assert |a| == 1 ==> a[0] != SECTION;
      assert ab[1..] == a[1..] + b;
      StripColorAppend(a[1..], b);
      assert StripColor(ab) == [a[0]] + StripColor(ab[1..]);
    }
  }

  lemma {:induction false} StripAnyAppend(a: string, b: string)
    requires |a| == 0 || a[|a| - 1] != SECTION
    ensures StripAny(a + b) == StripAny(a) + StripAny(b)
    decreases |a|
  {
    var ab := a + b;
    if |a| == 0 {
      assert ab == b;
    } else if a[0] == SECTION && |a| >= 2 && !IsLineTerminator(a[1]) {
      assert ab[0] == a[0] && ab[1] == a[1];
      assert ab[2..] == a[2..] + b;
      StripAnyAppend(a[2..], b);
      assert StripAny(ab) == StripAny(ab[2..]);
    } else {
      assert ab[0] == a[0];
      assert |a| >= 2 ==> ab[1] == a[1];
      assert |a| == 1 ==> a[0] != SECTION;
      assert ab[1..] == a[1..] + b;
      StripAnyAppend(a[1..], b);
      assert StripAny(ab) == [a[0]] + StripAny(ab[1..]);
    }
  }

  /** A '§' and a code character at the front vanish. */
  lemma StripColorCode(c: char, x: string)
    requires IsColorCode(c)
    ensures StripColor([SECTION, c] + x) == StripColor(x)
  {
    assert ([SECTION, c] + x)[2..] == x;
  }

  lemma StripAnyCode(c: char, x: string)
    requires !IsLineTerminator(c)
    ensures StripAny([SECTION, c] + x) == StripAny(x)
  {
    assert ([SECTION, c] + x)[2..] == x;
  }

  /** Text without a '§' passes through both strippers unchanged, whatever follows it. */
  lemma StripPlainPrefix(a: string, x: string)
    requires SECTION !in a
    ensures StripColor(a + x) == a + StripColor(x)
    ensures StripAny(a + x) == a + StripAny(x)
  {
    if |a| > 0 {
      StripColorAppend(a, x);
      StripAnyAppend(a, x);
    } else {
      assert a + x == x;
    }
  }

  /** Every '§' in `r` is its last character or stands before a line terminator. */
  predicate NoCodePair(r: string) {
    forall i :: 0 <= i < |r| && r[i] == SECTION ==> i == |r| - 1 || IsLineTerminator(r[i + 1])
  }

  /**
   * `replaceAll("§.", "")` leaves no '§' that is followed by anything but a
   * line terminator.
   */
  lemma {:induction false} StripAnyLeavesNoPair(s: string)
    ensures NoCodePair(StripAny(s))
    decreases |s|
  {
    if |s| > 0 {
      if s[0] == SECTION && |s| >= 2 && !IsLineTerminator(s[1]) {
        StripAnyLeavesNoPair(s[2..]);
        assert StripAny(s) == StripAny(s[2..]);
      } else {
        StripAnyLeavesNoPair(s[1..]);
        var t := StripAny(s[1..]);
        var r := StripAny(s);
        assert r == [s[0]] + t;
        if s[0] == SECTION && |s| >= 2 {
          assert s[1..] == [s[1]] + s[2..];
          assert t == [s[1]] + StripAny(s[2..]);
        }
        forall i | 1 <= i < |r| && r[i] == SECTION
          ensures i == |r| - 1 || IsLineTerminator(r[i + 1])
        {
          assert r[i] == t[i - 1];
          assert i < |r| - 1 ==> r[i + 1] == t[i];
        }
      }
    }
  }

  /**
   * The removal is a single pass: a '§' in front of a code that is
   * itself removed survives, and with the code's character after it the
   * result holds a fresh code that a second pass would remove.
   */
  lemma StripColorSinglePass(c: char, w: string)
    requires IsColorCode(c)
    ensures StripColor([SECTION, SECTION, c] + w) == [SECTION] + StripColor(w)
    ensures StripColor([SECTION, SECTION, c, c] + w) == [SECTION, c] + StripColor(w)
    ensures StripColor(StripColor([SECTION, SECTION, c, c] + w)) == StripColor(StripColor(w))
  {
    SectionBeforeCode(c, w);
    DoubledCode(c, w);
    StripColorCode(c, StripColor(w));
  }

  /** "§§cc" leaves "§c": the first pass uncovers a code. */
  lemma DoubledCode(c: char, w: string)
    requires IsColorCode(c)
    ensures StripColor([SECTION, SECTION, c, c] + w) == [SECTION, c] + StripColor(w)
  {
    var t := [SECTION, c] + ([c] + w);
    var rest := StripColor(w);
    assert [SECTION, SECTION, c, c] + w == [SECTION] + t;
    assert StripColor(t) == [c] + rest by {
      StripColorCode(c, [c] + w);
      CodeCharAlone(c, w);
    }
    assert StripColor([SECTION] + t) == [SECTION] + StripColor(t) by {
      SectionKeptBefore(t);
    }
    assert [SECTION] + ([c] + rest) == [SECTION, c] + rest;
  }

  /** A '§' not followed by a code is kept as it is. */
  lemma SectionKeptBefore(t: string)
    requires |t| == 0 || !IsColorCode(t[0])
    ensures StripColor([SECTION] + t) == [SECTION] + StripColor(t)
  {
    assert ([SECTION] + t)[1..] == t;
  }

  /** A '§' whose follower opens a code is kept, and the code is removed. */
  lemma SectionBeforeCode(c: char, w: string)
    requires IsColorCode(c)
    ensures StripColor([SECTION, SECTION, c] + w) == [SECTION] + StripColor(w)
  {
    var t := [SECTION, c] + w;
    assert [SECTION, SECTION, c] + w == [SECTION] + t;
    SectionKeptBefore(t);
    StripColorCode(c, w);
  }

  /** A code character with no '§' in front is plain text. */
  lemma CodeCharAlone(c: char, w: string)
    requires IsColorCode(c)
    ensures StripColor([c] + w) == [c] + StripColor(w)
  {
    assert ([c] + w)[1..] == w;
  }

  /** A '§' before a character that is not a code is kept. */
  lemma StripColorKeepsLoneSection(x: char, w: string)
    requires !IsColorCode(x)
    ensures StripColor([SECTION, x] + w) == [SECTION] + StripColor([x] + w)
  {
    assert ([SECTION, x] + w)[1..] == [x] + w;
  }


  // ---------------------------------------------------------------
  // Digits and integers
  // ---------------------------------------------------------------

  /** `s.replaceAll("[^0-9]", "")`: the ASCII digits of `s`, in order. */
  function KeepDigits(s: string): (r: string)
    ensures AllDigits(r)
    ensures |r| <= |s|
    ensures AllDigits(s) ==> r == s
  {
    if |s| == 0 then ""
    else if IsDigit(s[0]) then [s[0]] + KeepDigits(s[1..])
    else KeepDigits(s[1..])
  }

  /** A string without digits contributes nothing to `KeepDigits`. */
  lemma {:induction false} KeepDigitsNone(s: string)
    requires forall i :: 0 <= i < |s| ==> !IsDigit(s[i])
    ensures KeepDigits(s) == ""
    decreases |s|
  {
    if |s| > 0 {
      KeepDigitsNone(s[1..]);
    }
  }

  lemma {:induction false} KeepDigitsAppend(a: string, b: string)
    ensures KeepDigits(a + b) == KeepDigits(a) + KeepDigits(b)
    decreases |a|
  {
    if |a| == 0 {
      assert a + b == b;
    } else {
      assert (a + b)[1..] == a[1..] + b;
      KeepDigitsAppend(a[1..], b);
    }
  }

  function DigitValue(c: char): nat
    requires IsDigit(c)
  {
    c as int - '0' as int
  }

  /** The number a string of decimal digits denotes (leading zeros allowed). */
  function DigitsValue(d: string): nat
    requires AllDigits(d)
  {
    if |d| == 0 then 0 else DigitsValue(d[..|d| - 1]) * 10 + DigitValue(d[|d| - 1])
  }

  function DigitChar(n: nat): (c: char)
    requires n < 10
    ensures IsDigit(c) && DigitValue(c) == n
  {
    ('0' as int + n) as char
  }

  /** Decimal rendering of a natural number, without leading zeros (`Integer.toString`). */
  function NatToString(n: nat): (s: string)
    ensures |s| > 0 && AllDigits(s)
    ensures DigitsValue(s) == n
    ensures n > 0 ==> s[0] != '0'
  {
    if n < 10 then [DigitChar(n)]
    else
      var s := NatToString(n / 10) + [DigitChar(n % 10)];
      assert s[..|s| - 1] == NatToString(n / 10);
      s
  }

  /** String concatenation of an `int` in Java: an optional '-' then the digits. */
  function IntToString(i: int): (s: string)
    ensures |s| > 0 && (s[0] == '-' <==> i < 0)
    ensures i >= 0 ==> AllDigits(s)
  {
    if i < 0 then "-" + NatToString(-i) else NatToString(i)
  }

  /** `Integer.parseInt` applied to a string of ASCII digits only. */
  function ParseDigits(d: string): (r: Option<int>)
    requires AllDigits(d)
    ensures r.Some? <==> |d| > 0 && DigitsValue(d) <= JavaInt.INT_MAX
    ensures r.Some? ==> r.value == DigitsValue(d) && r.value >= 0
  {
    if |d| == 0 || DigitsValue(d) > JavaInt.INT_MAX then None else Some(DigitsValue(d))
  }

  /**
   * `Integer.parseInt(s)` over ASCII input: an optional sign, at least one
   * digit, and a value within `int`; anything else throws (here: None).
   */
  function ParseInt(s: string): (r: Option<int>)
    ensures r.Some? ==> JavaInt.IsInt(r.value)
    ensures r.Some? ==> |s| > 0
  {
    if |s| == 0 then None
    else if s[0] == '-' || s[0] == '+' then
      var rest := s[1..];
      if |rest| == 0 || !AllDigits(rest) then None
      else
        var n: int := DigitsValue(rest);
        var v := if s[0] == '-' then -n else n;
        if JavaInt.IsInt(v) then Some(v) else None
    else if AllDigits(s) && DigitsValue(s) <= JavaInt.INT_MAX then Some(DigitsValue(s))
    else None
  }

  /** Rendering an `int` and parsing it back gives the same `int`. */
  lemma IntToStringRoundTrip(i: int)
    requires JavaInt.IsInt(i)
    ensures ParseInt(IntToString(i)) == Some(i)
  {
    if i < 0 {
      var s := IntToString(i);
      assert s[1..] == NatToString(-i);
    } else {
      assert NatToString(i)[0] != '-';
    }
  }

  // ---------------------------------------------------------------
  // Trim, search, case
  // ---------------------------------------------------------------

  predicate IsTrimmable(c: char) {
    c <= ' '
  }

  function TrimStart(s: string): (r: string)
    ensures |r| <= |s| && r == s[|s| - |r|..]
    ensures |r| > 0 ==> !IsTrimmable(r[0])
    ensures forall i :: 0 <= i < |s| - |r| ==> IsTrimmable(s[i])
  {
    if |s| > 0 && IsTrimmable(s[0]) then TrimStart(s[1..]) else s
  }

  function TrimEnd(s: string): (r: string)
    ensures |r| <= |s| && r == s[..|r|]
    ensures |r| > 0 ==> !IsTrimmable(r[|r| - 1])
    ensures forall i :: |r| <= i < |s| ==> IsTrimmable(s[i])
  {
    if |s| > 0 && IsTrimmable(s[|s| - 1]) then TrimEnd(s[..|s| - 1]) else s
  }

  /**
   * `String.trim`: the substring between the first and the last character
   * above U+0020; everything cut off on either side is at most U+0020.
   */
  function Trim(s: string): (r: string)
    ensures |r| > 0 ==> !IsTrimmable(r[0]) && !IsTrimmable(r[|r| - 1])
    ensures forall c :: c in r ==> c in s
    ensures exists i, j ::
      && 0 <= i <= j <= |s| && r == s[i..j]
      && forall k :: 0 <= k < i || j <= k < |s| ==> IsTrimmable(s[k])
  {
    var a := TrimStart(s);
    var b := TrimEnd(a);
    var i := |s| - |a|;
    assert b == s[i..i + |b|];
    b
  }

  /** Text that starts and ends with a visible character is its own trim. */
  lemma TrimUnchanged(s: string)
    requires |s| > 0 && !IsTrimmable(s[0]) && !IsTrimmable(s[|s| - 1])
    ensures Trim(s) == s
  {
  }

  /** Trimming can only lose occurrences, never create them. */
  lemma ContainsTrimmed(s: string, p: string)
    requires Contains(Trim(s), p)
    ensures Contains(s, p)
  {
    var a := TrimStart(s);
    ContainsInPrefix(a, |TrimEnd(a)|, p);
    ContainsInSuffix(s, |s| - |a|, p);
  }

  /** `s.lastIndexOf(c)`. */
  function LastIndexOf(s: string, c: char): (r: int)
    ensures -1 <= r < |s|
    ensures r >= 0 ==> s[r] == c
    ensures forall i :: r < i < |s| ==> s[i] != c
  {
    if |s| == 0 then -1
    else if s[|s| - 1] == c then |s| - 1
    else LastIndexOf(s[..|s| - 1], c)
  }

  /**
   * `Character.toUpperCase` as far as it can produce an ASCII letter:
   * a-z, dotless i (U+0131) and long s (U+017F). Every other character
   * either is unchanged or maps to a non-ASCII character.
   */
  function UpperChar(c: char): char {
    if 'a' <= c <= 'z' then (c as int - 32) as char
    else if c == '\U{0131}' then 'I'
    else if c == '\U{017F}' then 'S'
    else c
  }

  /**
   * `Character.toLowerCase` on ASCII A-Z only; every other character is
   * left as it is.
   */
  function LowerChar(c: char): char {
    if 'A' <= c <= 'Z' then (c as int + 32) as char else c
  }

  function ToUpper(s: string): (r: string)
    ensures |r| == |s|
    ensures forall i :: 0 <= i < |s| ==> r[i] == UpperChar(s[i])
  {
    if |s| == 0 then "" else [UpperChar(s[0])] + ToUpper(s[1..])
  }

  function ToLower(s: string): (r: string)
    ensures |r| == |s|
    ensures forall i :: 0 <= i < |s| ==> r[i] == LowerChar(s[i])
  {
    if |s| == 0 then "" else [LowerChar(s[0])] + ToLower(s[1..])
  }

  /** Text whose every character is its own upper case is its own upper case. */
  lemma ToUpperFixed(s: string)
    requires forall i :: 0 <= i < |s| ==> UpperChar(s[i]) == s[i]
    ensures ToUpper(s) == s
  {
    var u := ToUpper(s);
    forall i | 0 <= i < |s|
      ensures u[i] == s[i]
    {
    }
  }

  /** Upper-casing is idempotent, and it ignores a prior lower-casing. */
  lemma UpperIdempotent(s: string)
    ensures ToUpper(ToUpper(s)) == ToUpper(s)
    ensures ToUpper(ToLower(s)) == ToUpper(s)
  {
  }

  /** `a.equalsIgnoreCase(b)`, character by character. */
  function EqualsIgnoreCase(a: string, b: string): (eq: bool)
    ensures eq ==> |a| == |b|
    ensures ToUpper(a) == ToUpper(b) || ToLower(a) == ToLower(b) ==> eq
    ensures eq ==> forall i :: 0 <= i < |a| ==> ToUpper([a[i]]) == ToUpper([b[i]]) || ToLower([a[i]]) == ToLower([b[i]])
  {
    |a| == |b| &&
    forall i :: 0 <= i < |a| ==>
      a[i] == b[i] || UpperChar(a[i]) == UpperChar(b[i]) || LowerChar(a[i]) == LowerChar(b[i])
  }
}

=== FILE: wrappers.dfy ===
/** Optional values: the model's stand-in for Java's `null` and `Optional`. */
module Wrappers {

  datatype Option<+T> = None | Some(value: T) {

    /** The held value, or `default` when there is none (Java's `getOrDefault`). */
    function GetOr(default: T): T {
      match this
      case Some(v) => v
      case None => default
    }
  }

  /** Outcome of a storage read that may throw (SQLException in the source). */
  datatype Lookup<+T> = Found(value: T) | Failed
}
